=== FILE: README.md ===
# swipx-web: a Dafny model of the video-chat client's logic

swipx-web is a React single-page client for random one-to-one video chat. This project
models the parts of it that make decisions:

- the call-session service (`WebRTCService`): joining and leaving rooms, the local media
  stream, the signalling listeners on its mock Socket.io, and camera acquisition with
  error classification;
- the room and matching helpers: configuration flags, demo rooms, the room-deletion
  skip rule, and the `findRandomUser` candidate pool;
- the application state reducers of the root component and of the Next.js context
  provider, with the local-storage restore mapping;
- the screens' business rules:
  - token charging and low-balance routing;
  - the wallet's rupee-to-token conversion;
  - the `mm:ss` and `m:ss` clocks;
  - the chat's unread counter;
  - onboarding navigation;
  - the country search;
  - the camera modal's single relaxed retry;
  - the admin plan list;
  - the settings editors;
  - email sign-in;
  - social sign-in with its demo fallbacks.

The model is functional. Every entity is an immutable datatype and every operation is a
pure function from the old state, plus whatever the browser, the network, an SDK or
`Math.random` decided, to the new state. The browser's and SDK's answers are explicit
parameters: `getUserMedia` results, `createOffer`/`createAnswer` descriptions,
`fetch` outcomes, SDK profiles, and random id parts and draws. The call service keeps a
log of its outside effects (socket messages, callback invocations, `close`, `stop`,
`disconnect`), so ordering claims can be stated. The mock socket's listener registry is
a map from event name to a sequence of callbacks.

Modules, one per source component:

| file | module | models |
|---|---|---|
| wrappers.dfy | `Wrappers` | `Option` and `Result` |
| text.dfy | `Text` | string helpers: `trim`, ASCII case, `includes`, decimal digits, `padStart`, the clock-face predicate |
| seqs.dfy | `Seqs` | `Array.prototype.filter` and order-preserving subsequences |
| types.dfy | `Types` | screens, genders, `User`, `Partial<User>` merges |
| media.dfy | `Media` | tracks, streams, `getUserMedia` outcomes |
| signaling.dfy | `Signaling` | signalling messages and the mock socket |
| call_service.dfy | `CallService` | `WebRTCService` |
| rooms.dfy | `Rooms` | `api-config.ts` |
| app_state.dfy | `AppState` | the app-state reducers and persistence |
| video_call.dfy | `VideoCall` | the video-call screen |
| camera_setup.dfy | `CameraSetup` | the camera set-up modal |
| plans_tab.dfy | `PlansTab` | the admin plan list |
| admin_utils.dfy | `AdminUtils` | the admin helpers |
| wallet.dfy | `Wallet` | the wallet screen |
| onboarding.dfy | `Onboarding` | the onboarding carousel |
| country_select.dfy | `CountrySelect` | the country picker |
| matching.dfy | `Matching` | the matching screen |
| home.dfy | `Home` | the home screen |
| settings.dfy | `Settings` | the settings screen |
| social_auth.dfy | `SocialAuth` | `social-auth.ts` |
| auth.dfy | `Auth` | the sign-in screen |

Where the code and its comments disagree, the model follows the code. For example, the
comment at components/VideoCall.tsx:336 says tokens are deducted only when a premium user
swipes, but the charge runs on entering any call. Notable points:

- The camera modal never sets the permission state to denied. Each failure only
  changes the error text.
- The social sign-in screen's fallback to the demo login on a "not configured" error
  can never run. The real sign-in is only reached for a configured provider, and its
  failures then never say "not configured" (`Auth.SocialLoginOutcome`).
- Facebook's "Facebook login was cancelled" is not rewrapped. The login promise is
  returned without being awaited inside the `try`.
- The video-call screen's two callback sets differ. After moving to the next partner, a
  partner leaving keeps the last remote stream, and a failed connection keeps the call
  marked active (`VideoCall.SwipeCallbacksDiffer`).
- A second `joinRoom` replaces the socket without disconnecting it. The old socket keeps
  its listeners, which act on the service as it is now, and the mock server's reply to
  its `join-room` is still pending. The video-call screen joins twice on every move to
  the next partner: once from the join effect at components/VideoCall.tsx:97-177, which
  the new room id re-runs, and once from the timer at components/VideoCall.tsx:419-457.
  The stale reply then fires `onUserJoined` and sends an offer for the new room, even
  after the service has left it (`CallService.StaleReplyOffersInNewRoom`,
  `CallService.StaleReplyAfterLeave`).
- `requestCameraAccess` has no caller in the modelled screens. The video-call screen uses
  `joinRoom`, `getLocalStream`, `setLocalStream`, the toggles, `leaveRoom` and `destroy`.
- A reloaded signed-in session opens the home screen with no user. The home screen
  then sends it to sign-in (`AppState.ReloadedSessionHasNoUser`).
- The video-call screen's charging effect runs again whenever the user object changes,
  and its own charge changes it. A premium user is charged for one match repeatedly
  until the balance is below 8 tokens and is then sent to the wallet
  (`VideoCall.RerunsDrainBalance`, and the Findings table).
- That refusing run returns before it hands back the cleanup, so its one-second interval
  keeps running after the screen has gone to the wallet. Each tick sets the app's call
  duration to 1, and nothing outside the call screen resets it, so the next call opens
  with the clock started and its match is not charged
  (`VideoCall.DrainedUserNextMatchFree`, and the Findings table).
- The simulated partner messages are scheduled 5 to 45 seconds into a call by an effect
  that depends on the call duration. The duration changes every second, and each change
  cancels the pending messages and schedules them afresh, so while the clock runs none
  of them arrives. `VideoCall.ReceivePartnerMessage` models what one arrival would do.

## Model

| member | source | states |
|---|---|---|
| Types.MergeIdempotent | App.tsx:103-108 | applying the same partial update twice is applying it once, and the empty update changes nothing |
| Types.Merge | App.tsx:103-108 | every field the update sets takes the update's value, and every other field keeps the user's |
| Media.SetEnabled | components/utils/webrtc-service.ts:375-389 | only tracks of the chosen kind get the flag; the other kind's tracks, track order and ids stay as they were |
| Media.SetEnabledLaws | components/utils/webrtc-service.ts:375-389 | toggling one kind never touches the other kind, and toggling back restores the stream |
| Signaling.NewSocket | components/utils/webrtc-service.ts:428-438 | a new mock socket has no listeners and is not yet connected |
| Signaling.Listeners | components/utils/webrtc-service.ts:466-477 | an event nobody registered for has no callbacks; otherwise exactly its registered list |
| Signaling.On | components/utils/webrtc-service.ts:457-462 | the callback is appended after the event's existing ones; other events are untouched |
| Signaling.Off | components/utils/webrtc-service.ts:464-474 | with a callback, only its first registration is removed; without one, the whole event is dropped; other events are untouched |
| Signaling.Disconnect | components/utils/webrtc-service.ts:481-485 | the socket is marked disconnected and holds no listeners |
| Signaling.Trigger | components/utils/webrtc-service.ts:476-479 | exactly the callbacks registered for the event run, in registration order, whether or not the socket is marked connected |
| Signaling.MarkConnected | components/utils/webrtc-service.ts:432-437 | the connect timer marks the socket connected and changes nothing else |
| Signaling.OnOrder | components/utils/webrtc-service.ts:457-479 | callbacks registered one after another are triggered in that order |
| Signaling.OnThenOff | components/utils/webrtc-service.ts:457-474 | removing a just-registered callback that was not registered before restores the event's list |
| Signaling.DisconnectSilences | components/utils/webrtc-service.ts:476-485 | after disconnect, a triggered event reaches nobody, and disconnecting again changes nothing |
| Signaling.SimulatedReply | components/utils/webrtc-service.ts:440-455 | only a `join-room` gets a reply: a `user-joined` for the same room from a `mock-partner-` id |
| CallService.Init | components/utils/webrtc-service.ts:24-46 | a new service has a `user-` id and no room, socket, peer connection or stream |
| CallService.CreateRoom | components/utils/webrtc-service.ts:48-58 | the room id starts with `room-` and the signalling URL ends with it |
| CallService.RoomSocket | components/utils/webrtc-service.ts:310-351 | the listener set-up puts exactly one listener on each of the five signalling events |
| CallService.JoinRoom | components/utils/webrtc-service.ts:60-96 | records the room and callbacks and opens a socket with the five listeners, keeping a replaced socket, undisconnected, among the detached ones; with `RTCPeerConnection` it opens a fresh peer connection and emits one `join-room` carrying the room and user ids; without it, it keeps the old peer connection, emits nothing and reports the error through `onError` when given |
| CallService.JoinTimer | components/utils/webrtc-service.ts:82-88 | the timer fires `onLocalStream` with the stream exactly when a stream and that callback exist |
| CallService.AddSenders | components/utils/webrtc-service.ts:124-129 | the ids are appended to the peer connection's senders in order; without a peer connection nothing happens |
| CallService.SetLocalStream | components/utils/webrtc-service.ts:118-134 | stores the stream, adds each of its tracks once, in order, to an existing peer connection, and fires `onLocalStream` with it |
| CallService.ToggleAudio | components/utils/webrtc-service.ts:375-381 | sets the flag on audio tracks only; without a stream nothing changes |
| CallService.ToggleVideo | components/utils/webrtc-service.ts:383-389 | sets the flag on video tracks only; without a stream nothing changes |
| CallService.TogglesCommute | components/utils/webrtc-service.ts:375-389 | the two toggles commute, and the audio toggle never changes the live video tracks |
| CallService.RequestsMade | components/utils/webrtc-service.ts:180-204 | no request off HTTPS; otherwise the ideal request, and the basic one only after the ideal one failed |
| CallService.Acquire | components/utils/webrtc-service.ts:189-221 | the first granted stream of the two requests, if it has a video track; a stream without video is an error, one without audio is not |
| CallService.AudioIsOptional | components/utils/webrtc-service.ts:216-221 | a stream without audio tracks is accepted exactly as one with them |
| CallService.Classify | components/utils/webrtc-service.ts:233-249 | the message is never empty; an unrecognised name reports the error's own message, or "Unknown camera error" when that is empty |
| CallService.KnownMessagesDistinct | components/utils/webrtc-service.ts:236-246 | the five recognised names' messages are pairwise different |
| CallService.ClassifyDistinguishesNames | components/utils/webrtc-service.ts:233-249 | two different recognised names are always reported differently |
| CallService.GetUserMedia | components/utils/webrtc-service.ts:171-260 | afterwards a local stream always exists; an acquired stream's tracks go to the peer connection and the fallback's never do; only a failed acquisition, not a missing media API, calls `onError` with the classified message |
| CallService.AddEachTrack | components/utils/webrtc-service.ts:104-109 | the ids are added in order until one that already has a sender, where `addTrack` throws; without a throw all ids are added, and no id ever gets a second sender |
| CallService.RequestCameraAccess | components/utils/webrtc-service.ts:98-116 | as written: with a peer connection, a successful acquisition always ends in a rejection, with the camera acquired and no sender added; without one it resolves; a fresh fallback stream's tracks are each added once |
| CallService.RequestCameraAccessRejectsGrant | components/utils/webrtc-service.ts:98-116 | with a peer connection and a granted one-track stream, the method rejects, and the track keeps exactly one sender |
| CallService.RequestCameraAccessOnce | components/utils/webrtc-service.ts:98-116 | corrected: every local track has a sender, a successful acquisition adds nothing more, and no track gets a second sender |
| CallService.RequestCameraAccessOnceAddsOnce | components/utils/webrtc-service.ts:98-116 | on the input that shows the double add, the track gets exactly one sender |
| CallService.CreateOffer | components/utils/webrtc-service.ts:353-369 | with a peer connection and a socket, a settled offer becomes the local description and exactly one `offer` is emitted with the room and user ids; otherwise nothing is sent |
| CallService.Dispatch | components/utils/webrtc-service.ts:476-479 | running an event's listeners never changes the session fields or whether a peer connection exists, and only appends to the log; without a peer connection it changes nothing else and logs only join and leave notices |
| CallService.Handle | components/utils/webrtc-service.ts:313-350 | one listener run keeps the session fields and whether a peer connection exists, only appends to the log, and sends nothing but an offer or an answer, and only with a peer connection |
| CallService.Deliver | components/utils/webrtc-service.ts:310-351 | an incoming message runs the socket's listeners for its event; without a socket nothing happens |
| CallService.DeliverStale | components/utils/webrtc-service.ts:313-351 | a message on a replaced socket runs that socket's listeners against the current service; with no such socket nothing happens; a replaced room socket acts exactly as the current one |
| CallService.StaleReplyOffersInNewRoom | components/utils/webrtc-service.ts:60-72 | after a second join, the reply to the first join, on the replaced socket, fires `onUserJoined` and sends an offer for the new room |
| CallService.StaleReplyAfterLeave | components/utils/webrtc-service.ts:391-420 | leaving disconnects only the current socket: a replaced socket's `user-joined` still reaches `onUserJoined` of the last join, and changes nothing else |
| CallService.RoomSocketRoutes | components/utils/webrtc-service.ts:310-351 | on the room socket each event reaches exactly its one listener |
| CallService.UserJoinedSendsOffer | components/utils/webrtc-service.ts:313-369 | `user-joined` fires `onUserJoined` and then sends exactly one offer tagged with the service's room and user |
| CallService.OfferSendsOneAnswer | components/utils/webrtc-service.ts:325-338 | an `offer` with a peer connection yields exactly one `answer` tagged with the service's room and user |
| CallService.QuietEvents | components/utils/webrtc-service.ts:320-350 | `answer`, `ice-candidate` and `user-left` never send; without a peer connection only `user-left`'s callback happens |
| CallService.DeliverIgnoresRoom | components/utils/webrtc-service.ts:310-351 | the listeners' effect does not depend on an incoming message's room id |
| CallService.JoinThenReplyOffers | components/utils/webrtc-service.ts:440-455 | joining with a peer connection and then receiving the mock server's `user-joined` reply sends an offer for the joined room |
| CallService.OnLocalCandidate | components/utils/webrtc-service.ts:150-160 | a gathered candidate is emitted as one `ice-candidate` with the room and user ids exactly when a peer connection and a socket exist; otherwise nothing happens |
| CallService.OnRemoteTrack | components/utils/webrtc-service.ts:145-148 | the only effect is notifying that remote stream; without a peer connection nothing happens |
| CallService.OnConnectionState | components/utils/webrtc-service.ts:163-168 | the only effect is notifying the current state; without a peer connection nothing happens |
| CallService.Teardown | components/utils/webrtc-service.ts:401-417 | sends nothing; closes the peer connection and disconnects the socket exactly when present, stops every local track, and disconnects last |
| CallService.LeaveEffects | components/utils/webrtc-service.ts:391-420 | `leave-room` is emitted first, only with a socket and a room id, carrying both ids; every local track is stopped before the socket is disconnected |
| CallService.LeaveRoom | components/utils/webrtc-service.ts:391-420 | performs the leave effects and ends with no peer connection, socket, local stream or room |
| CallService.Destroy | components/utils/webrtc-service.ts:422-424 | `destroy` is `leaveRoom` |
| CallService.LeaveRoomIdempotent | components/utils/webrtc-service.ts:391-420 | a second leave emits nothing and changes nothing |
| CallService.ApplyKeepsValid | components/utils/webrtc-service.ts:60-424 | no operation breaks the shape: a socket only inside a room, a peer connection only with a socket |
| CallService.RunKeepsValid | components/utils/webrtc-service.ts:60-424 | any sequence of operations keeps that shape |
| CallService.Apply | components/utils/webrtc-service.ts:60-424 | no operation, including the camera request as written and messages on replaced sockets, changes the user id or takes back a logged effect |
| CallService.Run | components/utils/webrtc-service.ts:60-424 | over any sequence of operations the user id is kept and the log only grows |
| CallService.AfterLeaveNothingFires | components/utils/webrtc-service.ts:391-424 | after leaving, messages for the disconnected socket, peer-connection events, the join timer, toggles and further leaves change nothing |
| CallService.AfterLeaveStaleOnlyNotifies | components/utils/webrtc-service.ts:391-420 | after leaving, a message on a replaced socket changes nothing but the log, where it adds only join and leave notices; with no replaced socket it changes nothing |
| Rooms.OrDefault | components/utils/api-config.ts:9-10 | an unset or empty variable takes the default |
| Rooms.ConfiguredFlags | components/utils/api-config.ts:12-39 | each flag holds exactly when its variable is non-empty and not the placeholder, and the two sign-in flags never hold in development |
| Rooms.MockRoom | components/utils/api-config.ts:47-84 | a demo room id starts with `room-` and its URL is the demo host followed by the id |
| Rooms.CreateWebRtcRoom | components/utils/api-config.ts:42-86 | never fails; unconfigured, development, a non-OK response or a failed request give a demo room; only a created room comes from the server; every URL ends with the room id |
| Rooms.DeleteWebRtcRoom | components/utils/api-config.ts:88-108 | no request exactly when unconfigured, in development or for a `room-` id; otherwise a request to a URL on the Socket.IO server ending with the room id |
| Rooms.MockRoomsNeverDeletedRemotely | components/utils/api-config.ts:42-108 | a room that room creation made up is never deleted on the server |
| Rooms.Filtered | components/utils/api-config.ts:128-136 | exactly the users that are not excluded and meet each given filter, in list order |
| Rooms.CandidatePool | components/utils/api-config.ts:138-140 | the filtered users, or everyone but the excluded id when none match; the excluded id is never in it |
| Rooms.PickIndex | components/utils/api-config.ts:142 | `floor(r * n)` for `0 <= r < 1` is a valid index |
| Rooms.FindRandomUser | components/utils/api-config.ts:123-143 | the pick is drawn from the pool, is never the excluded user, and meets the filters whenever some user does |
| Rooms.MockPoolNeverEmpty | components/utils/api-config.ts:115-140 | excluding one id leaves at least four mock users, so a user is always found |
| AppState.NavigateTo | App.tsx:95-101 | sets the screen and the in-call flag exactly for the call screen; nothing else changes |
| AppState.UpdateUser | App.tsx:103-108 | merges the update into the held user; with no user nothing changes |
| AppState.Login | App.tsx:110-117 | holds the user, signs in, opens home; preferences stay |
| AppState.Logout | App.tsx:119-126 | drops the user, signs out, opens sign-in; dark mode and onboarding stay |
| AppState.ToggleDarkMode | App.tsx:128-130 | flips dark mode and nothing else |
| AppState.CompleteOnboarding | App.tsx:132-138 | marks onboarding seen and opens sign-in; nothing else changes |
| AppState.UpdateCallDuration | nextjs/contexts/AppContext.tsx:121-123 | changes the call duration and nothing else |
| AppState.Persist | App.tsx:77-84 | exactly the onboarding, dark-mode and signed-in flags are saved |
| AppState.RestoredScreen | App.tsx:72 | onboarding if not seen; otherwise home if saved signed in, else sign-in; nextjs/contexts/AppContext.tsx:53 uses the same mapping |
| AppState.Restore | App.tsx:63-75 | nothing saved changes nothing; otherwise only the two flags and the screen are taken over; the context provider in nextjs/contexts/AppContext.tsx:45-56 runs the same restore |
| AppState.PersistRestore | App.tsx:63-84 | across save, reload and save only the onboarding and dark-mode flags survive |
| AppState.ReloadedSessionHasNoUser | App.tsx:63-75 | a reloaded signed-in session opens home with no user held |
| AppState.StepKeepsAuthConsistent | App.tsx:95-138 | every reducer keeps "signed in exactly when a user is held" |
| AppState.RunKeepsAuthConsistent | App.tsx:95-138 | any sequence of reducers keeps it |
| AppState.ReachableAuthConsistent | App.tsx:51-138 | it holds in every state reachable from the initial one |
| AppState.ToggleAndNavigateLaws | App.tsx:95-130 | toggling dark mode twice restores the state; navigating twice is navigating once |
| AppState.LogoutLogin | App.tsx:110-126 | signing out keeps the preferences, and signing in afterwards holds only the new user |
| AppState.UseApp | nextjs/contexts/AppContext.tsx:19-25 | outside a provider the hook fails with its message; inside it returns the context |
| VideoCall.FormatTime | components/VideoCall.tsx:372-376 | the clock reads back as the whole minutes and the remaining seconds, with both fields at least two digits |
| VideoCall.MinutesField | components/VideoCall.tsx:373-375 | the padded minutes have at least two digits and read back as the minutes |
| VideoCall.FormatTimeInjective | components/VideoCall.tsx:372-376 | two durations with the same clock are equal |
| VideoCall.ChargeForMatch | components/VideoCall.tsx:325-365 | nobody signed in is sent to sign-in; nothing happens once the call clock has started; a premium user is charged 8 tokens exactly when the balance covers it and is sent to the wallet otherwise; a free user with a premium partner only gets a notice |
| VideoCall.SettleAsWritten | components/VideoCall.tsx:325-370 | the effect re-run after each charge: the charges and the final balance add up to the starting balance, only the tokens change, and it stops at the first run that does not charge |
| VideoCall.RerunsDrainBalance | components/VideoCall.tsx:325-370 | a premium user is charged once per 8 tokens held, keeps the remainder below 8, and the last run sends them to the wallet |
| VideoCall.FiftyTokensChargedSixTimes | components/VideoCall.tsx:325-370 | a premium user entering a call with 50 tokens pays six times, keeps 2 and is sent to the wallet |
| VideoCall.SettleOnce | components/VideoCall.tsx:331-361 | with a paid-for-this-match guard, at most one charge is made and the outcome is the first run's |
| VideoCall.OneChargePerMatch | components/VideoCall.tsx:331-361 | with the guard, a premium user who can pay loses exactly 8 tokens once, one who cannot goes to the wallet uncharged, and a free user is never charged |
| VideoCall.RunEffectAsWritten | components/VideoCall.tsx:325-363 | as written: one run decides as `ChargeForMatch` does, and leaves its interval running exactly on the refusal, which returns before the cleanup |
| VideoCall.RunEffectCorrected | components/VideoCall.tsx:325-363 | corrected: the same decision, and no run leaves its interval running |
| VideoCall.DurationAfterLeaving | components/VideoCall.tsx:332-334 | after leaving the call screen the app's duration moves, to one more than the run's start, exactly when a leaked interval has ticked |
| VideoCall.RefusalLeavesNextMatchFree | components/VideoCall.tsx:351-363 | as written, a refusal pins the app's duration at 1, and the next match is then not charged for any user |
| VideoCall.DrainedUserNextMatchFree | components/VideoCall.tsx:325-370 | as written, every premium user's first call ends in that refusal, so the match after it is not charged |
| VideoCall.RefusalThenTopUpCharged | components/VideoCall.tsx:337-355 | corrected: after a refusal the duration stays 0, so a premium user who has topped up is charged for the next match |
| VideoCall.LowOnTokens | components/VideoCall.tsx:379 | the next-partner guard holds exactly when a new match's charge would refuse and send the user to the wallet |
| VideoCall.ChargeOnlyPremium | components/VideoCall.tsx:336-360 | a free user is never charged, and a charge never makes the balance negative or touches another field |
| VideoCall.ReceivePartnerMessage | components/VideoCall.tsx:298-310 | one arriving partner message is appended, and counted unread only while the chat is closed |
| VideoCall.ToggleChat | components/VideoCall.tsx:557-565 | flips the chat, and opening it clears the unread count |
| VideoCall.CloseChat | components/VideoCall.tsx:567-569 | closes the chat and keeps the messages and the count |
| VideoCall.SendMessage | components/VideoCall.tsx:527-541 | whitespace-only input changes nothing; otherwise exactly one trimmed user message is appended and the input cleared |
| VideoCall.UnreadBadge | components/VideoCall.tsx:969-974 | hidden while open or at zero; `9+` above nine; otherwise the count |
| VideoCall.ChatStepKeepsInvariant | components/VideoCall.tsx:307-323 | every chat operation keeps an open chat free of unread messages, and only partner messages raise the count |
| VideoCall.ChatRunKeepsInvariant | components/VideoCall.tsx:307-323 | any sequence of chat operations keeps that invariant |
| VideoCall.OnCallEvent | components/VideoCall.tsx:119-138 | a join counts up and activates; a leave counts down, never below zero, and drops the remote stream; `connected` activates; `disconnected`, `failed` and `closed` deactivate; other states change nothing |
| VideoCall.OnCallEventAfterSwipe | components/VideoCall.tsx:438-450 | after moving on, a leave only counts down and only `connected` is acted on |
| VideoCall.ParticipantCountNonNegative | components/VideoCall.tsx:119-127 | neither callback set makes the participant count negative |
| VideoCall.SwipeCallbacksDiffer | components/VideoCall.tsx:443-450 | after moving on, a leaving partner's stream is kept and a failed connection stays active |
| VideoCall.SwipeNext | components/VideoCall.tsx:378-418 | a premium user below 8 tokens is sent to the wallet with nothing torn down; otherwise the call is left, the old room deleted when there is one, a partner other than the user drawn, a new room created, the duration and chat reset |
| VideoCall.DeleteIfAny | components/VideoCall.tsx:394-396 | a deletion request goes out only for a non-empty room id the deletion rule does not skip, and never for a made-up `room-` id |
| VideoCall.JoinNextRoom | components/VideoCall.tsx:419-480 | joins the new room with all six callbacks and stops showing "connecting" |
| VideoCall.SwipeStop | components/VideoCall.tsx:488-514 | leaves the call, deletes the room when there is one, reports a zero duration, clears the chat, room and call view, and goes home |
| VideoCall.LeavingTearsDown | components/VideoCall.tsx:378-514 | ending a call on a made-up room tears the call service down and sends no deletion; moving on from it sends no deletion, and tears the service down unless the user was sent to the wallet |
| VideoCall.EnableCamera | components/VideoCall.tsx:572-670 | the ideal request, and exactly one basic retry only after `OverconstrainedError`; success grants, clears the error, closes the modal and hands the stream to the call service; failure changes only the error text, chosen by the error's name, with unknown errors quoting their message |
| VideoCall.CameraRequests | components/VideoCall.tsx:577-641 | a second request happens exactly after `OverconstrainedError` |
| VideoCall.CameraMessagesDistinct | components/VideoCall.tsx:621-665 | the three named failures give three different messages, none of them the retry failure's |
| CameraSetup.GrantedWith | components/CameraSetupModal.tsx:47-52 | permission granted, error cleared, modal closed, stream handed to the parent |
| CameraSetup.FailedWith | components/CameraSetupModal.tsx:59-87 | a failure changes only the error text and hands nothing up |
| CameraSetup.EnableCamera | components/CameraSetupModal.tsx:24-89 | a stream is handed up exactly when the first request, or the basic retry after `OverconstrainedError`, is granted; each named failure has its message; other errors quote their message; no failure grants or closes |
| CameraSetup.Skip | components/CameraSetupModal.tsx:91-95 | a warning and a closed modal, with the permission unchanged |
| CameraSetup.Render | components/CameraSetupModal.tsx:22-108 | nothing while closed; otherwise the error text when it is non-empty, and the default text when there is none or it is empty, because the text falls back on the default for any falsy error; an open modal never shows an empty text |
| CameraSetup.FailureTextsDistinct | components/CameraSetupModal.tsx:59-95 | the failure and skip texts are pairwise different |
| CameraSetup.PromptsAgree | components/CameraSetupModal.tsx:24-89 | for the same answers the modal and the call screen's camera button both grant the same stream or both fail without reaching the call service |
| CameraSetup.RetryOnlyAfterOverconstrained | components/CameraSetupModal.tsx:68-83 | the retry's answer matters only after `OverconstrainedError` |
| PlansTab.AddPlan | components/admin/PlansTab.tsx:16-31 | an empty name, non-positive minutes or a negative amount change nothing; otherwise exactly one active plan is appended and the form is reset |
| PlansTab.TogglePlan | components/admin/PlansTab.tsx:33-38 | flips `active` exactly on the plans with the id; length, order and other fields stay |
| PlansTab.DeletePlan | components/admin/PlansTab.tsx:40-43 | removes exactly the plans with the id, keeping the rest in order; an unknown id changes nothing |
| PlansTab.ToggleTwice | components/admin/PlansTab.tsx:33-38 | toggling the same id twice restores the list |
| PlansTab.AddThenDelete | components/admin/PlansTab.tsx:16-43 | deleting a freshly added plan by a new id restores the list |
| PlansTab.DeleteThenToggle | components/admin/PlansTab.tsx:33-43 | after deleting an id, deleting or toggling it again changes nothing |
| AdminUtils.StatusBadge | components/admin/utils.ts:3-10 | every status gets a non-empty class string |
| AdminUtils.StatusBadgeInjective | components/admin/utils.ts:3-10 | different statuses get different class strings |
| AdminUtils.FormatDuration | components/admin/utils.ts:12-16 | the clock reads back as the minutes and the two-digit seconds; its only colon is before the seconds; a leading zero means under a minute |
| AdminUtils.ClockAndDurationAgree | components/admin/utils.ts:12-16 | the admin clock is the call clock without the minutes' padding zero below ten minutes, and the same clock from ten minutes on |
| Wallet.TokensFor | components/Wallet.tsx:92 | the largest whole number of tokens not above 1.5 per rupee |
| Wallet.AddMoney | components/Wallet.tsx:80-99 | a missing, zero or under-100 amount is refused with the minimum's message; an accepted one credits exactly its tokens, at least 150, and changes nothing else |
| Wallet.Accepted | components/Wallet.tsx:82 | exactly the amounts of at least 100 pass; the zero test adds nothing to the minimum |
| Wallet.Preview | components/Wallet.tsx:161-172 | shown exactly for an amount of at least 100, with the tokens it buys |
| Wallet.QuickAddLabels | components/Wallet.tsx:265-279 | one label per quick amount, each the tokens that amount buys |
| Wallet.AtLeastMinimumTokens | components/Wallet.tsx:81-93 | every accepted amount buys at least 150 tokens |
| Wallet.TokensMonotone | components/Wallet.tsx:92 | paying more never buys fewer tokens |
| Wallet.WholeRupees | components/Wallet.tsx:92 | for whole rupees the tokens are `floor(3n/2)` |
| Wallet.PreviewMatchesCredit | components/Wallet.tsx:161-172 | the preview is shown exactly when the payment is accepted and shows exactly what it credits |
| Wallet.QuickAddLabelsAreCredits | components/Wallet.tsx:265-279 | the labels read 150, 750 and 1500, each what its button credits |
| Wallet.PaymentMethodIrrelevant | components/Wallet.tsx:80-99 | the payment method has no effect on the outcome |
| Onboarding.Next | components/Onboarding.tsx:40-46 | moves one slide on, or completes from the last slide |
| Onboarding.Prev | components/Onboarding.tsx:48-52 | moves one slide back, except on the first |
| Onboarding.NextLabel | components/Onboarding.tsx:134 | "Get Started" exactly on the last slide |
| Onboarding.WalkInRange | components/Onboarding.tsx:40-68 | any sequence of presses keeps it in range |
| Onboarding.Step | components/Onboarding.tsx:40-68 | a press completes onboarding only on Skip or on Next from the last slide, from the slide it was on; from a real slide it never leaves the slides |
| Onboarding.Walk | components/Onboarding.tsx:40-68 | no presses leave the carousel where it was, and only a Skip or a Next can complete it |
| Onboarding.NextPrevInverse | components/Onboarding.tsx:40-52 | before the last slide, back undoes next; after the first, next undoes back |
| Onboarding.FourNextsComplete | components/Onboarding.tsx:10-46 | three presses of next from the first slide reach the last slide, and a fourth completes onboarding |
| CountrySelect.FilterCountries | components/CountrySelect.tsx:69-71 | exactly the countries whose lower-cased name contains the lower-cased query, in list order |
| CountrySelect.EmptyQueryKeepsAll | components/CountrySelect.tsx:69-71 | an empty query keeps every country |
| CountrySelect.TypingNarrows | components/CountrySelect.tsx:69-71 | typing more only removes countries, keeping the rest in order |
| CountrySelect.Open | components/CountrySelect.tsx:67 | the picker opens with an empty query and the incoming selection |
| CountrySelect.Confirm | components/CountrySelect.tsx:73-78 | acts only with a non-empty selection, passing it on and going home |
| CountrySelect.ConfirmEnabledIffActs | components/CountrySelect.tsx:73-78 | the button is enabled exactly when confirming would act |
| Matching.CountryPart | components/Matching.tsx:72 | the selected country, or "Any Country" without one |
| Matching.GenderPart | components/Matching.tsx:73-74 | the capitalised gender, or "Any Gender" without one |
| Matching.FilterText | components/Matching.tsx:70-78 | premium users see country, separator and gender; free users always see the fixed text |
| Matching.FilterTextShowsGender | components/Matching.tsx:70-78 | for a premium user, a different gender selection gives a different filter text |
| Matching.GenderPartsDistinct | components/Matching.tsx:73-74 | the four gender parts are pairwise different |
| Matching.NextTip | components/Matching.tsx:55-57 | the tip index moves one on and wraps to the first after the last, so it stays within the tips |
| Matching.TipsCycle | components/Matching.tsx:55-57 | after as many rotations as there are tips, the same tip shows again |
| Matching.Route | components/Matching.tsx:31-68 | nobody signed in goes to sign-in on mount, cancel goes home, a found match opens the call |
| Home.Mount | components/Home.tsx:16-25 | nobody signed in is sent to sign-in |
| Home.StartChat | components/Home.tsx:27-34 | the wallet exactly for a premium user below 8 tokens; matching otherwise |
| Home.Render | components/Home.tsx:52-218 | the warning exactly for a premium user below 8 tokens; wallet shortcuts and the gender filter only for premium users; upgrade banners only for free users |
| Home.GenderButton | components/Home.tsx:197-209 | a press leads to the gender picker exactly when the button is enabled |
| Home.WarningMatchesRouting | components/Home.tsx:27-34 | the warning shows exactly when start-chat leads to the wallet, which is exactly when the call screen's next-partner guard refuses |
| Home.FreeUsersStartFree | components/Home.tsx:27-34 | a free user is never sent to the wallet, whatever the balance |
| Settings.OpenSettings | components/Settings.tsx:44 | the editor starts closed, holding the current name |
| Settings.SaveName | components/Settings.tsx:57-63 | whitespace-only input changes nothing; otherwise the trimmed name is stored and the editor closes |
| Settings.CancelEdit | components/Settings.tsx:145-150 | the typed text returns to the stored name and the editor closes |
| Settings.SaveNameStable | components/Settings.tsx:57-63 | saving the same text twice, or the saved name itself, changes nothing further |
| Settings.ChangeCountry | components/Settings.tsx:65-68 | only the country changes |
| Settings.ShownGender | components/Settings.tsx:190-195 | the select shows the user's gender, or "not specified" without one |
| Settings.ChangeGender | components/Settings.tsx:70-73 | "not specified" changes nothing; a gender changes only the gender |
| Settings.GenderSelectStable | components/Settings.tsx:190-195 | re-selecting the shown value changes nothing, and a set gender cannot be cleared |
| Settings.SetNotification | components/Settings.tsx:75-78 | the named switch takes the value and the other three keep theirs |
| Settings.SwitchesIndependent | components/Settings.tsx:75-78 | changes to different switches commute, and on one switch the last change wins |
| SocialAuth.ShouldUseMockLogin | components/utils/social-auth.ts:204-218 | the demo login is used in development or for an unconfigured provider |
| SocialAuth.MockIffUnconfigured | components/utils/social-auth.ts:204-218 | since development never configures a provider, the demo login is used exactly when the provider is unconfigured |
| SocialAuth.CreateDemoSocialUser | components/utils/social-auth.ts:174-193 | the demo user has the requested provider, an id with that provider's prefix followed by the random part, and the provider's fixed name and address |
| SocialAuth.DemoIdsDistinct | components/utils/social-auth.ts:174-193 | Google and Facebook demo ids never collide |
| SocialAuth.SignIn | components/utils/social-auth.ts:48-147 | an unconfigured provider fails up front; a configured one succeeds exactly with a profile, copying it; later Google failures are rewrapped, Facebook rewraps only a failed SDK start, and a turned-down Facebook login keeps its own message |
| SocialAuth.NotConfiguredOnlyUpFront | components/utils/social-auth.ts:50-146 | a failure mentions "not configured" exactly when the provider is unconfigured |
| SocialAuth.NotConfiguredMessagesSayIt | components/utils/social-auth.ts:50-121 | both up-front messages contain "not configured" |
| SocialAuth.LaterMessagesDoNot | components/utils/social-auth.ts:67-146 | no later failure message contains "not configured" |
| Auth.Starter | components/Auth.tsx:75-83 | every new user is a free user in India with 50 tokens and no gender |
| Auth.EmailPrefix | components/Auth.tsx:77 | the part of the address before its first '@', or all of it without one |
| Auth.EmailLogin | components/Auth.tsx:64-90 | refused exactly for an empty address or password, or an empty name on sign-up; otherwise user "1" named by the entered name or the address's prefix |
| Auth.SignInNameFromAddress | components/Auth.tsx:77 | a sign-in name starts the address, and is empty exactly when the address starts with '@' |
| Auth.FromSocial | components/Auth.tsx:110-119 | the profile\'s id, name and address are copied unchanged; the user is a free user in India with no gender and 50 tokens |
| Auth.SocialLogin | components/Auth.tsx:92-153 | the demo user when the demo login applies; otherwise the real profile, with a "not configured" failure falling back to the demo user and other failures reported |
| Auth.SocialLoginOutcome | components/Auth.tsx:92-153 | social sign-in fails exactly when a configured provider gives no profile, and reports that failure's message; the fallback never runs |
| Auth.SameStarterTerms | components/Auth.tsx:75-119 | email and social sign-in give the same starter terms |
| Auth.ForgotPassword | components/Auth.tsx:157-168 | an empty address is refused with its message; any other gets a reset link |
| Auth.SignInAddressCanReset | components/Auth.tsx:157-161 | any address email sign-in accepts is accepted by the reset form |
| Text.Trim | components/Settings.tsx:58 | removes only leading and trailing whitespace, keeping the middle as it was; the result's ends are not whitespace, and it is empty exactly when the input is all whitespace |
| Text.TrimIdempotent | components/Settings.tsx:58 | trimming twice is trimming once |

## Left out

- Browser, media and network I/O are not modelled: `RTCPeerConnection`, `getUserMedia`, `navigator.permissions`, video elements, `fetch`, SDK script loading and local storage. Their answers are parameters of the operations that use them.
- `initializeGoogleAuth` and `initializeFacebookSDK` (components/utils/social-auth.ts:12-46, 74-115) only load SDKs. Their outcomes are folded into `SocialAuth.SdkOutcome`.
- The fallback stream's canvas and audio synthesis (components/utils/webrtc-service.ts:262-308) is not modelled. Its tracks are a parameter, since the function catches its own errors and always yields a stream.
- Timers, intervals and `Math.random` are not modelled; every timer callback is an operation of its own. This covers the connect and reply delays, the matching progress bar, the tip interval, and random ids and draws. The mock server's delayed reply arrives as `CallService.DeliverOp` on the current socket or `CallService.DeliverStaleOp` on a replaced one.
- The video-call screen's join effect (components/VideoCall.tsx:97-177) is not modelled as a whole. Its clean-up destroys the service whenever the room id or the permission state changes. So when `VideoCall.EnableCamera` grants the camera, its new permission state destroys the service and stops the stream just handed to `setLocalStream`, before the effect joins again.
- Concurrency and interleavings of asynchronous handlers are out of scope. Each handler runs to completion as one step.
- The simulated partner chat schedule (components/VideoCall.tsx:286-316) is modelled as single message arrivals. Its delays and their cancellation are not; as noted above, no arrival happens while the call clock runs.
- VideoCall.ChargeForMatch: models one run of the effect's decision. Its re-runs on a changed user are modelled by `VideoCall.SettleAsWritten`, and the interval a refusing run leaves running by `VideoCall.RunEffectAsWritten`.
- Text.ToLower: lower-cases the ASCII letters only. JavaScript's `toLowerCase` also maps other letters, such as U+212A KELVIN SIGN to "k".
- CountrySelect.FilterCountries: inherits that gap. A query with a non-ASCII letter that `toLowerCase` would map to an ASCII one, such as U+212A, matches nothing in the model.
- The demo connection after room creation (components/VideoCall.tsx:242-265) is not modelled, because it is timer glue around `createWebRTCRoom`.
- The video screen's permission pre-check (components/VideoCall.tsx:180-240) is not modelled, because it only reads `navigator.permissions` and sets a message.
- `formatDate` in components/admin/utils.ts is locale-dependent.
- AdminUtils.FormatDuration: stated for whole non-negative seconds only. The source also accepts negative and fractional numbers.
- Wallet.TokensFor: stated on exact reals. The source multiplies binary floating-point numbers, which may round differently near whole numbers.
- CameraSetup.EnableCamera: the transient "trying basic settings" text is not kept. The retry's outcome overwrites it before the handler returns.
- JSX, CSS classes and success toasts are not modelled beyond the texts whose choice the source makes.
- The Plans, GenderSelect, CameraPermissionModal and admin Users/Sessions/Settings screens are not modelled, because they only render constants or route.
- The `avatar` fields of users and social profiles are not modelled, because no decision reads them.
- The chat messages' `id` and timestamp are not modelled, because they come from the clock.

## Findings

| source | as written | input that shows it | evidently intended | confidence | as-written member | corrected member |
|---|---|---|---|---|---|---|
| components/utils/webrtc-service.ts:98-116 | `requestCameraAccess` runs `getUserMedia`, which already adds every acquired track to the peer connection (lines 224-228), and then adds every local track again | a service with a peer connection whose `getUserMedia` is granted a one-track stream: the second `addTrack` of the track throws `InvalidAccessError`, which the method rethrows, so it rejects although the camera was acquired | the stream is returned, with each local track having exactly one sender | not executed | CallService.RequestCameraAccess, CallService.RequestCameraAccessRejectsGrant | CallService.RequestCameraAccessOnce, CallService.RequestCameraAccessOnceAddsOnce |
| components/VideoCall.tsx:325-370 | the charging effect lists `user` among its dependencies, and its charge replaces the user through `updateUser`; the re-run finds the duration still 0 and charges again | a premium user entering a call with 50 tokens: charged six times, down to 2 tokens, then sent to the wallet | one charge of 8 tokens per match | not executed | VideoCall.SettleAsWritten, VideoCall.FiftyTokensChargedSixTimes | VideoCall.SettleOnce, VideoCall.OneChargePerMatch |
| components/VideoCall.tsx:351-363 | the refusing branch returns before `return () => clearInterval(timer)`, so the interval started at line 332 is never cleared and keeps setting the app's call duration to 1 | a premium user entering a call with 50 tokens: after six charges the seventh run refuses and goes to the wallet; after topping up, the next call opens at duration 1 and its match is not charged | the refusal clears the interval too, so the duration stays 0 and the next match is charged | not executed | VideoCall.RunEffectAsWritten, VideoCall.RefusalLeavesNextMatchFree | VideoCall.RunEffectCorrected, VideoCall.RefusalThenTopUpCharged |

=== FILE: admin_utils.dfy ===
/** The admin panel's formatters: the user-status badge classes and the `m:ss` session duration. */
module AdminUtils {
  import opened Text
  import VideoCall

  datatype Status = Online | Offline | InCall

  /** `getStatusBadge`: the badge classes for each of the three statuses. */
  function StatusBadge(status: Status): (classes: string)
    ensures classes != ""
  {
    match status
    case Online => "bg-green-100 text-green-700 dark:bg-green-900/20 dark:text-green-400"
    case Offline => "bg-gray-100 text-gray-700 dark:bg-gray-800 dark:text-gray-400"
    case InCall => "bg-blue-100 text-blue-700 dark:bg-blue-900/20 dark:text-blue-400"
  }

  /** Different statuses get different badges. */
  lemma StatusBadgeInjective(a: Status, b: Status)
    ensures StatusBadge(a) == StatusBadge(b) ==> a == b
  {
  }

  /**
   * `formatDuration`: unpadded minutes, a colon, two-digit seconds. The text is never
   * empty, holds exactly one colon, and reads back as the whole minutes and the rest.
   */
  function FormatDuration(seconds: nat): (r: string)
    ensures ClockReads(r, seconds / 60, seconds % 60)
    ensures forall k :: 0 <= k < |r| && k != |r| - 3 ==> r[k] != ':'
    ensures r[0] == '0' ==> seconds < 60
  {
    var mins := seconds / 60;
    var mm := NatToString(mins);
    DigitsValueOfNatToString(mins);
    var ss := SecondsField(seconds % 60);
    ClockFace(mm, ss, mins, seconds % 60);
    var r := mm + ":" + ss;
    assert r[..|mm|] == mm && r[|mm| + 1..] == ss;
    r
  }

  /**
   * The call screen's clock and the admin duration differ only in padding: below ten
   * minutes the clock carries one extra leading zero, from ten minutes on they agree.
   */
  lemma ClockAndDurationAgree(seconds: nat)
    ensures seconds < 600 ==> VideoCall.FormatTime(seconds) == "0" + FormatDuration(seconds)
    ensures seconds >= 600 ==> VideoCall.FormatTime(seconds) == FormatDuration(seconds)
  {
    var mins, ss := seconds / 60, SecondsField(seconds % 60);
    Fields(seconds);
    PaddedMinutes(mins);
    if mins < 10 {
      assert "0" + NatToString(mins) + ":" + ss == "0" + (NatToString(mins) + ":" + ss);
    }
  }

  /** Both formatters are a minutes field, a colon and the same seconds field. */
  lemma Fields(seconds: nat)
    ensures VideoCall.FormatTime(seconds) == VideoCall.MinutesField(seconds / 60) + ":" + SecondsField(seconds % 60)
    ensures FormatDuration(seconds) == NatToString(seconds / 60) + ":" + SecondsField(seconds % 60)
  {
  }

  /** Padding the minutes to two digits adds a zero exactly when there is a single digit. */
  lemma PaddedMinutes(mins: nat)
    ensures mins < 10 ==> VideoCall.MinutesField(mins) == "0" + NatToString(mins)
    ensures mins >= 10 ==> VideoCall.MinutesField(mins) == NatToString(mins)
  {
  }
}

=== FILE: app_state.dfy ===
/**
 * The application-wide state and its reducers. The root component and the Next.js
 * context provider define the same state and the same reducers; this one model serves
 * both, and `Step` adds the context provider's `updateCallDuration` and the root
 * component's inline country, gender and duration setters.
 */
module AppState {
  import opened Wrappers
  import opened Types

  datatype State = State(
    currentScreen: Screen,
    user: Option<User>,
    isAuthenticated: bool,
    hasSeenOnboarding: bool,
    selectedCountry: Option<string>,
    selectedGender: Option<Gender>,
    isInCall: bool,
    callDuration: int,
    isDarkMode: bool)

  /** The state both entry points start from. */
  const Initial := State(OnboardingScreen, None, false, false, None, None, false, 0, false)

  /** The invariant the reducers keep: signed in exactly when a user is held. */
  predicate AuthConsistent(s: State) {
    s.isAuthenticated <==> s.user.Some?
  }

  /** Everything except the screen, the in-call flag and the user-related fields agrees. */
  predicate SamePreferences(s: State, r: State) {
    && r.hasSeenOnboarding == s.hasSeenOnboarding
    && r.selectedCountry == s.selectedCountry
    && r.selectedGender == s.selectedGender
    && r.callDuration == s.callDuration
    && r.isDarkMode == s.isDarkMode
  }

  function NavigateTo(s: State, screen: Screen): (r: State)
    ensures r.currentScreen == screen
    ensures r.isInCall <==> screen == VideoCallScreen
    ensures r.user == s.user && r.isAuthenticated == s.isAuthenticated
    ensures SamePreferences(s, r)
  {
    s.(currentScreen := screen, isInCall := screen == VideoCallScreen)
  }

  /** Merges the patch into the held user; with no user there is nothing to update. */
  function UpdateUser(s: State, p: UserPatch): (r: State)
    ensures s.user.None? ==> r == s
    ensures s.user.Some? ==> r.user == Some(Merge(s.user.value, p))
    ensures r.currentScreen == s.currentScreen && r.isInCall == s.isInCall
    ensures r.isAuthenticated == s.isAuthenticated
    ensures SamePreferences(s, r)
  {
    s.(user := if s.user.Some? then Some(Merge(s.user.value, p)) else None)
  }

  function Login(s: State, u: User): (r: State)
    ensures r.user == Some(u) && r.isAuthenticated
    ensures r.currentScreen == HomeScreen
    ensures r.isInCall == s.isInCall
    ensures SamePreferences(s, r)
  {
    s.(user := Some(u), isAuthenticated := true, currentScreen := HomeScreen)
  }

  /** Signs out; dark mode and the onboarding flag survive. */
  function Logout(s: State): (r: State)
    ensures r.user.None? && !r.isAuthenticated
    ensures r.currentScreen == AuthScreen
    ensures r.isInCall == s.isInCall
    ensures SamePreferences(s, r)
  {
    s.(user := None, isAuthenticated := false, currentScreen := AuthScreen)
  }

  function ToggleDarkMode(s: State): (r: State)
    ensures r.isDarkMode != s.isDarkMode
    ensures r.(isDarkMode := s.isDarkMode) == s
  {
    s.(isDarkMode := !s.isDarkMode)
  }

  function CompleteOnboarding(s: State): (r: State)
    ensures r.hasSeenOnboarding
    ensures r.currentScreen == AuthScreen
    ensures r.(hasSeenOnboarding := s.hasSeenOnboarding, currentScreen := s.currentScreen) == s
  {
    s.(hasSeenOnboarding := true, currentScreen := AuthScreen)
  }

  /** The context provider's `updateCallDuration` and the root's `onDurationUpdate`. */
  function UpdateCallDuration(s: State, duration: int): (r: State)
    ensures r.callDuration == duration
    ensures r.(callDuration := s.callDuration) == s
  {
    s.(callDuration := duration)
  }

  // ------------------------------------------------------------ persistence

  /** The three flags written to local storage under `swipx-app-state`. */
  datatype Persisted = Persisted(hasSeenOnboarding: bool, isDarkMode: bool, isAuthenticated: bool)

  function Persist(s: State): (p: Persisted)
    ensures p.hasSeenOnboarding == s.hasSeenOnboarding
    ensures p.isDarkMode == s.isDarkMode
    ensures p.isAuthenticated == s.isAuthenticated
  {
    Persisted(s.hasSeenOnboarding, s.isDarkMode, s.isAuthenticated)
  }

  /** The screen a reload opens on, given the stored flags. */
  function RestoredScreen(p: Persisted): (screen: Screen)
    ensures !p.hasSeenOnboarding ==> screen == OnboardingScreen
    ensures p.hasSeenOnboarding && p.isAuthenticated ==> screen == HomeScreen
    ensures p.hasSeenOnboarding && !p.isAuthenticated ==> screen == AuthScreen
  {
    if p.hasSeenOnboarding then (if p.isAuthenticated then HomeScreen else AuthScreen)
    else OnboardingScreen
  }

  /**
   * The mount-time restore. Nothing stored leaves the state alone; otherwise the
   * onboarding and dark-mode flags and the screen are taken over, and nothing else.
   */
  function Restore(s: State, saved: Option<Persisted>): (r: State)
    ensures saved.None? ==> r == s
    ensures saved.Some? ==> r.hasSeenOnboarding == saved.value.hasSeenOnboarding
    ensures saved.Some? ==> r.isDarkMode == saved.value.isDarkMode
    ensures saved.Some? ==> r.currentScreen == RestoredScreen(saved.value)
    ensures r.user == s.user && r.isAuthenticated == s.isAuthenticated && r.isInCall == s.isInCall
    ensures r.selectedCountry == s.selectedCountry && r.selectedGender == s.selectedGender
    ensures r.callDuration == s.callDuration
  {
    match saved
    case None => s
    case Some(p) =>
      s.(hasSeenOnboarding := p.hasSeenOnboarding,
         isDarkMode := p.isDarkMode,
         currentScreen := RestoredScreen(p))
  }

  /**
   * Only the onboarding and dark-mode flags survive a save-reload-save cycle: the
   * signed-in flag is not restored, so the next save writes the current one back.
   */
  lemma PersistRestore(s: State, p: Persisted)
    ensures Persist(Restore(s, Some(p))) == Persisted(p.hasSeenOnboarding, p.isDarkMode, s.isAuthenticated)
  {
  }

  /**
   * A reload of a signed-in session opens the home screen with no user held, so the
   * home screen's guard sends it on to the sign-in screen.
   */
  lemma ReloadedSessionHasNoUser(p: Persisted)
    requires p.hasSeenOnboarding && p.isAuthenticated
    ensures Restore(Initial, Some(p)).currentScreen == HomeScreen
    ensures Restore(Initial, Some(p)).user.None?
  {
  }

  // ------------------------------------------------------------ the reducer as a whole

  /** Every way the state can change. */
  datatype Action =
    | Navigate(screen: Screen)
    | Update(patch: UserPatch)
    | SignIn(user: User)
    | SignOut
    | ToggleDark
    | FinishOnboarding
    | SetDuration(duration: int)
    | SelectCountry(country: string)
    | SelectGender(gender: Gender)
    | Reload(saved: Option<Persisted>)

  function Step(s: State, a: Action): State {
    match a
    case Navigate(screen) => NavigateTo(s, screen)
    case Update(p) => UpdateUser(s, p)
    case SignIn(u) => Login(s, u)
    case SignOut => Logout(s)
    case ToggleDark => ToggleDarkMode(s)
    case FinishOnboarding => CompleteOnboarding(s)
    case SetDuration(d) => UpdateCallDuration(s, d)
    case SelectCountry(c) => s.(selectedCountry := Some(c))
    case SelectGender(g) => s.(selectedGender := Some(g))
    case Reload(saved) => Restore(s, saved)
  }

  /** Applies the actions in order. */
  function Run(s: State, actions: seq<Action>): State
    decreases |actions|
  {
    if |actions| == 0 then s else Run(Step(s, actions[0]), actions[1..])
  }

  /** Every single action keeps the sign-in invariant. */
  lemma StepKeepsAuthConsistent(s: State, a: Action)
    requires AuthConsistent(s)
    ensures AuthConsistent(Step(s, a))
  {
  }

  /** Whatever the app does from its initial state, `isAuthenticated` tracks the user. */
  lemma {:induction false} RunKeepsAuthConsistent(s: State, actions: seq<Action>)
    requires AuthConsistent(s)
    ensures AuthConsistent(Run(s, actions))
    decreases |actions|
  {
    if |actions| > 0 {
      StepKeepsAuthConsistent(s, actions[0]);
      RunKeepsAuthConsistent(Step(s, actions[0]), actions[1..]);
    }
  }

  lemma ReachableAuthConsistent(actions: seq<Action>)
    ensures AuthConsistent(Run(Initial, actions))
  {
    RunKeepsAuthConsistent(Initial, actions);
  }

  /** Toggling dark mode twice restores the state; navigating twice is navigating once. */
  lemma ToggleAndNavigateLaws(s: State, screen: Screen)
    ensures ToggleDarkMode(ToggleDarkMode(s)) == s
    ensures NavigateTo(NavigateTo(s, screen), screen) == NavigateTo(s, screen)
  {
  }

  /** Signing out keeps dark mode and the onboarding flag, and sign-in after sign-out holds only the new user. */
  lemma LogoutLogin(s: State, u: User)
    ensures Login(Logout(s), u).user == Some(u)
    ensures Logout(s).isDarkMode == s.isDarkMode
    ensures Logout(s).hasSeenOnboarding == s.hasSeenOnboarding
  {
  }

  // ------------------------------------------------------------ context guard

  const OutsideProviderMessage := "useApp must be used within an AppProvider"

  /** `useApp`: the context value, or the error thrown outside a provider. */
  function UseApp(context: Option<State>): (r: Result<State, string>)
    ensures context.None? <==> r.Failure?
    ensures r.Failure? ==> r.error == OutsideProviderMessage
    ensures context.Some? ==> r == Success(context.value)
  {
    match context
    case None => Failure(OutsideProviderMessage)
    case Some(c) => Success(c)
  }
}

=== FILE: auth.dfy ===
/**
 * The sign-in screen: email sign-in and sign-up, social sign-in with its demo
 * fallbacks, and the forgot-password form. A successful handler produces the user it
 * passes to `onLogin`; a refused one produces the error toast's text. Delays and
 * toasts of success are left out.
 */
module Auth {
  import opened Wrappers
  import opened Text
  import opened Types
  import opened Rooms
  import SA = SocialAuth

  const FillFieldsMessage := "Please fill in all required fields"
  const EnterEmailMessage := "Please enter your email address"
  const StarterCountry := "India"
  const StarterTokens := 50

  /** Every new session starts as a free user in India with 50 tokens and no gender. */
  function Starter(id: string, name: string, email: string): (u: User)
    ensures u.id == id && u.name == name && u.email == email
    ensures u.country == StarterCountry && u.gender.None? && !u.isPremium && u.tokens == StarterTokens
  {
    User(id, name, email, StarterCountry, None, false, StarterTokens)
  }

  /** `email.split('@')[0]`: everything before the first '@', or the whole address when it has none. */
  function EmailPrefix(email: string): (r: string)
    ensures '@' !in r
    ensures |r| <= |email| && r == email[..|r|]
    ensures |r| < |email| ==> email[|r|] == '@'
    ensures '@' !in email ==> r == email
  {
    if |email| == 0 || email[0] == '@' then ""
    else
      var rest := EmailPrefix(email[1..]);
      [email[0]] + rest
  }

  /**
   * `handleEmailLogin`: the address and password are required, and on sign-up the
   * name too. Sign-up keeps the entered name; sign-in names the user after the part
   * of the address before '@'.
   */
  function EmailLogin(email: string, password: string, name: string, isSignup: bool): (r: Result<User, string>)
    ensures r.Failure? <==> email == "" || password == "" || (isSignup && name == "")
    ensures r.Failure? ==> r.error == FillFieldsMessage
    ensures r.Success? ==> r.value == Starter("1", if isSignup then name else EmailPrefix(email), email)
  {
    if email == "" || password == "" || (isSignup && name == "") then Failure(FillFieldsMessage)
    else Success(Starter("1", if isSignup then name else EmailPrefix(email), email))
  }

  /** A sign-in name is a non-empty part of the address exactly when the address does not start with '@'. */
  lemma SignInNameFromAddress(email: string, password: string)
    requires email != "" && password != ""
    ensures EmailLogin(email, password, "", false).Success?
    ensures StartsWith(email, EmailLogin(email, password, "", false).value.name)
    ensures EmailLogin(email, password, "", false).value.name == "" <==> email[0] == '@'
  {
  }

  /** The user a social profile signs in as: its id, name and address, on starter terms. */
  function FromSocial(su: SA.SocialUser): (u: User)
    ensures u.id == su.id && u.name == su.name && u.email == su.email
    ensures u.country == "India" && u.gender.None? && !u.isPremium && u.tokens == 50
  {
    Starter(su.id, su.name, su.email)
  }

  /** The lower-case provider name the fallback toast uses. */
  function ProviderKey(p: SA.Provider): string {
    match p
    case Google => "google"
    case Facebook => "facebook"
  }

  /**
   * `handleSocialLogin`. An unconfigured provider, or any provider in development, signs
   * in the demo user straight away. Otherwise the real sign-in runs; a failure whose
   * message mentions "not configured" falls back to the demo user, and any other is
   * shown as the toast. `randomPart` is the demo id's random part.
   */
  function SocialLogin(env: Env, p: SA.Provider, sdk: SA.SdkOutcome, randomPart: string): (r: Result<User, string>)
    ensures SA.ShouldUseMockLogin(env, p) ==> r == Success(FromSocial(SA.CreateDemoSocialUser(p, randomPart)))
    ensures !SA.ShouldUseMockLogin(env, p) && SA.SignIn(env, p, sdk).Success? ==>
      r == Success(FromSocial(SA.SignIn(env, p, sdk).value))
  {
    if SA.ShouldUseMockLogin(env, p) then Success(FromSocial(SA.CreateDemoSocialUser(p, randomPart)))
    else
      match SA.SignIn(env, p, sdk)
      case Success(su) => Success(FromSocial(su))
      case Failure(message) =>
        if Contains(message, SA.NotConfiguredPhrase) then Success(FromSocial(SA.CreateDemoSocialUser(p, randomPart)))
        else if message == "" then Failure("Failed to login with " + ProviderKey(p))
        else Failure(message)
  }

  /**
   * The fallback on a "not configured" failure never runs: the real sign-in is only
   * reached for a configured provider, and its failures then never say "not
   * configured". So social sign-in fails exactly when a configured provider's SDK does
   * not hand back a profile, and the toast shows that failure's own message.
   */
  lemma SocialLoginOutcome(env: Env, p: SA.Provider, sdk: SA.SdkOutcome, randomPart: string)
    ensures SocialLogin(env, p, sdk, randomPart).Failure? <==> SA.ProviderConfigured(env, p) && !sdk.SdkProfile?
    ensures SocialLogin(env, p, sdk, randomPart).Failure? ==>
      SocialLogin(env, p, sdk, randomPart).error == SA.SignIn(env, p, sdk).error
    ensures SocialLogin(env, p, sdk, randomPart).Success? && SA.ProviderConfigured(env, p) ==>
      SocialLogin(env, p, sdk, randomPart).value == FromSocial(SA.SignIn(env, p, sdk).value)
  {
    SA.MockIffUnconfigured(env, p);
    SA.NotConfiguredOnlyUpFront(env, p, sdk);
    if SA.ProviderConfigured(env, p) && !sdk.SdkProfile? {
      SA.LaterMessagesDoNot(p);
    }
  }

  /** Email and social sign-in hand out the same starter terms. */
  lemma SameStarterTerms(email: string, password: string, name: string, isSignup: bool, su: SA.SocialUser)
    requires EmailLogin(email, password, name, isSignup).Success?
    ensures var u := EmailLogin(email, password, name, isSignup).value;
      var v := FromSocial(su);
      u.country == v.country && u.gender == v.gender && u.isPremium == v.isPremium && u.tokens == v.tokens
  {
  }

  /** The forgot-password form's result. */
  datatype Reset = ResetRefused(message: string) | ResetLinkSent

  /** `handleForgotPassword`: an empty address is refused; any other gets a reset link and the form closes. */
  function ForgotPassword(email: string): (r: Reset)
    ensures r.ResetRefused? <==> email == ""
    ensures r.ResetRefused? ==> r.message == EnterEmailMessage
  {
    if email == "" then ResetRefused(EnterEmailMessage) else ResetLinkSent
  }

  /** Any address the email sign-in accepts is also accepted by the forgot-password form. */
  lemma SignInAddressCanReset(email: string, password: string, name: string, isSignup: bool)
    requires EmailLogin(email, password, name, isSignup).Success?
    ensures ForgotPassword(email) == ResetLinkSent
  {
  }
}

=== FILE: call_service.dfy ===
/**
 * The call-session service (`WebRTCService`) as an immutable record. Every browser
 * call it makes is either a field update (the peer connection's senders and
 * descriptions) or an entry appended to `log`: a message emitted on the socket, a
 * callback fired, the peer connection closed, a track stopped, the socket
 * disconnected. Answers from the browser (is `RTCPeerConnection` there, what
 * `getUserMedia`, `createOffer` and `createAnswer` settle to) are parameters.
 */
module CallService {
  import opened Wrappers
  import opened Text
  import opened Media
  import opened Signaling

  // ------------------------------------------------------------ state

  datatype PeerState = New | Connecting | Connected | Disconnected | Failed | Closed

  /** What the model keeps of an `RTCPeerConnection`: the track ids it sends, in `addTrack` order, and the negotiation state. */
  datatype PeerConnection = PeerConnection(
    senders: seq<nat>,
    localDescription: Option<Description>,
    remoteDescription: Option<Description>,
    remoteCandidates: seq<string>)

  const FreshPeer := PeerConnection([], None, None, [])

  /** Which of the optional callbacks the caller supplied. */
  datatype Callbacks = Callbacks(
    onRemoteStream: bool,
    onLocalStream: bool,
    onUserJoined: bool,
    onUserLeft: bool,
    onConnectionStateChange: bool,
    onError: bool)

  const NoCallbacks := Callbacks(false, false, false, false, false, false)

  /** The five socket listeners `setupSocketListeners` registers. */
  datatype Handler = HandleUserJoined | HandleUserLeft | HandleOffer | HandleAnswer | HandleIceCandidate

  /** A callback invocation, with its argument. */
  datatype Notification =
    | LocalStreamReady(stream: Stream)
    | RemoteStreamReady(stream: Stream)
    | PeerJoined(userId: string)
    | PeerLeft(userId: string)
    | StateChanged(state: PeerState)
    | ErrorRaised(message: string)

  /** An outside effect, in the order the service performs them. */
  datatype Effect =
    | Emit(event: string, message: Message)
    | Notify(note: Notification)
    | ClosePeer
    | StopTrack(trackId: nat)
    | DisconnectSocket

  /**
   * `detached` holds the sockets a later `joinRoom` replaced: nothing disconnects them,
   * so their listeners stay registered and still act on the service as it is now.
   */
  datatype Service = Service(
    userId: string,
    peer: Option<PeerConnection>,
    socket: Option<Socket<Handler>>,
    roomId: Option<string>,
    localStream: Option<Stream>,
    callbacks: Callbacks,
    detached: seq<Socket<Handler>>,
    log: seq<Effect>)

  /** The shape every operation keeps: a socket only inside a room, a peer connection only with a socket. */
  predicate Valid(s: Service) {
    && (s.socket.Some? ==> s.roomId.Some?)
    && (s.peer.Some? ==> s.socket.Some?)
  }

  /** The parts of the service that describe the session rather than the negotiation. */
  predicate SameSession(s: Service, r: Service) {
    && r.userId == s.userId
    && r.socket == s.socket
    && r.roomId == s.roomId
    && r.localStream == s.localStream
    && r.callbacks == s.callbacks
    && r.detached == s.detached
  }

  /** `this.callbacks.x?.(arg)`: logged only when the callback is present. */
  function Raise(s: Service, present: bool, n: Notification): Service {
    if present then s.(log := s.log + [Notify(n)]) else s
  }

  /** JavaScript truthiness of `this.roomId`: present and non-empty. */
  predicate InRoom(s: Service) {
    s.roomId.Some? && s.roomId.value != ""
  }

  // ------------------------------------------------------------ ids and rooms

  const UserPrefix := "user-"
  const RoomPrefix := "room-"
  const SignalingBase := "wss://swipx-signaling.io/"

  /** The constructor: a random `user-` id (its random part is the parameter), nothing else. */
  function Init(userSuffix: string): (s: Service)
    ensures StartsWith(s.userId, UserPrefix)
    ensures s.peer.None? && s.socket.None? && s.roomId.None? && s.localStream.None?
    ensures s.detached == [] && s.log == []
    ensures Valid(s)
  {
    ConcatEnds(UserPrefix, userSuffix);
    Service(UserPrefix + userSuffix, None, None, None, None, NoCallbacks, [], [])
  }

  /** `createRoom`: a random `room-` id and the signalling URL that ends with it. */
  function CreateRoom(suffix: string): (room: Room)
    ensures StartsWith(room.roomId, RoomPrefix)
    ensures StartsWith(room.url, SignalingBase) && EndsWith(room.url, room.roomId)
    ensures |room.url| == |SignalingBase| + |room.roomId|
  {
    ConcatEnds(RoomPrefix, suffix);
    ConcatEnds(SignalingBase, RoomPrefix + suffix);
    Room(RoomPrefix + suffix, SignalingBase + (RoomPrefix + suffix))
  }

  // ------------------------------------------------------------ joining

  /** Which listener `setupSocketListeners` puts on an event, if any. */
  function HandlerFor(event: string): Option<Handler> {
    if event == "user-joined" then Some(HandleUserJoined)
    else if event == "user-left" then Some(HandleUserLeft)
    else if event == "offer" then Some(HandleOffer)
    else if event == "answer" then Some(HandleAnswer)
    else if event == "ice-candidate" then Some(HandleIceCandidate)
    else None
  }

  /** A new `MockSocket` after `setupSocketListeners`: one listener on each of five events. */
  function RoomSocket(): (sock: Socket<Handler>)
    ensures !sock.connected
    ensures forall e :: Listeners(sock, e) == if HandlerFor(e).Some? then [HandlerFor(e).value] else []
  {
    var s0 := NewSocket<Handler>();
    var s1 := On(s0, "user-joined", HandleUserJoined);
    var s2 := On(s1, "user-left", HandleUserLeft);
    var s3 := On(s2, "offer", HandleOffer);
    var s4 := On(s3, "answer", HandleAnswer);
    On(s4, "ice-candidate", HandleIceCandidate)
  }

  const NoWebRtcMessage := "WebRTC not supported in this browser"

  /**
   * `joinRoom`: records the room and the callbacks, opens a socket with the five
   * listeners, then either opens a fresh peer connection and emits `join-room`, or,
   * without `RTCPeerConnection`, reports the error and keeps whatever peer connection
   * it had. A previous socket or peer connection is dropped without being closed: the
   * old socket joins `detached`, listeners and all.
   */
  function JoinRoom(s: Service, roomId: string, cbs: Callbacks, rtcAvailable: bool): (r: Service)
    ensures r.roomId == Some(roomId) && r.callbacks == cbs && r.socket == Some(RoomSocket())
    ensures r.userId == s.userId && r.localStream == s.localStream
    ensures r.detached == s.detached + if s.socket.Some? then [s.socket.value] else []
    ensures rtcAvailable ==> r.peer == Some(FreshPeer)
    ensures rtcAvailable ==> r.log == s.log + [Emit("join-room", Message("join-room", Some(roomId), s.userId, Profile("User")))]
    ensures !rtcAvailable ==> r.peer == s.peer
    ensures !rtcAvailable ==> r.log == s.log + (if cbs.onError then [Notify(ErrorRaised(NoWebRtcMessage))] else [])
    ensures Valid(r)
  {
    var kept := if s.socket.Some? then s.detached + [s.socket.value] else s.detached;
    var joined := s.(roomId := Some(roomId), callbacks := cbs, socket := Some(RoomSocket()), detached := kept);
    if rtcAvailable then
      joined.(peer := Some(FreshPeer),
              log := s.log + [Emit("join-room", Message("join-room", Some(roomId), s.userId, Profile("User")))])
    else Raise(joined, cbs.onError, ErrorRaised(NoWebRtcMessage))
  }

  /** The 100 ms timer `joinRoom` sets: `onLocalStream` with the stream, if both exist by then. */
  function JoinTimer(s: Service): (r: Service)
    ensures SameSession(s, r) && r.peer == s.peer
    ensures s.localStream.Some? && s.callbacks.onLocalStream ==> r.log == s.log + [Notify(LocalStreamReady(s.localStream.value))]
    ensures !(s.localStream.Some? && s.callbacks.onLocalStream) ==> r == s
  {
    if s.localStream.Some? then Raise(s, s.callbacks.onLocalStream, LocalStreamReady(s.localStream.value)) else s
  }

  // ------------------------------------------------------------ local media

  /** `addTrack` for each id, in order, on the peer connection if there is one. */
  function AddSenders(peer: Option<PeerConnection>, ids: seq<nat>): (r: Option<PeerConnection>)
    ensures r.None? <==> peer.None?
    ensures r.Some? ==> r.value.senders == peer.value.senders + ids
    ensures r.Some? ==> r.value.(senders := peer.value.senders) == peer.value
  {
    match peer
    case None => None
    case Some(p) => Some(p.(senders := p.senders + ids))
  }

  /**
   * `setLocalStream`: stores the stream, adds each of its tracks to the peer connection
   * once, in order, and fires `onLocalStream` with it.
   */
  function SetLocalStream(s: Service, stream: Stream): (r: Service)
    ensures r.localStream == Some(stream)
    ensures r.peer.Some? <==> s.peer.Some?
    ensures r.peer.Some? ==> r.peer.value.senders == s.peer.value.senders + TrackIds(stream)
    ensures r.log == s.log + (if s.callbacks.onLocalStream then [Notify(LocalStreamReady(stream))] else [])
    ensures r.userId == s.userId && r.socket == s.socket && r.roomId == s.roomId && r.callbacks == s.callbacks
  {
    Raise(s.(localStream := Some(stream), peer := AddSenders(s.peer, TrackIds(stream))),
          s.callbacks.onLocalStream, LocalStreamReady(stream))
  }

  /** `toggleAudio(enabled)`: sets the flag on the audio tracks only; nothing without a stream. */
  function ToggleAudio(s: Service, enabled: bool): (r: Service)
    ensures s.localStream.None? ==> r == s
    ensures s.localStream.Some? ==> r.localStream.Some? && |r.localStream.value| == |s.localStream.value|
    ensures s.localStream.Some? ==> forall k :: 0 <= k < |s.localStream.value| ==>
      var t := s.localStream.value[k];
      r.localStream.value[k] == if t.kind == Audio then t.(enabled := enabled) else t
    ensures r.(localStream := s.localStream) == s
  {
    match s.localStream
    case None => s
    case Some(stream) => s.(localStream := Some(SetEnabled(stream, Audio, enabled)))
  }

  /** `toggleVideo(enabled)`: sets the flag on the video tracks only; nothing without a stream. */
  function ToggleVideo(s: Service, enabled: bool): (r: Service)
    ensures s.localStream.None? ==> r == s
    ensures s.localStream.Some? ==> r.localStream.Some? && |r.localStream.value| == |s.localStream.value|
    ensures s.localStream.Some? ==> forall k :: 0 <= k < |s.localStream.value| ==>
      var t := s.localStream.value[k];
      r.localStream.value[k] == if t.kind == Video then t.(enabled := enabled) else t
    ensures r.(localStream := s.localStream) == s
  {
    match s.localStream
    case None => s
    case Some(stream) => s.(localStream := Some(SetEnabled(stream, Video, enabled)))
  }

  /** The two toggles commute, and the audio toggle never changes how many video tracks are live. */
  lemma TogglesCommute(s: Service, a: bool, v: bool)
    ensures ToggleAudio(ToggleVideo(s, v), a) == ToggleVideo(ToggleAudio(s, a), v)
    ensures ToggleAudio(ToggleAudio(s, a), a) == ToggleAudio(s, a)
  {
    if s.localStream.Some? {
      var st := s.localStream.value;
      assert SetEnabled(SetEnabled(st, Video, v), Audio, a) == SetEnabled(SetEnabled(st, Audio, a), Video, v);
      SetEnabledLaws(st, Audio, a);
    }
  }

  // ------------------------------------------------------------ getUserMedia

  /**
   * The browser's side of one `getUserMedia` run: whether `navigator.mediaDevices`
   * exists, whether the page is on HTTPS or `localhost`, what the ideal and the basic
   * request settle to, and the synthetic stream `createFallbackStream` builds (that
   * function catches its own errors, so it always yields a stream).
   */
  datatype MediaEnv = MediaEnv(
    hasMediaDevices: bool,
    secureContext: bool,
    ideal: Attempt,
    basic: Attempt,
    fallback: Stream)

  const HttpsRequiredMessage := "Camera access requires HTTPS connection"
  const NoVideoMessage := "No video track received"
  const UnknownCameraMessage := "Unknown camera error"

  /** The constraint sets requested, in order: none off HTTPS, the basic one only after the ideal one failed. */
  function RequestsMade(env: MediaEnv): (reqs: seq<Constraints>)
    ensures |reqs| <= 2
    ensures !env.secureContext <==> reqs == []
    ensures env.secureContext ==> reqs[0] == IdealConstraints
    ensures BasicConstraints in reqs <==> env.secureContext && env.ideal.Rejected?
  {
    if !env.secureContext then []
    else if env.ideal.Granted? then [IdealConstraints]
    else [IdealConstraints, BasicConstraints]
  }

  /**
   * The inner decision of `getUserMedia` once media devices exist: the ideal request,
   * then the basic one if the ideal one failed; a stream without a video track is a
   * failure, one without audio is not.
   */
  function Acquire(env: MediaEnv): (r: Result<Stream, MediaError>)
    ensures r.Success? <==>
      && env.secureContext
      && (if env.ideal.Granted? then CountKind(env.ideal.stream, Video) > 0
          else env.basic.Granted? && CountKind(env.basic.stream, Video) > 0)
    ensures r.Success? ==> r.value == if env.ideal.Granted? then env.ideal.stream else env.basic.stream
    ensures !env.secureContext ==> r == Failure(MediaError("Error", HttpsRequiredMessage))
    ensures env.secureContext && env.ideal.Rejected? && env.basic.Rejected? ==> r == Failure(env.basic.error)
  {
    if !env.secureContext then Failure(MediaError("Error", HttpsRequiredMessage))
    else
      var got := if env.ideal.Granted? then env.ideal else env.basic;
      match got
      case Rejected(e) => Failure(e)
      case Granted(stream) =>
        if CountKind(stream, Video) == 0 then Failure(MediaError("Error", NoVideoMessage))
        else Success(stream)
  }

  /** A stream without an audio track is accepted just as one with it. */
  lemma AudioIsOptional(env: MediaEnv)
    requires env.secureContext && env.ideal.Granted?
    requires CountKind(env.ideal.stream, Video) > 0 && CountKind(env.ideal.stream, Audio) == 0
    ensures Acquire(env) == Success(env.ideal.stream)
    ensures RequestsMade(env) == [IdealConstraints]
  {
  }

  const DeniedMessage := "Camera permission was denied. Please allow camera access and reload the page."
  const NoDeviceMessage := "No camera or microphone found. Please connect a camera and microphone."
  const InUseMessage := "Camera is already in use by another application. Please close other video apps."
  const UnsupportedMessage := "Camera does not support the required settings."
  const BlockedMessage := "Camera access blocked due to security restrictions. Please use HTTPS."

  /** The error names `getUserMedia` gives a message of its own. */
  const KnownNames := {NotAllowed, NotFound, NotReadable, Overconstrained, Security}

  /** The message `getUserMedia` reports for an error, by its name. */
  function Classify(e: MediaError): (message: string)
    ensures |message| > 0
    ensures e.name !in KnownNames ==>
      message == if e.message != "" then e.message else UnknownCameraMessage
  {
    if e.name == NotAllowed then DeniedMessage
    else if e.name == NotFound then NoDeviceMessage
    else if e.name == NotReadable then InUseMessage
    else if e.name == Overconstrained then UnsupportedMessage
    else if e.name == Security then BlockedMessage
    else if e.message != "" then e.message
    else UnknownCameraMessage
  }

  lemma KnownMessagesDistinct()
    ensures DeniedMessage != NoDeviceMessage && DeniedMessage != InUseMessage && DeniedMessage != UnsupportedMessage
    ensures DeniedMessage != BlockedMessage && NoDeviceMessage != InUseMessage && NoDeviceMessage != UnsupportedMessage
    ensures NoDeviceMessage != BlockedMessage && InUseMessage != UnsupportedMessage && InUseMessage != BlockedMessage
    ensures UnsupportedMessage != BlockedMessage
  {
  }

  /** Two different recognised names get two different messages, whatever the errors' own messages. */
  lemma ClassifyDistinguishesNames(e1: MediaError, e2: MediaError)
    requires e1.name in KnownNames && e2.name in KnownNames && e1.name != e2.name
    ensures Classify(e1) != Classify(e2)
  {
    KnownMessagesDistinct();
  }

  /**
   * `getUserMedia` as the service runs it. Afterwards there is always a local stream:
   * the acquired one (whose tracks go to the peer connection, if any), or the fallback,
   * which never reaches the peer connection. Only a failed acquisition, not a missing
   * media-devices API, reports through `onError`.
   */
  function GetUserMedia(s: Service, env: MediaEnv): (r: Service)
    ensures r.localStream.Some?
    ensures !env.hasMediaDevices ==> r == s.(localStream := Some(env.fallback))
    ensures env.hasMediaDevices && Acquire(env).Success? ==>
      && r.localStream == Some(Acquire(env).value)
      && r.peer == AddSenders(s.peer, TrackIds(Acquire(env).value))
      && r.log == s.log
    ensures env.hasMediaDevices && Acquire(env).Failure? ==>
      && r.localStream == Some(env.fallback)
      && r.peer == s.peer
      && r.log == s.log + (if s.callbacks.onError then [Notify(ErrorRaised(Classify(Acquire(env).error)))] else [])
    ensures r.userId == s.userId && r.socket == s.socket && r.roomId == s.roomId && r.callbacks == s.callbacks
  {
    if !env.hasMediaDevices then s.(localStream := Some(env.fallback))
    else
      match Acquire(env)
      case Success(stream) => s.(localStream := Some(stream), peer := AddSenders(s.peer, TrackIds(stream)))
      case Failure(e) =>
        Raise(s.(localStream := Some(env.fallback)), s.callbacks.onError, ErrorRaised(Classify(e)))
  }

  /** No value occurs twice. */
  predicate NoDup(xs: seq<nat>) {
    forall i, j :: 0 <= i < j < |xs| ==> xs[i] != xs[j]
  }

  /** The senders after a run of `addTrack` calls, and whether one of them threw. */
  datatype TrackAdds = TrackAdds(senders: seq<nat>, threw: bool)

  /**
   * `addTrack` for each id, in order, as a browser runs it: a track that already has a
   * sender on the connection makes `addTrack` throw `InvalidAccessError`, which ends
   * the loop with the ids before it added.
   */
  function AddEachTrack(senders: seq<nat>, ids: seq<nat>): (r: TrackAdds)
    ensures |senders| <= |r.senders| <= |senders| + |ids|
    ensures r.senders == senders + ids[..|r.senders| - |senders|]
    ensures !r.threw <==> |r.senders| == |senders| + |ids|
    ensures r.threw ==> ids[|r.senders| - |senders|] in r.senders
    ensures NoDup(senders) ==> NoDup(r.senders)
    decreases |ids|
  {
    if |ids| == 0 then TrackAdds(senders, false)
    else if ids[0] in senders then TrackAdds(senders, true)
    else
      var next := senders + [ids[0]];
      assert NoDup(senders) ==> NoDup(next);
      var r := AddEachTrack(next, ids[1..]);
      assert ids[..|r.senders| - |senders|] == [ids[0]] + ids[1..][..|r.senders| - |next|];
      assert r.threw ==> ids[|r.senders| - |senders|] == ids[1..][|r.senders| - |next|];
      r
  }

  /** What `requestCameraAccess` leaves behind, and whether its promise rejected. */
  datatype CameraAccess = CameraAccess(service: Service, rejected: bool)

  /**
   * `requestCameraAccess` as written: `getUserMedia`, then every track of the local
   * stream is added to the peer connection again, and an `addTrack` that throws is
   * rethrown. After a successful acquisition the first track already has a sender, so
   * the method rejects, with the camera acquired and its tracks sending.
   */
  function RequestCameraAccess(s: Service, env: MediaEnv): (r: CameraAccess)
    ensures r.service.(peer := GetUserMedia(s, env).peer) == GetUserMedia(s, env)
    ensures r.service.peer.Some? <==> s.peer.Some?
    ensures s.peer.None? ==> r == CameraAccess(GetUserMedia(s, env), false)
    ensures s.peer.Some? && env.hasMediaDevices && Acquire(env).Success? ==> r == CameraAccess(GetUserMedia(s, env), true)
    ensures s.peer.Some? && (!env.hasMediaDevices || Acquire(env).Failure?) ==>
      var ids := TrackIds(env.fallback);
      (forall k :: 0 <= k < |ids| ==> ids[k] !in s.peer.value.senders + ids[..k]) ==>
        !r.rejected && r.service.peer.value.senders == s.peer.value.senders + ids
  {
    var g := GetUserMedia(s, env);
    match g.peer
    case None => CameraAccess(g, false)
    case Some(p) =>
      var ids := TrackIds(g.localStream.value);
      var a := AddEachTrack(p.senders, ids);
      assert env.hasMediaDevices && Acquire(env).Success? ==> a == TrackAdds(p.senders, true) by {
        if env.hasMediaDevices && Acquire(env).Success? {
          var stream := Acquire(env).value;
          assert CountKind(stream, Video) > 0;
          assert p.senders[|s.peer.value.senders|] == ids[0];
        }
      }
      assert (!env.hasMediaDevices || Acquire(env).Failure?) && (forall k :: 0 <= k < |ids| ==> ids[k] !in p.senders + ids[..k])
        ==> !a.threw;
      CameraAccess(g.(peer := Some(p.(senders := a.senders))), a.threw)
  }

  /**
   * With a peer connection and a granted one-track stream, the method rejects: the
   * track's second `addTrack` throws, and the track keeps its one sender.
   */
  lemma RequestCameraAccessRejectsGrant()
    ensures var track := Track(7, Video, true);
      var s := Init("a").(peer := Some(FreshPeer));
      var env := MediaEnv(true, true, Granted([track]), Granted([]), []);
      var r := RequestCameraAccess(s, env);
      r.rejected && r.service.peer.value.senders == [7] && r.service.localStream == Some([track])
  {
    var track := Track(7, Video, true);
    assert CountKind([track], Video) == 1;
  }

  /** `addTrack` for each id that has no sender yet, in order. */
  function AddMissing(senders: seq<nat>, ids: seq<nat>): (r: seq<nat>)
    ensures |senders| <= |r| && r[..|senders|] == senders
    ensures forall x :: x in r <==> x in senders || x in ids
    ensures NoDup(senders) ==> NoDup(r)
    ensures (forall k :: 0 <= k < |ids| ==> ids[k] in senders) ==> r == senders
    decreases |ids|
  {
    if |ids| == 0 then senders
    else if ids[0] in senders then AddMissing(senders, ids[1..])
    else
      var next := senders + [ids[0]];
      assert NoDup(senders) ==> NoDup(next);
      var r := AddMissing(next, ids[1..]);
      assert r[..|senders|] == r[..|next|][..|senders|];
      assert forall x :: x in ids <==> x == ids[0] || x in ids[1..];
      r
  }

  /**
   * `requestCameraAccess` adding each track once: tracks that already have a sender are
   * skipped, so every track of the local stream has a sender, a successful acquisition
   * (which already added its tracks) adds nothing more, and no track gets a second sender.
   */
  function RequestCameraAccessOnce(s: Service, env: MediaEnv): (r: Service)
    ensures r.localStream == GetUserMedia(s, env).localStream
    ensures r.peer.Some? <==> s.peer.Some?
    ensures r.peer.Some? ==> forall k :: 0 <= k < |r.localStream.value| ==> r.localStream.value[k].id in r.peer.value.senders
    ensures env.hasMediaDevices && Acquire(env).Success? ==> r == GetUserMedia(s, env)
    ensures r.peer.Some? && NoDup(GetUserMedia(s, env).peer.value.senders) ==> NoDup(r.peer.value.senders)
  {
    var g := GetUserMedia(s, env);
    match g.peer
    case None => g
    case Some(p) =>
      var ids := TrackIds(g.localStream.value);
      assert forall k :: 0 <= k < |g.localStream.value| ==> g.localStream.value[k].id in ids by {
        forall k | 0 <= k < |g.localStream.value| ensures g.localStream.value[k].id in ids {
          assert ids[k] == g.localStream.value[k].id;
        }
      }
      assert env.hasMediaDevices && Acquire(env).Success? ==> forall k :: 0 <= k < |ids| ==> ids[k] in p.senders by {
        if env.hasMediaDevices && Acquire(env).Success? {
          forall k | 0 <= k < |ids| ensures ids[k] in p.senders {
            assert p.senders[|s.peer.value.senders| + k] == ids[k];
          }
        }
      }
      g.(peer := Some(p.(senders := AddMissing(p.senders, ids))))
  }

  /** On the same input that shows the double add, the corrected operation adds the track once. */
  lemma RequestCameraAccessOnceAddsOnce()
    ensures var track := Track(7, Video, true);
      var s := Init("a").(peer := Some(FreshPeer));
      var env := MediaEnv(true, true, Granted([track]), Granted([]), []);
      RequestCameraAccessOnce(s, env).peer.value.senders == [7]
  {
    var track := Track(7, Video, true);
    assert CountKind([track], Video) == 1;
  }

  // ------------------------------------------------------------ signalling

  /** What `createOffer` and `createAnswer` settle to: a description, or `None` for a rejection. */
  datatype Negotiation = Negotiation(offer: Option<Description>, answer: Option<Description>)

  /** `createOffer`: with a peer connection and a socket, sets the local description and emits one `offer`. */
  function CreateOffer(s: Service, offer: Option<Description>): (r: Service)
    ensures SameSession(s, r)
    ensures s.peer.None? || s.socket.None? || offer.None? ==> r == s
    ensures s.peer.Some? && s.socket.Some? && offer.Some? ==>
      && r.log == s.log + [Emit("offer", Message("offer", s.roomId, s.userId, Sdp(offer.value)))]
      && r.peer == Some(s.peer.value.(localDescription := offer))
  {
    if s.peer.None? || s.socket.None? || offer.None? then s
    else s.(peer := Some(s.peer.value.(localDescription := offer)),
            log := s.log + [Emit("offer", Message("offer", s.roomId, s.userId, Sdp(offer.value)))])
  }

  /**
   * One socket listener run on one incoming message. It never changes the session
   * fields or whether a peer connection exists, only appends to the log, and the only
   * messages it sends are an offer or an answer, and only with a peer connection.
   */
  function Handle(s: Service, h: Handler, msg: Message, neg: Negotiation): (r: Service)
    ensures SameSession(s, r)
    ensures r.peer.Some? <==> s.peer.Some?
    ensures |s.log| <= |r.log| && r.log[..|s.log|] == s.log
    ensures forall k :: |s.log| <= k < |r.log| && r.log[k].Emit? ==>
      s.peer.Some? && (r.log[k].event == "offer" || r.log[k].event == "answer")
    ensures s.peer.None? ==> r.(log := s.log) == s
    ensures s.peer.None? ==> forall k :: |s.log| <= k < |r.log| ==> PeerNotice(r.log[k], msg.userId)
  {
    match h
    case HandleUserJoined => CreateOffer(Raise(s, s.callbacks.onUserJoined, PeerJoined(msg.userId)), neg.offer)
    case HandleUserLeft => Raise(s, s.callbacks.onUserLeft, PeerLeft(msg.userId))
    case HandleOffer =>
      if s.peer.None? || !msg.data.Sdp? then s
      else
        var p := s.peer.value.(remoteDescription := Some(msg.data.description));
        if neg.answer.None? then s.(peer := Some(p))
        else
          s.(peer := Some(p.(localDescription := neg.answer)),
             log := s.log + [Emit("answer", Message("answer", s.roomId, s.userId, Sdp(neg.answer.value)))])
    case HandleAnswer =>
      if s.peer.None? || !msg.data.Sdp? then s
      else s.(peer := Some(s.peer.value.(remoteDescription := Some(msg.data.description))))
    case HandleIceCandidate =>
      if s.peer.None? || !msg.data.Candidate? then s
      else s.(peer := Some(s.peer.value.(remoteCandidates := s.peer.value.remoteCandidates + [msg.data.candidate])))
  }

  /** A join or leave notification about `userId`: all a listener can do without a peer connection. */
  predicate PeerNotice(e: Effect, userId: string) {
    e == Notify(PeerJoined(userId)) || e == Notify(PeerLeft(userId))
  }

  /**
   * The listeners of one event, run in registration order. Without a peer connection
   * they change nothing but the log, and add nothing to it but join and leave notices.
   */
  function Dispatch(s: Service, handlers: seq<Handler>, msg: Message, neg: Negotiation): (r: Service)
    ensures SameSession(s, r)
    ensures r.peer.Some? <==> s.peer.Some?
    ensures |s.log| <= |r.log| && r.log[..|s.log|] == s.log
    ensures s.peer.None? ==> r.(log := s.log) == s
    ensures s.peer.None? ==> forall k :: |s.log| <= k < |r.log| ==> PeerNotice(r.log[k], msg.userId)
    decreases |handlers|
  {
    if |handlers| == 0 then s
    else
      var next := Handle(s, handlers[0], msg, neg);
      var r := Dispatch(next, handlers[1..], msg, neg);
      assert r.log[..|s.log|] == r.log[..|next.log|][..|s.log|];
      assert s.peer.None? ==> forall k :: |s.log| <= k < |r.log| ==> PeerNotice(r.log[k], msg.userId) by {
        if s.peer.None? {
          forall k | |s.log| <= k < |r.log| ensures PeerNotice(r.log[k], msg.userId) {
            if k < |next.log| {
              assert r.log[k] == r.log[..|next.log|][k] == next.log[k];
            }
          }
        }
      }
      r
  }

  /**
   * An incoming message on `event`: the socket's listeners for it run; without a
   * socket nothing happens. The session fields never change and the log only grows.
   */
  function Deliver(s: Service, event: string, msg: Message, neg: Negotiation): (r: Service)
    ensures s.socket.None? ==> r == s
    ensures SameSession(s, r)
    ensures r.peer.Some? <==> s.peer.Some?
    ensures |s.log| <= |r.log| && r.log[..|s.log|] == s.log
  {
    match s.socket
    case None => s
    case Some(sock) => Dispatch(s, Trigger(sock, event), msg, neg)
  }

  /**
   * An incoming message on the `index`-th replaced socket: its listeners still run,
   * against the service's current peer connection, socket and callbacks.
   */
  function DeliverStale(s: Service, index: nat, event: string, msg: Message, neg: Negotiation): (r: Service)
    ensures index >= |s.detached| ==> r == s
    ensures SameSession(s, r)
    ensures r.peer.Some? <==> s.peer.Some?
    ensures |s.log| <= |r.log| && r.log[..|s.log|] == s.log
    ensures index < |s.detached| && s.detached[index] == RoomSocket() && s.socket == Some(RoomSocket()) ==>
      r == Deliver(s, event, msg, neg)
  {
    if index < |s.detached| then Dispatch(s, Trigger(s.detached[index], event), msg, neg) else s
  }

  /** The socket `joinRoom` opens routes each event to its one listener. */
  lemma {:induction false} RoomSocketRoutes(s: Service, event: string, msg: Message, neg: Negotiation)
    requires s.socket == Some(RoomSocket())
    ensures HandlerFor(event).None? ==> Deliver(s, event, msg, neg) == s
    ensures HandlerFor(event).Some? ==> Deliver(s, event, msg, neg) == Handle(s, HandlerFor(event).value, msg, neg)
  {
    assert Trigger(RoomSocket(), event) == if HandlerFor(event).Some? then [HandlerFor(event).value] else [];
  }

  /** `user-joined` fires `onUserJoined` and then sends exactly one offer, tagged with this service's room and user. */
  lemma UserJoinedSendsOffer(s: Service, msg: Message, offer: Description, answer: Option<Description>)
    requires s.socket == Some(RoomSocket()) && s.peer.Some?
    ensures Deliver(s, "user-joined", msg, Negotiation(Some(offer), answer)).log ==
      s.log + (if s.callbacks.onUserJoined then [Notify(PeerJoined(msg.userId))] else [])
            + [Emit("offer", Message("offer", s.roomId, s.userId, Sdp(offer)))]
  {
    RoomSocketRoutes(s, "user-joined", msg, Negotiation(Some(offer), answer));
  }

  /** An `offer` carrying a description yields exactly one `answer`, tagged with this service's room and user. */
  lemma OfferSendsOneAnswer(s: Service, msg: Message, offer: Option<Description>, answer: Description)
    requires s.socket == Some(RoomSocket()) && s.peer.Some? && msg.data.Sdp?
    ensures var r := Deliver(s, "offer", msg, Negotiation(offer, Some(answer)));
      && r.log == s.log + [Emit("answer", Message("answer", s.roomId, s.userId, Sdp(answer)))]
      && r.peer.value.remoteDescription == Some(msg.data.description)
      && r.peer.value.localDescription == Some(answer)
  {
    RoomSocketRoutes(s, "offer", msg, Negotiation(offer, Some(answer)));
  }

  /** `answer`, `ice-candidate` and `user-left` never send anything; without a peer connection, nothing but `user-left`'s callback happens. */
  lemma QuietEvents(s: Service, msg: Message, neg: Negotiation)
    requires s.socket == Some(RoomSocket())
    ensures Deliver(s, "answer", msg, neg).log == s.log
    ensures Deliver(s, "ice-candidate", msg, neg).log == s.log
    ensures Deliver(s, "user-left", msg, neg).log == s.log + (if s.callbacks.onUserLeft then [Notify(PeerLeft(msg.userId))] else [])
    ensures s.peer.None? ==> Deliver(s, "offer", msg, neg) == s && Deliver(s, "answer", msg, neg) == s
    ensures s.peer.None? ==> Deliver(s, "ice-candidate", msg, neg) == s
  {
    RoomSocketRoutes(s, "answer", msg, neg);
    RoomSocketRoutes(s, "ice-candidate", msg, neg);
    RoomSocketRoutes(s, "user-left", msg, neg);
    RoomSocketRoutes(s, "offer", msg, neg);
  }

  /** The listeners never look at an incoming message's `roomId`. */
  lemma {:induction false} DeliverIgnoresRoom(s: Service, event: string, msg: Message, other: Option<string>, neg: Negotiation)
    ensures Deliver(s, event, msg.(roomId := other), neg) == Deliver(s, event, msg, neg)
  {
    if s.socket.Some? {
      DispatchIgnoresRoom(s, Trigger(s.socket.value, event), msg, other, neg);
    }
  }

  lemma {:induction false} DispatchIgnoresRoom(s: Service, hs: seq<Handler>, msg: Message, other: Option<string>, neg: Negotiation)
    ensures Dispatch(s, hs, msg.(roomId := other), neg) == Dispatch(s, hs, msg, neg)
    decreases |hs|
  {
    if |hs| > 0 {
      var next := Handle(s, hs[0], msg, neg);
      assert Handle(s, hs[0], msg.(roomId := other), neg) == next;
      DispatchIgnoresRoom(next, hs[1..], msg, other, neg);
    }
  }

  /**
   * Joining with `RTCPeerConnection` available, then receiving the mock server's
   * simulated `user-joined` reply, sends an offer for the joined room.
   */
  lemma JoinThenReplyOffers(s: Service, roomId: string, cbs: Callbacks, partner: string, offer: Description, answer: Option<Description>)
    ensures var joined := JoinRoom(s, roomId, cbs, true);
      var sent := joined.log[|joined.log| - 1];
      var reply := SimulatedReply(sent.event, sent.message, partner);
      && reply.Some?
      && var r := Deliver(joined, "user-joined", reply.value, Negotiation(Some(offer), answer));
         r.log[|r.log| - 1] == Emit("offer", Message("offer", Some(roomId), s.userId, Sdp(offer)))
  {
    var joined := JoinRoom(s, roomId, cbs, true);
    var sent := joined.log[|joined.log| - 1];
    var reply := SimulatedReply(sent.event, sent.message, partner);
    UserJoinedSendsOffer(joined, reply.value, offer, answer);
  }

  /**
   * Joining a second room while a socket is open: the mock server's reply to the first
   * join, arriving on the replaced socket, still fires `onUserJoined` and sends an offer
   * on the new socket, for the new room.
   */
  lemma StaleReplyOffersInNewRoom(s: Service, roomId: string, cbs: Callbacks, msg: Message, offer: Description, answer: Option<Description>)
    requires s.socket == Some(RoomSocket())
    ensures var j := JoinRoom(s, roomId, cbs, true);
      DeliverStale(j, |s.detached|, "user-joined", msg, Negotiation(Some(offer), answer)).log ==
        j.log + (if cbs.onUserJoined then [Notify(PeerJoined(msg.userId))] else [])
              + [Emit("offer", Message("offer", Some(roomId), s.userId, Sdp(offer)))]
  {
    var j := JoinRoom(s, roomId, cbs, true);
    assert j.detached[|s.detached|] == RoomSocket();
    UserJoinedSendsOffer(j, msg, offer, answer);
  }

  /**
   * Leaving does not silence a replaced socket: its `user-joined` still reaches the
   * callbacks of the last join, although nothing is sent any more.
   */
  lemma StaleReplyAfterLeave(s: Service, roomId: string, cbs: Callbacks, rtcAvailable: bool, msg: Message, neg: Negotiation)
    requires s.socket == Some(RoomSocket())
    ensures var l := LeaveRoom(JoinRoom(s, roomId, cbs, rtcAvailable));
      DeliverStale(l, |s.detached|, "user-joined", msg, neg) ==
        l.(log := l.log + if cbs.onUserJoined then [Notify(PeerJoined(msg.userId))] else [])
  {
    var l := LeaveRoom(JoinRoom(s, roomId, cbs, rtcAvailable));
    assert l.detached[|s.detached|] == RoomSocket();
    RoomSocketRoutes(l.(socket := Some(RoomSocket())), "user-joined", msg, neg);
  }

  // ------------------------------------------------------------ peer-connection events

  /** `onicecandidate`: a gathered candidate goes out on the socket, if there is one. */
  function OnLocalCandidate(s: Service, candidate: Option<string>): (r: Service)
    ensures SameSession(s, r) && r.peer == s.peer
    ensures s.peer.Some? && s.socket.Some? && candidate.Some? ==>
      r.log == s.log + [Emit("ice-candidate", Message("ice-candidate", s.roomId, s.userId, Candidate(candidate.value)))]
    ensures !(s.peer.Some? && s.socket.Some? && candidate.Some?) ==> r == s
  {
    if s.peer.Some? && s.socket.Some? && candidate.Some? then
      s.(log := s.log + [Emit("ice-candidate", Message("ice-candidate", s.roomId, s.userId, Candidate(candidate.value)))])
    else s
  }

  /** `ontrack`: the first remote stream goes to `onRemoteStream`. */
  function OnRemoteTrack(s: Service, stream: Stream): (r: Service)
    ensures SameSession(s, r) && r.peer == s.peer
    ensures s.peer.None? ==> r == s
    ensures forall k :: |s.log| <= k < |r.log| ==> r.log[k] == Notify(RemoteStreamReady(stream))
  {
    if s.peer.Some? then Raise(s, s.callbacks.onRemoteStream, RemoteStreamReady(stream)) else s
  }

  /** `onconnectionstatechange`: the current state goes to `onConnectionStateChange`. */
  function OnConnectionState(s: Service, state: PeerState): (r: Service)
    ensures SameSession(s, r) && r.peer == s.peer
    ensures s.peer.None? ==> r == s
    ensures forall k :: |s.log| <= k < |r.log| ==> r.log[k] == Notify(StateChanged(state))
  {
    if s.peer.Some? then Raise(s, s.callbacks.onConnectionStateChange, StateChanged(state)) else s
  }

  // ------------------------------------------------------------ leaving

  /** `getTracks().forEach(t => t.stop())` as effects. */
  function StopEffects(stream: Stream): (es: seq<Effect>)
    ensures |es| == |stream|
    ensures forall k :: 0 <= k < |stream| ==> es[k] == StopTrack(stream[k].id)
  {
    seq(|stream|, k requires 0 <= k < |stream| => StopTrack(stream[k].id))
  }

  /** Closing the peer connection, stopping the tracks and disconnecting the socket, in that order. */
  function Teardown(s: Service): (e: seq<Effect>)
    ensures forall k :: 0 <= k < |e| ==> !e[k].Emit?
    ensures ClosePeer in e <==> s.peer.Some?
    ensures DisconnectSocket in e <==> s.socket.Some?
    ensures s.socket.Some? ==> e[|e| - 1] == DisconnectSocket
    ensures s.localStream.Some? ==> forall k :: 0 <= k < |s.localStream.value| ==> StopTrack(s.localStream.value[k].id) in e
  {
    var close := if s.peer.Some? then [ClosePeer] else [];
    var stops := if s.localStream.Some? then StopEffects(s.localStream.value) else [];
    var disconnect := if s.socket.Some? then [DisconnectSocket] else [];
    assert forall k :: 0 <= k < |stops| ==> stops[k].StopTrack?;
    assert ClosePeer !in stops && DisconnectSocket !in stops;
    assert s.localStream.Some? ==> forall k :: 0 <= k < |s.localStream.value| ==> StopTrack(s.localStream.value[k].id) == stops[k];
    close + stops + disconnect
  }

  /**
   * What `leaveRoom` does to the outside world: a `leave-room` message first, only
   * with a socket and a room id, carrying both ids; then the peer connection closed,
   * every local track stopped, and the socket disconnected last.
   */
  function LeaveEffects(s: Service): (e: seq<Effect>)
    ensures s.socket.Some? && InRoom(s) <==> |e| > 0 && e[0].Emit?
    ensures |e| > 0 && e[0].Emit? ==> e[0] == Emit("leave-room", Message("leave-room", s.roomId, s.userId, NoPayload))
    ensures forall k :: 0 < k < |e| ==> !e[k].Emit?
    ensures ClosePeer in e <==> s.peer.Some?
    ensures DisconnectSocket in e <==> s.socket.Some?
    ensures s.socket.Some? ==> e[|e| - 1] == DisconnectSocket
    ensures s.localStream.Some? ==> forall k :: 0 <= k < |s.localStream.value| ==> StopTrack(s.localStream.value[k].id) in e
    ensures s.peer.None? && s.socket.None? && s.localStream.None? ==> e == []
  {
    var rest := Teardown(s);
    if s.socket.Some? && InRoom(s) then
      var e := [Emit("leave-room", Message("leave-room", s.roomId, s.userId, NoPayload))] + rest;
      assert forall k :: 0 < k < |e| ==> e[k] == rest[k - 1];
      e
    else rest
  }

  /**
   * `leaveRoom`: performs `LeaveEffects` and ends with no peer connection, no socket,
   * no local stream and no room. The callbacks and the replaced sockets stay.
   */
  function LeaveRoom(s: Service): (r: Service)
    ensures r.peer.None? && r.socket.None? && r.localStream.None? && r.roomId.None?
    ensures r.userId == s.userId && r.callbacks == s.callbacks && r.detached == s.detached
    ensures r.log == s.log + LeaveEffects(s)
  {
    Service(s.userId, None, None, None, None, s.callbacks, s.detached, s.log + LeaveEffects(s))
  }

  /** `destroy` is `leaveRoom`. */
  function Destroy(s: Service): (r: Service)
    ensures r == LeaveRoom(s)
    ensures r.peer.None? && r.socket.None? && r.localStream.None? && r.roomId.None?
  {
    LeaveRoom(s)
  }

  /** Leaving twice is leaving once: the second call emits nothing and changes nothing. */
  lemma LeaveRoomIdempotent(s: Service)
    ensures LeaveRoom(LeaveRoom(s)) == LeaveRoom(s)
    ensures Destroy(LeaveRoom(s)) == LeaveRoom(s)
  {
    assert LeaveEffects(LeaveRoom(s)) == [];
  }

  /** Every service operation, with the browser's answers it depends on. */
  datatype Op =
    | JoinOp(roomId: string, cbs: Callbacks, rtcAvailable: bool)
    | JoinTimerOp
    | SetStreamOp(stream: Stream)
    | AcquireOp(env: MediaEnv)
    | RequestCameraOp(env: MediaEnv)
    | DeliverStaleOp(index: nat, staleEvent: string, staleMsg: Message, staleNeg: Negotiation)
    | ToggleAudioOp(audio: bool)
    | ToggleVideoOp(video: bool)
    | DeliverOp(event: string, msg: Message, neg: Negotiation)
    | LocalCandidateOp(candidate: Option<string>)
    | RemoteTrackOp(remote: Stream)
    | ConnectionStateOp(state: PeerState)
    | LeaveOp
    | DestroyOp

  /**
   * One operation on the service: the user id never changes and the effect log only
   * grows. A camera request that rejects leaves its state behind; the rejection goes
   * to the caller, not into the log.
   */
  function Apply(s: Service, op: Op): (r: Service)
    ensures r.userId == s.userId
    ensures |s.log| <= |r.log| && r.log[..|s.log|] == s.log
  {
    match op
    case JoinOp(roomId, cbs, rtc) => JoinRoom(s, roomId, cbs, rtc)
    case JoinTimerOp => JoinTimer(s)
    case SetStreamOp(stream) => SetLocalStream(s, stream)
    case AcquireOp(env) => GetUserMedia(s, env)
    case RequestCameraOp(env) => RequestCameraAccess(s, env).service
    case ToggleAudioOp(b) => ToggleAudio(s, b)
    case ToggleVideoOp(b) => ToggleVideo(s, b)
    case DeliverOp(event, msg, neg) => Deliver(s, event, msg, neg)
    case DeliverStaleOp(i, event, msg, neg) => DeliverStale(s, i, event, msg, neg)
    case LocalCandidateOp(c) => OnLocalCandidate(s, c)
    case RemoteTrackOp(stream) => OnRemoteTrack(s, stream)
    case ConnectionStateOp(state) => OnConnectionState(s, state)
    case LeaveOp => LeaveRoom(s)
    case DestroyOp => Destroy(s)
  }

  /** Operations in order: the user id is kept throughout and no effect is ever taken back. */
  function Run(s: Service, ops: seq<Op>): (r: Service)
    ensures r.userId == s.userId
    ensures |s.log| <= |r.log| && r.log[..|s.log|] == s.log
    decreases |ops|
  {
    if |ops| == 0 then s
    else
      var next := Apply(s, ops[0]);
      var r := Run(next, ops[1..]);
      assert r.log[..|s.log|] == r.log[..|next.log|][..|s.log|];
      r
  }

  /** No operation breaks the shape: a socket only inside a room, a peer connection only with a socket. */
  lemma ApplyKeepsValid(s: Service, op: Op)
    requires Valid(s)
    ensures Valid(Apply(s, op))
  {
  }

  lemma {:induction false} RunKeepsValid(s: Service, ops: seq<Op>)
    requires Valid(s)
    ensures Valid(Run(s, ops))
    decreases |ops|
  {
    if |ops| > 0 {
      ApplyKeepsValid(s, ops[0]);
      RunKeepsValid(Apply(s, ops[0]), ops[1..]);
    }
  }

  /**
   * After `leaveRoom`, nothing of the room fires: messages for the socket it
   * disconnected, peer-connection events, the join timer, toggles and a further leave
   * all leave the service as it is. Sockets replaced earlier are another matter; see
   * `AfterLeaveStaleOnlyNotifies`.
   */
  lemma AfterLeaveNothingFires(s: Service, op: Op)
    requires op.JoinTimerOp? || op.ToggleAudioOp? || op.ToggleVideoOp? || op.DeliverOp? || op.LocalCandidateOp?
      || op.RemoteTrackOp? || op.ConnectionStateOp? || op.LeaveOp? || op.DestroyOp?
    ensures Apply(LeaveRoom(s), op) == LeaveRoom(s)
  {
    LeaveRoomIdempotent(s);
  }

  /**
   * After `leaveRoom`, a message on a replaced socket changes nothing but the log, and
   * adds to it only join and leave notices about the sender; with no replaced socket it
   * changes nothing at all.
   */
  lemma AfterLeaveStaleOnlyNotifies(s: Service, index: nat, event: string, msg: Message, neg: Negotiation)
    ensures var l := LeaveRoom(s);
      var r := Apply(l, DeliverStaleOp(index, event, msg, neg));
      && r.(log := l.log) == l
      && |l.log| <= |r.log| && r.log[..|l.log|] == l.log
      && (forall k :: |l.log| <= k < |r.log| ==> PeerNotice(r.log[k], msg.userId))
      && (s.detached == [] ==> r == l)
  {
  }
}

=== FILE: camera_setup.dfy ===
/**
 * The camera set-up modal: one `getUserMedia` request with the ideal constraints, a
 * single relaxed retry after `OverconstrainedError`, a message per error name, and a
 * skip button. The modal writes into its parent's permission state and error text;
 * here those are one `Prompt` record, and the stream handed to `onCameraGranted` is
 * part of the result.
 */
module CameraSetup {
  import opened Wrappers
  import opened Text
  import opened Media
  import VideoCall

  datatype PermissionState = PermissionGranted | PermissionDenied

  /** The parent's state the modal writes: permission, error text, and whether the modal is open. */
  datatype Prompt = Prompt(permission: Option<PermissionState>, error: Option<string>, isOpen: bool)

  /** What one button press leaves behind: the new prompt state and the stream passed up, if any. */
  datatype Pressed = Pressed(prompt: Prompt, handedUp: Option<Stream>)

  const DeniedText := "🚫 Camera permission denied. Please click \"Allow\" when browser prompts, or enable camera in browser settings."
  const NoCameraText := "📷 No camera device found. Please connect a camera to your device."
  const InUseText := "🔒 Camera is being used by another application. Please close other video apps and try again."
  const RetryingText := "⚙️ Camera settings not supported. Trying with basic settings..."
  const BasicFailedText := "❌ Camera access failed even with basic settings."
  const CameraErrorPrefix := "❌ Camera error: "
  const SkipText := "⚠️ Video calls require camera access. Features may be limited."
  const DefaultText := "To start video calls, we need access to your camera and microphone."

  /** A granted stream: permission granted, error cleared, modal closed, stream handed to the parent. */
  function GrantedWith(p: Prompt, stream: Stream): (r: Pressed)
    ensures r.prompt == p.(permission := Some(PermissionGranted), error := None, isOpen := false)
    ensures r.handedUp == Some(stream)
  {
    Pressed(Prompt(Some(PermissionGranted), None, false), Some(stream))
  }

  /** A failure: only the error text changes; nothing is handed up. */
  function FailedWith(p: Prompt, text: string): (r: Pressed)
    ensures r.prompt == p.(error := Some(text)) && r.handedUp.None?
  {
    Pressed(p.(error := Some(text)), None)
  }

  /**
   * `handleEnableCamera`. `ideal` answers the first request and `basic` the retry,
   * which is only made after `OverconstrainedError`. No failure grants permission,
   * closes the modal or marks permission denied; the "trying basic settings" text is
   * overwritten by the retry's outcome before the handler returns.
   */
  function EnableCamera(p: Prompt, ideal: Attempt, basic: Attempt): (r: Pressed)
    ensures r.handedUp.Some? <==> ideal.Granted? || (ideal.error.name == Overconstrained && basic.Granted?)
    ensures ideal.Granted? ==> r == GrantedWith(p, ideal.stream)
    ensures ideal.Rejected? && ideal.error.name == Overconstrained && basic.Granted? ==> r == GrantedWith(p, basic.stream)
    ensures r.handedUp.None? ==> r.prompt.permission == p.permission && r.prompt.isOpen == p.isOpen && r.prompt.error.Some?
    ensures ideal.Rejected? && ideal.error.name == NotAllowed ==> r.prompt.error == Some(DeniedText)
    ensures ideal.Rejected? && ideal.error.name == NotFound ==> r.prompt.error == Some(NoCameraText)
    ensures ideal.Rejected? && ideal.error.name == NotReadable ==> r.prompt.error == Some(InUseText)
    ensures ideal.Rejected? && ideal.error.name == Overconstrained && basic.Rejected? ==> r.prompt.error == Some(BasicFailedText)
    ensures ideal.Rejected? && ideal.error.name !in {NotAllowed, NotFound, NotReadable, Overconstrained} ==>
      r.prompt.error == Some(CameraErrorPrefix + ideal.error.message) && Contains(r.prompt.error.value, ideal.error.message)
  {
    match ideal
    case Granted(stream) => GrantedWith(p, stream)
    case Rejected(e) =>
      if e.name == NotAllowed then FailedWith(p, DeniedText)
      else if e.name == NotFound then FailedWith(p, NoCameraText)
      else if e.name == NotReadable then FailedWith(p, InUseText)
      else if e.name == Overconstrained then
        (match basic
         case Granted(stream) => GrantedWith(p, stream)
         case Rejected(_) => FailedWith(p, BasicFailedText))
      else
        ContainsInfix(CameraErrorPrefix, e.message, "");
        assert CameraErrorPrefix + e.message + "" == CameraErrorPrefix + e.message;
        FailedWith(p, CameraErrorPrefix + e.message)
  }

  /** `handleSkip`: a warning and a closed modal; permission is not granted and nothing is handed up. */
  function Skip(p: Prompt): (r: Prompt)
    ensures r.error == Some(SkipText) && !r.isOpen
    ensures r.permission == p.permission
  {
    p.(error := Some(SkipText), isOpen := false)
  }

  /**
   * The modal's body text, or nothing at all while it is closed. The error is shown
   * through `||`, so an empty error text counts as none and the default text appears.
   */
  function Render(isOpen: bool, error: Option<string>): (shown: Option<string>)
    ensures shown.None? <==> !isOpen
    ensures isOpen && error.Some? && error.value != "" ==> shown == Some(error.value)
    ensures isOpen && (error.None? || error.value == "") ==> shown == Some(DefaultText)
    ensures shown.Some? ==> shown.value != ""
  {
    if !isOpen then None
    else if error.Some? && error.value != "" then Some(error.value)
    else Some(DefaultText)
  }

  /** The five failure texts are pairwise different, so each named failure is told apart from the others. */
  lemma FailureTextsDistinct()
    ensures DeniedText != NoCameraText && DeniedText != InUseText && NoCameraText != InUseText
    ensures BasicFailedText !in {DeniedText, NoCameraText, InUseText}
    ensures SkipText !in {DeniedText, NoCameraText, InUseText, BasicFailedText}
  {
  }

  /**
   * The modal and the video screen's own camera button follow one policy: for the same
   * answers both grant the same stream or both fail, and a failure reaches neither the
   * parent nor the call service.
   */
  lemma PromptsAgree(p: Prompt, c: VideoCall.Camera, service: VideoCall.CS.Service, ideal: Attempt, basic: Attempt)
    ensures EnableCamera(p, ideal, basic).handedUp.Some? ==>
      VideoCall.EnableCamera(c, service, ideal, basic) == VideoCall.CameraGranted(c, service, EnableCamera(p, ideal, basic).handedUp.value)
    ensures EnableCamera(p, ideal, basic).handedUp.None? ==>
      VideoCall.EnableCamera(c, service, ideal, basic).1 == service && VideoCall.EnableCamera(c, service, ideal, basic).0.local == c.local
  {
  }

  /** The answer to the relaxed request matters only when the first one failed with `OverconstrainedError`. */
  lemma RetryOnlyAfterOverconstrained(p: Prompt, ideal: Attempt, b1: Attempt, b2: Attempt)
    requires |VideoCall.CameraRequests(ideal)| == 1
    ensures EnableCamera(p, ideal, b1) == EnableCamera(p, ideal, b2)
  {
  }
}

=== FILE: country_select.dfy ===
/**
 * The country picker: a case-insensitive search over a fixed list of countries and a
 * confirm button that only acts once a country is chosen.
 */
module CountrySelect {
  import opened Wrappers
  import opened Text
  import opened Seqs
  import opened Types

  datatype Country = Country(code: string, name: string, flag: string)

  /** The countries on offer, in display order. */
  const Countries: seq<Country> := [
    Country("IN", "India", "🇮🇳"),
    Country("US", "United States", "🇺🇸"),
    Country("GB", "United Kingdom", "🇬🇧"),
    Country("CA", "Canada", "🇨🇦"),
    Country("AU", "Australia", "🇦🇺"),
    Country("DE", "Germany", "🇩🇪"),
    Country("FR", "France", "🇫🇷"),
    Country("JP", "Japan", "🇯🇵"),
    Country("KR", "South Korea", "🇰🇷"),
    Country("BR", "Brazil", "🇧🇷"),
    Country("MX", "Mexico", "🇲🇽"),
    Country("ES", "Spain", "🇪🇸"),
    Country("IT", "Italy", "🇮🇹"),
    Country("NL", "Netherlands", "🇳🇱"),
    Country("SE", "Sweden", "🇸🇪"),
    Country("NO", "Norway", "🇳🇴"),
    Country("FI", "Finland", "🇫🇮"),
    Country("DK", "Denmark", "🇩🇰"),
    Country("CH", "Switzerland", "🇨🇭"),
    Country("AT", "Austria", "🇦🇹"),
    Country("BE", "Belgium", "🇧🇪"),
    Country("PT", "Portugal", "🇵🇹"),
    Country("IE", "Ireland", "🇮🇪"),
    Country("PL", "Poland", "🇵🇱"),
    Country("CZ", "Czech Republic", "🇨🇿"),
    Country("GR", "Greece", "🇬🇷"),
    Country("TR", "Turkey", "🇹🇷"),
    Country("RU", "Russia", "🇷🇺"),
    Country("CN", "China", "🇨🇳"),
    Country("TH", "Thailand", "🇹🇭"),
    Country("SG", "Singapore", "🇸🇬"),
    Country("MY", "Malaysia", "🇲🇾"),
    Country("ID", "Indonesia", "🇮🇩"),
    Country("PH", "Philippines", "🇵🇭"),
    Country("VN", "Vietnam", "🇻🇳"),
    Country("AE", "UAE", "🇦🇪"),
    Country("SA", "Saudi Arabia", "🇸🇦"),
    Country("IL", "Israel", "🇮🇱"),
    Country("ZA", "South Africa", "🇿🇦"),
    Country("EG", "Egypt", "🇪🇬"),
    Country("NG", "Nigeria", "🇳🇬"),
    Country("KE", "Kenya", "🇰🇪"),
    Country("AR", "Argentina", "🇦🇷"),
    Country("CL", "Chile", "🇨🇱"),
    Country("CO", "Colombia", "🇨🇴"),
    Country("PE", "Peru", "🇵🇪"),
    Country("NZ", "New Zealand", "🇳🇿")
  ]

  /** `country.name.toLowerCase().includes(query.toLowerCase())`. */
  predicate NameMatches(c: Country, query: string) {
    Contains(ToLower(c.name), ToLower(query))
  }

  /**
   * `filteredCountries`: the countries whose name contains the query, ignoring case,
   * in their original order; every matching country is kept.
   */
  function FilterCountries(countries: seq<Country>, query: string): (r: seq<Country>)
    ensures forall k :: 0 <= k < |r| ==> NameMatches(r[k], query) && r[k] in countries
    ensures forall k :: 0 <= k < |countries| && NameMatches(countries[k], query) ==> countries[k] in r
    ensures IsSubsequence(r, countries)
  {
    Filter(countries, MatchesQuery(query))
  }

  function MatchesQuery(query: string): Country -> bool {
    (c: Country) => NameMatches(c, query)
  }

  /** An empty search shows every country. */
  lemma EmptyQueryKeepsAll(countries: seq<Country>)
    ensures FilterCountries(countries, "") == countries
  {
    forall k | 0 <= k < |countries| ensures NameMatches(countries[k], "") {
      ContainsEmpty(ToLower(countries[k].name));
    }
  }

  /** Typing more narrows the list: the longer query's results are a subsequence of the shorter one's. */
  lemma TypingNarrows(countries: seq<Country>, query: string, more: string)
    ensures IsSubsequence(FilterCountries(countries, query + more), FilterCountries(countries, query))
  {
    var narrow := FilterCountries(countries, query + more);
    ToLowerAppend(query, more);
    ContainsPrefix(ToLower(query), ToLower(more));
    forall k | 0 <= k < |narrow| ensures NameMatches(narrow[k], query) {
      ContainsTransitive(ToLower(narrow[k].name), ToLower(query + more), ToLower(query));
    }
    SubsequenceOfFilter(narrow, countries, MatchesQuery(query));
  }

  /** The picker's own state: the search text and the country tapped so far (initially the one passed in). */
  datatype Picker = Picker(query: string, tempSelected: Option<string>)

  function Open(selectedCountry: Option<string>): (p: Picker)
    ensures p.tempSelected == selectedCountry && p.query == ""
  {
    Picker("", selectedCountry)
  }

  /** `handleConfirm`: with a non-empty selection it is reported and the home screen shown; otherwise nothing happens. */
  function Confirm(p: Picker): (r: Option<(string, Screen)>)
    ensures r.Some? <==> p.tempSelected.Some? && p.tempSelected.value != ""
    ensures r.Some? ==> r.value == (p.tempSelected.value, HomeScreen)
  {
    match p.tempSelected
    case Some(c) => if c != "" then Some((c, HomeScreen)) else None
    case None => None
  }

  /** The confirm button is disabled exactly when confirming would do nothing. */
  lemma ConfirmEnabledIffActs(p: Picker)
    ensures ConfirmDisabled(p) <==> Confirm(p).None?
  {
  }

  predicate ConfirmDisabled(p: Picker) {
    p.tempSelected.None? || p.tempSelected.value == ""
  }
}

=== FILE: home.dfy ===
/**
 * The home screen: where "start chat" leads, the low-token warning, the gender-filter
 * button and the wallet shortcuts, all decided by the user's plan and balance.
 */
module Home {
  import opened Wrappers
  import opened Types
  import VideoCall

  /** On mount: nobody signed in is sent to the sign-in screen and nothing is shown. */
  function Mount(user: Option<User>): (redirect: Option<Screen>)
    ensures redirect.Some? <==> user.None?
    ensures redirect.Some? ==> redirect.value == AuthScreen
  {
    if user.None? then Some(AuthScreen) else None
  }

  /** `handleStartChat`: a premium user who cannot pay for a match goes to the wallet, everyone else to matching. */
  function StartChat(user: User): (next: Screen)
    ensures next == WalletScreen <==> user.isPremium && user.tokens < VideoCall.TokensPerMatch
    ensures next != WalletScreen ==> next == MatchingScreen
  {
    if user.isPremium && user.tokens < VideoCall.TokensPerMatch then WalletScreen else MatchingScreen
  }

  /** What the screen shows for a user. */
  datatype View = View(
    lowTokenWarning: bool,      // "Low tokens! Add more to continue premium matching."
    walletShortcuts: bool,      // the token pill and "Manage Wallet"
    upgradeBanners: bool,       // the free-chat and upgrade banners
    genderFilterEnabled: bool,
    startCaption: string)

  function Render(user: User): (v: View)
    ensures v.lowTokenWarning <==> user.isPremium && user.tokens < VideoCall.TokensPerMatch
    ensures v.walletShortcuts <==> user.isPremium
    ensures v.upgradeBanners <==> !user.isPremium
    ensures v.genderFilterEnabled <==> user.isPremium
    ensures v.startCaption == if user.isPremium then "Start Premium Video Chat" else "Start Free Video Chat"
  {
    View(
      user.isPremium && user.tokens < VideoCall.TokensPerMatch,
      user.isPremium,
      !user.isPremium,
      user.isPremium,
      if user.isPremium then "Start Premium Video Chat" else "Start Free Video Chat")
  }

  /**
   * The gender-filter button: premium users go to the gender picker. For everyone else
   * the button is disabled, so its "plans" branch never runs and a press does nothing.
   */
  function GenderButton(user: User): (next: Option<Screen>)
    ensures next.Some? <==> Render(user).genderFilterEnabled
    ensures next.Some? ==> next.value == GenderSelectScreen
  {
    if user.isPremium then Some(GenderSelectScreen) else None
  }

  /**
   * The warning, the start button and the call screen's own guard agree: the warning
   * is up exactly when "start chat" leads to the wallet, which is exactly when the
   * next-partner button would refuse too.
   */
  lemma WarningMatchesRouting(user: User)
    ensures Render(user).lowTokenWarning <==> StartChat(user) == WalletScreen
    ensures StartChat(user) == WalletScreen <==> VideoCall.LowOnTokens(Some(user))
  {
  }

  /** A free user is never sent to the wallet by "start chat", whatever the balance. */
  lemma FreeUsersStartFree(user: User, tokens: int)
    requires !user.isPremium
    ensures StartChat(user.(tokens := tokens)) == MatchingScreen
  {
  }
}

=== FILE: matching.dfy ===
/**
 * The matching screen: the line describing the active filters, the rotating tips, and
 * where the screen sends the user. The progress bar's random growth is left out.
 */
module Matching {
  import opened Wrappers
  import opened Text
  import opened Types

  const Tips := [
    "Be respectful and friendly to make great connections!",
    "Make sure you have good lighting for the best video quality.",
    "A stable internet connection ensures smooth video calls.",
    "Smile! It makes you more approachable and friendly.",
    "Keep conversations light and fun to start with.",
    "Remember that everyone is here to meet new people just like you!"
  ]

  const AnyCountry := "Any Country"
  const AnyGender := "Any Gender"
  const Separator := " • "
  const FreeFilterText := "Global (India preferred) • Same gender preferred"

  /** The country part: the selection, or "Any Country" when there is none (or it is empty). */
  function CountryPart(country: Option<string>): (part: string)
    ensures country.Some? && country.value != "" ==> part == country.value
    ensures !(country.Some? && country.value != "") ==> part == AnyCountry
  {
    if country.Some? && country.value != "" then country.value else AnyCountry
  }

  /** The gender part: the gender with a capital first letter, or "Any Gender". */
  function GenderPart(gender: Option<Gender>): (part: string)
    ensures gender.None? ==> part == AnyGender
    ensures gender == Some(Male) ==> part == "Male"
    ensures gender == Some(Female) ==> part == "Female"
    ensures gender == Some(Other) ==> part == "Other"
  {
    match gender
    case None => AnyGender
    case Some(g) =>
      assert Capitalize("male") == "Male";
      assert Capitalize("female") == "Female";
      assert Capitalize("other") == "Other";
      Capitalize(GenderName(g))
  }

  /**
   * `getFilterText`: premium users see their country and gender selections joined by a
   * bullet; everyone else sees one fixed line whatever they selected.
   */
  function FilterText(user: Option<User>, country: Option<string>, gender: Option<Gender>): (text: string)
    ensures !(user.Some? && user.value.isPremium) ==> text == FreeFilterText
    ensures user.Some? && user.value.isPremium ==> text == CountryPart(country) + Separator + GenderPart(gender)
  {
    if user.Some? && user.value.isPremium then CountryPart(country) + Separator + GenderPart(gender)
    else FreeFilterText
  }

  /** For a premium user with the same country, the line tells the gender selections apart. */
  lemma FilterTextShowsGender(user: User, country: Option<string>, g1: Option<Gender>, g2: Option<Gender>)
    requires user.isPremium
    ensures FilterText(Some(user), country, g1) == FilterText(Some(user), country, g2) ==> g1 == g2
  {
    var head := CountryPart(country) + Separator;
    if FilterText(Some(user), country, g1) == FilterText(Some(user), country, g2) {
      var t1, t2 := FilterText(Some(user), country, g1), FilterText(Some(user), country, g2);
      assert t1 == head + GenderPart(g1) && t2 == head + GenderPart(g2);
      assert t1[|head|..] == GenderPart(g1);
      assert t2[|head|..] == GenderPart(g2);
      GenderPartsDistinct(g1, g2);
    }
  }

  /** The four gender labels are different from one another. */
  lemma GenderPartsDistinct(g1: Option<Gender>, g2: Option<Gender>)
    ensures GenderPart(g1) == GenderPart(g2) ==> g1 == g2
  {
  }

  /** The tip shown after the next three-second tick. */
  function NextTip(current: nat): (next: nat)
    ensures current < |Tips| - 1 ==> next == current + 1
    ensures current == |Tips| - 1 ==> next == 0
    ensures next < |Tips|
  {
    (current + 1) % |Tips|
  }

  /** The tip after `n` ticks. */
  function TipAfter(current: nat, n: nat): (tip: nat)
    decreases n
  {
    if n == 0 then current else TipAfter(NextTip(current), n - 1)
  }

  /** However many ticks pass, the tip index names a real tip, and a full round returns to the start. */
  lemma {:induction false} TipsCycle(current: nat, n: nat)
    requires current < |Tips|
    ensures TipAfter(current, n) < |Tips|
    ensures TipAfter(current, |Tips|) == current
    decreases n
  {
    if n > 0 {
      TipsCycle(NextTip(current), n - 1);
    }
    var t1 := NextTip(current);
    var t2 := NextTip(t1);
    var t3 := NextTip(t2);
    var t4 := NextTip(t3);
    var t5 := NextTip(t4);
    assert TipAfter(current, 6) == TipAfter(t5, 1);
  }

  /** What can happen on the screen. */
  datatype MatchingEvent = Mounted | Cancelled | MatchFound

  /**
   * Where the screen sends the user: nobody signed in goes to sign-in as soon as the
   * screen mounts, cancelling goes home, a found match opens the call.
   */
  function Route(user: Option<User>, event: MatchingEvent): (next: Option<Screen>)
    ensures event == Mounted ==> (next.Some? <==> user.None?) && (next.Some? ==> next.value == AuthScreen)
    ensures event == Cancelled ==> next == Some(HomeScreen)
    ensures event == MatchFound ==> next == Some(VideoCallScreen)
  {
    match event
    case Mounted => if user.None? then Some(AuthScreen) else None
    case Cancelled => Some(HomeScreen)
    case MatchFound => Some(VideoCallScreen)
  }
}

=== FILE: media.dfy ===
/**
 * Local media as plain values: a stream is a sequence of tracks, each with an id, a kind
 * and an `enabled` flag. Stopping a track is an effect the call service logs, not a
 * change to the track. `getUserMedia` is an oracle whose answer is an `Attempt`; its
 * errors are `DOMException`-like name/message pairs.
 */
module Media {

  datatype TrackKind = Audio | Video

  datatype Track = Track(id: nat, kind: TrackKind, enabled: bool)

  type Stream = seq<Track>

  /** The ids of a stream's tracks, in `getTracks()` order. */
  function TrackIds(stream: Stream): (ids: seq<nat>)
    ensures |ids| == |stream|
    ensures forall k :: 0 <= k < |stream| ==> ids[k] == stream[k].id
  {
    seq(|stream|, k requires 0 <= k < |stream| => stream[k].id)
  }

  /** `getVideoTracks().length` / `getAudioTracks().length`. */
  function CountKind(stream: Stream, kind: TrackKind): (n: nat)
    ensures n <= |stream|
    ensures n == 0 <==> forall k :: 0 <= k < |stream| ==> stream[k].kind != kind
  {
    if |stream| == 0 then 0
    else
      var rest := CountKind(stream[1..], kind);
      assert forall k :: 1 <= k < |stream| ==> stream[k] == stream[1..][k - 1];
      (if stream[0].kind == kind then 1 else 0) + rest
  }

  /**
   * Sets `enabled` on every track of one kind (`toggleAudio` / `toggleVideo`); tracks
   * of the other kind and every other field stay as they were.
   */
  function SetEnabled(stream: Stream, kind: TrackKind, enabled: bool): (r: Stream)
    ensures |r| == |stream|
    ensures forall k :: 0 <= k < |r| && stream[k].kind == kind ==> r[k] == stream[k].(enabled := enabled)
    ensures forall k :: 0 <= k < |r| && stream[k].kind != kind ==> r[k] == stream[k]
  {
    seq(|stream|, k requires 0 <= k < |stream| =>
      if stream[k].kind == kind then stream[k].(enabled := enabled) else stream[k])
  }

  /** Toggling one kind leaves the other kind's flags alone and is undone by toggling back. */
  lemma SetEnabledLaws(stream: Stream, kind: TrackKind, b: bool)
    ensures SetEnabled(SetEnabled(stream, kind, b), kind, b) == SetEnabled(stream, kind, b)
    ensures forall k :: 0 <= k < |stream| && stream[k].kind == kind ==> SetEnabled(stream, kind, b)[k].enabled == b
    ensures TrackIds(SetEnabled(stream, kind, b)) == TrackIds(stream)
    ensures CountKind(SetEnabled(stream, kind, b), kind) == CountKind(stream, kind)
  {
    SameKindsSameCount(stream, SetEnabled(stream, kind, b), kind);
  }

  /** Two streams with the same kinds at every position have the same per-kind counts. */
  lemma {:induction false} SameKindsSameCount(a: Stream, b: Stream, kind: TrackKind)
    requires |a| == |b|
    requires forall k :: 0 <= k < |a| ==> a[k].kind == b[k].kind
    ensures CountKind(a, kind) == CountKind(b, kind)
  {
    if |a| > 0 {
      SameKindsSameCount(a[1..], b[1..], kind);
    }
  }

  // ------------------------------------------------------------ getUserMedia

  /** The `name` and `message` of a rejected `getUserMedia`. */
  datatype MediaError = MediaError(name: string, message: string)

  /** What one `getUserMedia` call settles to. */
  datatype Attempt = Granted(stream: Stream) | Rejected(error: MediaError)

  /** The two constraint sets the code asks for: 640x480 ideal with audio processing, or `{video: true, audio: true}`. */
  datatype Constraints = IdealConstraints | BasicConstraints

  /** The error names the code recognises. */
  const NotAllowed := "NotAllowedError"
  const NotFound := "NotFoundError"
  const NotReadable := "NotReadableError"
  const Overconstrained := "OverconstrainedError"
  const Security := "SecurityError"
}

=== FILE: onboarding.dfy ===
/**
 * The onboarding carousel: four slides, Next/Back buttons, one dot per slide, and a
 * Skip button. Reaching past the last slide, or skipping, completes onboarding.
 */
module Onboarding {

  const SlideTitles := ["Random Video Chats", "Simple Swipe Controls", "Premium Features", "Token System"]
  const SlideCount := |SlideTitles|
  const LastSlide := SlideCount - 1

  /** Where a button press leaves the carousel: on a slide, or done (`onComplete` was called on that slide). */
  datatype Position = OnSlide(index: nat) | Completed(from: nat)

  /** `nextSlide`: forward one slide, or complete on the last one without moving. */
  function Next(i: nat): (p: Position)
    ensures i < LastSlide ==> p == OnSlide(i + 1)
    ensures i >= LastSlide ==> p == Completed(i)
  {
    if i < LastSlide then OnSlide(i + 1) else Completed(i)
  }

  /** `prevSlide`: back one slide, except on the first. */
  function Prev(i: nat): (j: nat)
    ensures i > 0 ==> j + 1 == i
    ensures i == 0 ==> j == 0
  {
    if i > 0 then i - 1 else i
  }

  /** The Back button is disabled exactly on the first slide, the only place where it would do nothing. */
  predicate BackDisabled(i: nat) {
    i == 0
  }

  /** The forward button's label. */
  function NextLabel(i: nat): (caption: string)
    ensures caption == "Get Started" <==> i == LastSlide
    ensures caption != "Get Started" ==> caption == "Next"
  {
    if i == LastSlide then "Get Started" else "Next"
  }

  /** A press on the carousel. The dots only exist for real slides. */
  datatype Press = NextPress | BackPress | DotPress(index: nat) | SkipPress

  predicate PressAllowed(p: Press) {
    p.DotPress? ==> p.index < SlideCount
  }

  /**
   * One press from slide `i` (the dots call `goToSlide`). It completes onboarding only
   * on Skip, or on Next from the last slide, and then from the slide it was on; from a
   * real slide it never leaves the slides.
   */
  function Step(i: nat, p: Press): (r: Position)
    requires PressAllowed(p)
    ensures r.Completed? <==> p.SkipPress? || (p.NextPress? && i >= LastSlide)
    ensures r.Completed? ==> r.from == i
    ensures i < SlideCount && r.OnSlide? ==> r.index < SlideCount
  {
    match p
    case NextPress => Next(i)
    case BackPress => OnSlide(Prev(i))
    case DotPress(index) => OnSlide(index)
    case SkipPress => Completed(i)
  }

  /**
   * Presses in order until one of them completes onboarding; later presses are never
   * seen. No press leaves the carousel where it was, and only a Skip or a Next can
   * complete it.
   */
  function Walk(i: nat, presses: seq<Press>): (r: Position)
    requires forall k :: 0 <= k < |presses| ==> PressAllowed(presses[k])
    ensures |presses| == 0 ==> r == OnSlide(i)
    ensures r.Completed? ==> exists k :: 0 <= k < |presses| && (presses[k].SkipPress? || presses[k].NextPress?)
    decreases |presses|
  {
    if |presses| == 0 then OnSlide(i)
    else
      match Step(i, presses[0])
      case Completed(from) => Completed(from)
      case OnSlide(j) => Walk(j, presses[1..])
  }

  /** Any sequence of presses from a real slide stays on real slides. */
  lemma {:induction false} WalkInRange(i: nat, presses: seq<Press>)
    requires i < SlideCount
    requires forall k :: 0 <= k < |presses| ==> PressAllowed(presses[k])
    ensures Walk(i, presses).OnSlide? ==> Walk(i, presses).index < SlideCount
    ensures Walk(i, presses).Completed? ==> Walk(i, presses).from < SlideCount
    decreases |presses|
  {
    if |presses| > 0 {
      match Step(i, presses[0])
      case Completed(_) =>
      case OnSlide(j) => WalkInRange(j, presses[1..]);
    }
  }

  /** Back undoes Next everywhere before the last slide, and Next undoes Back everywhere after the first. */
  lemma NextPrevInverse(i: nat)
    ensures i < LastSlide ==> Prev(Next(i).index) == i
    ensures 0 < i <= LastSlide ==> Next(Prev(i)) == OnSlide(i)
  {
  }

  /** From the first slide, three Nexts reach the last one and the fourth completes there. */
  lemma FourNextsComplete()
    ensures Walk(0, [NextPress, NextPress, NextPress]) == OnSlide(LastSlide)
    ensures Walk(0, [NextPress, NextPress, NextPress, NextPress]) == Completed(LastSlide)
  {
    assert [NextPress, NextPress, NextPress][1..] == [NextPress, NextPress];
    assert [NextPress, NextPress][1..] == [NextPress];
    assert [NextPress, NextPress, NextPress, NextPress][1..] == [NextPress, NextPress, NextPress];
  }
}

=== FILE: plans_tab.dfy ===
/**
 * The admin panel's plan list: adding a plan from the form, switching a plan on or
 * off, and deleting it. Plans are matched by id; nothing keeps ids unique, so toggling
 * and deleting act on every plan that carries the id.
 */
module PlansTab {
  import opened Seqs

  datatype Plan = Plan(id: string, name: string, minutes: int, amount: int, active: bool)

  /** The add-plan form. The number inputs hold `parseInt(...) || 0`, so they are integers. */
  datatype Draft = Draft(name: string, minutes: int, amount: int)

  const EmptyDraft := Draft("", 0, 0)

  /** The plans the panel starts with. */
  const InitialPlans := [Plan("1", "Test Drive", 1, 0, true), Plan("2", "Premium", 20, 100, true)]

  /** The form check: a name, a positive number of minutes, and an amount that is not negative. */
  predicate DraftAcceptable(d: Draft) {
    d.name != "" && d.minutes > 0 && d.amount >= 0
  }

  /**
   * `handleAddPlan`. `newId` stands for `Date.now().toString()`. A rejected form leaves
   * both the list and the form as they were; an accepted one appends exactly one active
   * plan built from the form and clears the form.
   */
  function AddPlan(plans: seq<Plan>, d: Draft, newId: string): (r: (seq<Plan>, Draft))
    ensures !DraftAcceptable(d) ==> r == (plans, d)
    ensures DraftAcceptable(d) ==> |r.0| == |plans| + 1 && r.0[..|plans|] == plans
    ensures DraftAcceptable(d) ==>
      var p := r.0[|plans|];
      p.id == newId && p.name == d.name && p.minutes == d.minutes && p.amount == d.amount && p.active
    ensures DraftAcceptable(d) ==> r.1 == EmptyDraft
  {
    if !DraftAcceptable(d) then (plans, d)
    else (plans + [Plan(newId, d.name, d.minutes, d.amount, true)], EmptyDraft)
  }

  /** `togglePlanStatus`: flips `active` on the plans with this id; order, length and every other field stay. */
  function TogglePlan(plans: seq<Plan>, id: string): (r: seq<Plan>)
    ensures |r| == |plans|
    ensures forall k :: 0 <= k < |r| && plans[k].id == id ==> r[k] == plans[k].(active := !plans[k].active)
    ensures forall k :: 0 <= k < |r| && plans[k].id != id ==> r[k] == plans[k]
  {
    seq(|plans|, k requires 0 <= k < |plans| =>
      if plans[k].id == id then plans[k].(active := !plans[k].active) else plans[k])
  }

  /** `deletePlan`: the plans whose id differs, in their original order. */
  function DeletePlan(plans: seq<Plan>, id: string): (r: seq<Plan>)
    ensures forall k :: 0 <= k < |r| ==> r[k].id != id && r[k] in plans
    ensures forall k :: 0 <= k < |plans| && plans[k].id != id ==> plans[k] in r
    ensures IsSubsequence(r, plans)
    ensures (forall k :: 0 <= k < |plans| ==> plans[k].id != id) ==> r == plans
  {
    Filter(plans, (p: Plan) => p.id != id)
  }

  /** Toggling the same id twice gives back the original list. */
  lemma ToggleTwice(plans: seq<Plan>, id: string)
    ensures TogglePlan(TogglePlan(plans, id), id) == plans
  {
    var once := TogglePlan(plans, id);
    var twice := TogglePlan(once, id);
    assert forall k :: 0 <= k < |plans| ==> twice[k] == plans[k];
  }

  /** Deleting the plan just added, under an id no other plan has, gives back the list before the add. */
  lemma {:induction false} AddThenDelete(plans: seq<Plan>, d: Draft, newId: string)
    requires DraftAcceptable(d)
    requires forall k :: 0 <= k < |plans| ==> plans[k].id != newId
    ensures DeletePlan(AddPlan(plans, d, newId).0, newId) == plans
  {
    var keep := (p: Plan) => p.id != newId;
    var added := Plan(newId, d.name, d.minutes, d.amount, true);
    FilterAppend(plans, [added], keep);
    assert Filter([added], keep) == [];
  }

  /** Deleting is idempotent, and deleting leaves no plan that toggling could still reach. */
  lemma DeleteThenToggle(plans: seq<Plan>, id: string)
    ensures DeletePlan(DeletePlan(plans, id), id) == DeletePlan(plans, id)
    ensures TogglePlan(DeletePlan(plans, id), id) == DeletePlan(plans, id)
  {
    var r := DeletePlan(plans, id);
    assert forall k :: 0 <= k < |TogglePlan(r, id)| ==> TogglePlan(r, id)[k] == r[k];
  }
}

=== FILE: rooms.dfy ===
/**
 * The API configuration and the room and partner helpers built on it. The build-time
 * environment and the page's host name are inputs; `fetch` is an oracle that either
 * answers or fails, and `Math.random()` is a number in [0, 1).
 */
module Rooms {
  import opened Wrappers
  import opened Text
  import opened Seqs
  import opened Types
  import opened Signaling

  // ------------------------------------------------------------ configuration

  /**
   * The inputs the configuration is computed from: whether `NODE_ENV` is
   * `development`, the page's host name (absent outside a browser), and the four
   * `VITE_` variables (absent when not set).
   */
  datatype Env = Env(
    nodeEnvDevelopment: bool,
    hostname: Option<string>,
    signalingUrl: Option<string>,
    socketUrl: Option<string>,
    googleClientId: Option<string>,
    facebookAppId: Option<string>)

  const SignalingPlaceholder := "wss://your-signaling-server.io"
  const SocketPlaceholder := "https://your-socket-server.io"
  const GooglePlaceholder := "YOUR_GOOGLE_CLIENT_ID_HERE"
  const FacebookPlaceholder := "YOUR_FACEBOOK_APP_ID_HERE"

  predicate IsFigmaPreview(env: Env) {
    env.hostname.Some? && Contains(env.hostname.value, "figma")
  }

  predicate IsLocalhost(env: Env) {
    env.hostname.Some? && (env.hostname.value == "localhost" || env.hostname.value == "127.0.0.1")
  }

  predicate IsDevelopment(env: Env) {
    env.nodeEnvDevelopment || IsFigmaPreview(env) || IsLocalhost(env)
  }

  /** `value || fallback`: an unset or empty variable takes the default. */
  function OrDefault(value: Option<string>, fallback: string): (r: string)
    ensures value.Some? && value.value != "" ==> r == value.value
    ensures value.None? || value.value == "" ==> r == fallback
  {
    if value.Some? && value.value != "" then value.value else fallback
  }

  function SignalingServerUrl(env: Env): string { OrDefault(env.signalingUrl, SignalingPlaceholder) }
  function SocketIoUrl(env: Env): string { OrDefault(env.socketUrl, SocketPlaceholder) }

  /** `null` during development, otherwise the variable or its placeholder. */
  function GoogleClientId(env: Env): Option<string> {
    if IsDevelopment(env) then None else Some(OrDefault(env.googleClientId, GooglePlaceholder))
  }

  function FacebookAppId(env: Env): Option<string> {
    if IsDevelopment(env) then None else Some(OrDefault(env.facebookAppId, FacebookPlaceholder))
  }

  /** One `isApiConfigured` flag: the value is truthy and is not the placeholder. */
  predicate Configured(value: Option<string>, placeholder: string) {
    value.Some? && value.value != "" && value.value != placeholder
  }

  /**
   * Each flag holds exactly when its variable is set to something other than the empty
   * string and the placeholder (and, for the two sign-in providers, outside development).
   */
  lemma ConfiguredFlags(env: Env)
    ensures Configured(Some(SignalingServerUrl(env)), SignalingPlaceholder) <==> Configured(env.signalingUrl, SignalingPlaceholder)
    ensures Configured(Some(SocketIoUrl(env)), SocketPlaceholder) <==> Configured(env.socketUrl, SocketPlaceholder)
    ensures Configured(GoogleClientId(env), GooglePlaceholder) <==> !IsDevelopment(env) && Configured(env.googleClientId, GooglePlaceholder)
    ensures Configured(FacebookAppId(env), FacebookPlaceholder) <==> !IsDevelopment(env) && Configured(env.facebookAppId, FacebookPlaceholder)
  {
  }

  predicate WebRtcConfigured(env: Env) { Configured(Some(SignalingServerUrl(env)), SignalingPlaceholder) }
  predicate GoogleConfigured(env: Env) { Configured(GoogleClientId(env), GooglePlaceholder) }
  predicate FacebookConfigured(env: Env) { Configured(FacebookAppId(env), FacebookPlaceholder) }

  // ------------------------------------------------------------ rooms

  const MockRoomPrefix := "room-"
  const MockSignalingBase := "wss://demo-signaling.swipx.io/"

  /** How the `POST /api/rooms` call settles: a room id from the JSON body, a non-OK status, or a thrown error. */
  datatype FetchOutcome = Created(roomId: string) | NotOk(status: int) | FetchFailed

  /** A demo room: `room-` and a random part, on the demo signalling host. */
  function MockRoom(suffix: string): (room: Room)
    ensures StartsWith(room.roomId, MockRoomPrefix)
    ensures room.url == MockSignalingBase + room.roomId
  {
    Room(MockRoomPrefix + suffix, MockSignalingBase + (MockRoomPrefix + suffix))
  }

  /** Whether `createWebRTCRoom` calls the server at all. */
  predicate UsesServer(env: Env) {
    WebRtcConfigured(env) && !IsDevelopment(env)
  }

  /**
   * `createWebRTCRoom`. It never fails: unconfigured, in development, on a non-OK
   * response or a failed request it returns a demo room; only a created room comes
   * from the server. In every case the URL ends with the room id.
   */
  function CreateWebRtcRoom(env: Env, suffix: string, outcome: FetchOutcome): (room: Room)
    ensures !UsesServer(env) || !outcome.Created? ==> room == MockRoom(suffix)
    ensures UsesServer(env) && outcome.Created? ==>
      room.roomId == outcome.roomId && room.url == SignalingServerUrl(env) + "/" + outcome.roomId
    ensures EndsWith(room.url, room.roomId)
  {
    if UsesServer(env) && outcome.Created? then
      ConcatEnds(SignalingServerUrl(env) + "/", outcome.roomId);
      Room(outcome.roomId, SignalingServerUrl(env) + "/" + outcome.roomId)
    else
      ConcatEnds(MockSignalingBase, MockRoomPrefix + suffix);
      MockRoom(suffix)
  }

  /**
   * `deleteWebRTCRoom`: the URL of the `DELETE` request, or `None` when the deletion is
   * skipped (unconfigured, in development, or a demo `room-` id). Errors are swallowed.
   */
  function DeleteWebRtcRoom(env: Env, roomId: string): (url: Option<string>)
    ensures url.None? <==> !WebRtcConfigured(env) || IsDevelopment(env) || StartsWith(roomId, MockRoomPrefix)
    ensures url.Some? ==> StartsWith(url.value, SocketIoUrl(env)) && EndsWith(url.value, roomId)
  {
    if !WebRtcConfigured(env) || IsDevelopment(env) || StartsWith(roomId, MockRoomPrefix) then None
    else
      ConcatEnds(SocketIoUrl(env), "/api/rooms/" + roomId);
      ConcatEnds(SocketIoUrl(env) + "/api/rooms/", roomId);
      assert SocketIoUrl(env) + "/api/rooms/" + roomId == SocketIoUrl(env) + ("/api/rooms/" + roomId);
      Some(SocketIoUrl(env) + "/api/rooms/" + roomId)
  }

  /** A room that `createWebRTCRoom` made up is never deleted on the server. */
  lemma MockRoomsNeverDeletedRemotely(env: Env, suffix: string, outcome: FetchOutcome)
    requires !UsesServer(env) || !outcome.Created?
    ensures DeleteWebRtcRoom(env, CreateWebRtcRoom(env, suffix, outcome).roomId).None?
  {
  }

  // ------------------------------------------------------------ partners

  /** An entry of `MOCK_USERS` (the avatar URL is left out). */
  datatype MockUser = MockUser(id: string, name: string, country: string, gender: Gender, isPremium: bool)

  const MockUsers: seq<MockUser> := [
    MockUser("1", "Alex Kumar", "India", Male, false),
    MockUser("2", "Sarah Johnson", "USA", Female, true),
    MockUser("3", "James Wilson", "UK", Male, false),
    MockUser("4", "Priya Sharma", "India", Female, true),
    MockUser("5", "Michael Brown", "Canada", Male, false)
  ]

  /** The filters `findRandomUser` takes; an empty country counts as no country. */
  datatype Filters = Filters(country: Option<string>, gender: Option<Gender>, excludeId: Option<string>)

  predicate NotExcluded(u: MockUser, f: Filters) {
    f.excludeId.None? || u.id != f.excludeId.value
  }

  predicate CountryGiven(f: Filters) {
    f.country.Some? && f.country.value != ""
  }

  /** A user satisfies every filter that was given. */
  predicate Matches(u: MockUser, f: Filters) {
    && NotExcluded(u, f)
    && (CountryGiven(f) ==> u.country == f.country.value)
    && (f.gender.Some? ==> u.gender == f.gender.value)
  }

  /** Everyone but `excludeId`. */
  function Others(users: seq<MockUser>, f: Filters): seq<MockUser> {
    Filter(users, (u: MockUser) => NotExcluded(u, f))
  }

  /** The exclusion, then the country filter if a country is given, then the gender filter if a gender is given. */
  function Filtered(users: seq<MockUser>, f: Filters): (r: seq<MockUser>)
    ensures forall k :: 0 <= k < |r| ==> Matches(r[k], f)
    ensures forall k :: 0 <= k < |users| && Matches(users[k], f) ==> users[k] in r
    ensures IsSubsequence(r, users)
  {
    var others := Others(users, f);
    var byCountry := if CountryGiven(f) then Filter(others, (u: MockUser) => u.country == f.country.value) else others;
    var byGender := if f.gender.Some? then Filter(byCountry, (u: MockUser) => u.gender == f.gender.value) else byCountry;
    SubsequenceReflexive(others);
    SubsequenceReflexive(byCountry);
    SubsequenceTransitive(byGender, byCountry, others);
    SubsequenceTransitive(byGender, others, users);
    byGender
  }

  /** The pool the pick is drawn from: the filtered users, or everyone but `excludeId` when no one matches. */
  function CandidatePool(users: seq<MockUser>, f: Filters): (pool: seq<MockUser>)
    ensures forall k :: 0 <= k < |pool| ==> NotExcluded(pool[k], f)
    ensures |Filtered(users, f)| > 0 ==> pool == Filtered(users, f)
    ensures |Filtered(users, f)| == 0 ==> pool == Others(users, f)
    ensures IsSubsequence(pool, users)
  {
    var filtered := Filtered(users, f);
    if |filtered| > 0 then filtered else Others(users, f)
  }

  /** `floor(r * length)` for `0 <= r < 1` is a valid index of a non-empty pool. */
  function PickIndex(r: real, length: nat): (i: nat)
    requires 0.0 <= r < 1.0
    requires length > 0
    ensures i < length
  {
    var x := r * length as real;
    assert x < length as real by {
      assert (1.0 - r) * length as real > 0.0;
    }
    x.Floor
  }

  /** `findRandomUser`: the user at `floor(random * |pool|)`, or nothing from an empty pool. */
  function FindRandomUser(users: seq<MockUser>, f: Filters, random: real): (u: Option<MockUser>)
    requires 0.0 <= random < 1.0
    ensures u.Some? <==> |CandidatePool(users, f)| > 0
    ensures u.Some? ==> u.value in CandidatePool(users, f) && NotExcluded(u.value, f)
    ensures u.Some? && |Filtered(users, f)| > 0 ==> Matches(u.value, f)
  {
    var pool := CandidatePool(users, f);
    if |pool| == 0 then None else Some(pool[PickIndex(random, |pool|)])
  }

  /** Removing the elements that fail a test loses at most one when no two elements fail it. */
  lemma {:induction false} FilterDropsAtMostOne<T>(xs: seq<T>, keep: T -> bool)
    requires forall i, j :: 0 <= i < j < |xs| ==> keep(xs[i]) || keep(xs[j])
    ensures |Filter(xs, keep)| + 1 >= |xs|
    decreases |xs|
  {
    if |xs| > 0 {
      assert forall k :: 1 <= k < |xs| ==> xs[k] == xs[1..][k - 1];
      if keep(xs[0]) {
        FilterDropsAtMostOne(xs[1..], keep);
      } else {
        assert forall k :: 0 <= k < |xs[1..]| ==> keep(xs[1..][k]);
      }
    }
  }

  /** The ids of the mock users are all different, so excluding one id leaves at least four users to pick from. */
  lemma MockPoolNeverEmpty(f: Filters)
    ensures |Others(MockUsers, f)| >= 4
    ensures |CandidatePool(MockUsers, f)| > 0
  {
    assert forall i, j :: 0 <= i < j < |MockUsers| ==> MockUsers[i].id != MockUsers[j].id;
    FilterDropsAtMostOne(MockUsers, (u: MockUser) => NotExcluded(u, f));
  }
}

=== FILE: seqs.dfy ===
/** Sequence helpers: `Array.prototype.filter` and the order-preserving subsequence relation it satisfies. */
module Seqs {

  /** `r` is `xs` with some elements left out and the rest in their original order. */
  predicate IsSubsequence<T(==)>(r: seq<T>, xs: seq<T>)
    decreases |xs|
  {
    if |r| == 0 then true
    else if |xs| == 0 then false
    else (r[0] == xs[0] && IsSubsequence(r[1..], xs[1..])) || IsSubsequence(r, xs[1..])
  }

  /**
   * `xs.filter(keep)`: exactly the elements that pass, in their original order; when
   * every element passes, the whole sequence.
   */
  function Filter<T(==)>(xs: seq<T>, keep: T -> bool): (r: seq<T>)
    ensures |r| <= |xs|
    ensures forall k :: 0 <= k < |r| ==> keep(r[k]) && r[k] in xs
    ensures forall k :: 0 <= k < |xs| && keep(xs[k]) ==> xs[k] in r
    ensures IsSubsequence(r, xs)
    ensures (forall k :: 0 <= k < |xs| ==> keep(xs[k])) ==> r == xs
    decreases |xs|
  {
    if |xs| == 0 then []
    else
      var rest := Filter(xs[1..], keep);
      assert forall k :: 1 <= k < |xs| ==> xs[k] == xs[1..][k - 1];
      if keep(xs[0]) then
        var r := [xs[0]] + rest;
        assert r[1..] == rest;
        r
      else rest
  }

  lemma {:induction false} SubsequenceReflexive<T>(xs: seq<T>)
    ensures IsSubsequence(xs, xs)
    decreases |xs|
  {
    if |xs| > 0 {
      SubsequenceReflexive(xs[1..]);
    }
  }

  /** Subsequences compose: leaving elements out twice is leaving elements out once. */
  lemma {:induction false} SubsequenceTransitive<T>(a: seq<T>, b: seq<T>, c: seq<T>)
    requires IsSubsequence(a, b) && IsSubsequence(b, c)
    ensures IsSubsequence(a, c)
    decreases |c|
  {
    if |a| > 0 {
      assert |b| > 0 && |c| > 0;
      if b[0] == c[0] && IsSubsequence(b[1..], c[1..]) {
        if a[0] == b[0] && IsSubsequence(a[1..], b[1..]) {
          SubsequenceTransitive(a[1..], b[1..], c[1..]);
        } else {
          SubsequenceTransitive(a, b[1..], c[1..]);
        }
      } else {
        SubsequenceTransitive(a, b, c[1..]);
      }
    }
  }

  /** Filtering a concatenation filters each part. */
  lemma {:induction false} FilterAppend<T>(xs: seq<T>, ys: seq<T>, keep: T -> bool)
    ensures Filter(xs + ys, keep) == Filter(xs, keep) + Filter(ys, keep)
    decreases |xs|
  {
    if |xs| == 0 {
      assert xs + ys == ys;
    } else {
      assert (xs + ys)[1..] == xs[1..] + ys;
      FilterAppend(xs[1..], ys, keep);
    }
  }

  /** A subsequence whose elements all pass the test survives filtering with it. */
  lemma {:induction false} SubsequenceOfFilter<T>(a: seq<T>, xs: seq<T>, keep: T -> bool)
    requires IsSubsequence(a, xs)
    requires forall k :: 0 <= k < |a| ==> keep(a[k])
    ensures IsSubsequence(a, Filter(xs, keep))
    decreases |xs|
  {
    if |a| > 0 {
      var rest := Filter(xs[1..], keep);
      if a[0] == xs[0] && IsSubsequence(a[1..], xs[1..]) {
        SubsequenceOfFilter(a[1..], xs[1..], keep);
        assert ([xs[0]] + rest)[1..] == rest;
      } else {
        SubsequenceOfFilter(a, xs[1..], keep);
        if keep(xs[0]) {
          assert ([xs[0]] + rest)[1..] == rest;
        }
      }
    }
  }
}

=== FILE: settings.dfy ===
/**
 * The settings screen: editing the display name, choosing a country and a gender, and
 * the notification switches. Changes to the user go through `updateUser`; the name
 * editor and the switches are the screen's own state.
 */
module Settings {
  import opened Wrappers
  import opened Text
  import opened Types

  /** The name editor: whether it is open and the text typed so far. */
  datatype Editor = Editor(isEditing: bool, tempName: string)

  /** The editor as the screen first shows it: closed, holding the current name. */
  function OpenSettings(user: User): (ed: Editor)
    ensures !ed.isEditing && ed.tempName == user.name
  {
    Editor(false, user.name)
  }

  /**
   * `handleSaveName`: a name that is not just whitespace is stored trimmed and the
   * editor closes; otherwise neither the user nor the editor changes.
   */
  function SaveName(user: User, ed: Editor): (r: (User, Editor))
    ensures AllWhitespace(ed.tempName) ==> r == (user, ed)
    ensures !AllWhitespace(ed.tempName) ==>
      r.0 == user.(name := Trim(ed.tempName)) && r.1 == ed.(isEditing := false)
    ensures !AllWhitespace(ed.tempName) ==>
      r.0.name != "" && !IsWhitespace(r.0.name[0]) && !IsWhitespace(r.0.name[|r.0.name| - 1])
  {
    var trimmed := Trim(ed.tempName);
    if trimmed != "" then (Merge(user, NamePatch(trimmed)), ed.(isEditing := false))
    else (user, ed)
  }

  /** The editor's Cancel: the typed text goes back to the stored name and the editor closes. */
  function CancelEdit(user: User, ed: Editor): (r: Editor)
    ensures !r.isEditing && r.tempName == user.name
  {
    ed.(isEditing := false, tempName := user.name)
  }

  /** Saving what is already stored, or saving the same text twice, changes the name no further. */
  lemma SaveNameStable(user: User, ed: Editor)
    requires !AllWhitespace(ed.tempName)
    ensures SaveName(SaveName(user, ed).0, ed).0 == SaveName(user, ed).0
    ensures SaveName(SaveName(user, ed).0, Editor(true, SaveName(user, ed).0.name)).0 == SaveName(user, ed).0
  {
    var saved := SaveName(user, ed).0;
    TrimIdempotent(ed.tempName);
    assert saved.name == Trim(ed.tempName);
  }

  /** `handleCountryChange`: only the country changes. */
  function ChangeCountry(user: User, country: string): (r: User)
    ensures r.country == country && r.(country := user.country) == user
  {
    Merge(user, CountryPatch(country))
  }

  /** A value of the gender select: one of the three genders, or "Prefer not to say". */
  datatype GenderChoice = NotSpecified | Chosen(gender: Gender)

  /** The value the gender select shows: the user's gender, or "not-specified" when there is none. */
  function ShownGender(user: User): (choice: GenderChoice)
    ensures choice.Chosen? <==> user.gender.Some?
    ensures choice.Chosen? ==> choice.gender == user.gender.value
  {
    match user.gender
    case None => NotSpecified
    case Some(g) => Chosen(g)
  }

  /** The select's change handler: "not-specified" is ignored; a gender replaces only the gender. */
  function ChangeGender(user: User, choice: GenderChoice): (r: User)
    ensures choice.NotSpecified? ==> r == user
    ensures choice.Chosen? ==> r.gender == Some(choice.gender) && r.(gender := user.gender) == user
  {
    match choice
    case NotSpecified => user
    case Chosen(g) => Merge(user, GenderPatch(g))
  }

  /** Re-selecting the value the select already shows changes nothing; once set, a gender cannot be cleared from here. */
  lemma GenderSelectStable(user: User, choice: GenderChoice)
    ensures ChangeGender(user, ShownGender(user)) == user
    ensures user.gender.Some? ==> ChangeGender(user, choice).gender.Some?
  {
  }

  // ------------------------------------------------------------ notifications

  datatype NotificationKey = Matches | Messages | Promotions | Updates

  datatype Notifications = Notifications(matches: bool, messages: bool, promotions: bool, updates: bool)

  const InitialNotifications := Notifications(true, true, false, true)

  function Setting(n: Notifications, key: NotificationKey): bool {
    match key
    case Matches => n.matches
    case Messages => n.messages
    case Promotions => n.promotions
    case Updates => n.updates
  }

  /** `handleNotificationChange`: the named switch takes the value; the other three keep theirs. */
  function SetNotification(n: Notifications, key: NotificationKey, value: bool): (r: Notifications)
    ensures Setting(r, key) == value
    ensures forall other :: other != key ==> Setting(r, other) == Setting(n, other)
  {
    match key
    case Matches => n.(matches := value)
    case Messages => n.(messages := value)
    case Promotions => n.(promotions := value)
    case Updates => n.(updates := value)
  }

  /** Switches are independent: changes to different keys commute, and on one key the last change wins. */
  lemma SwitchesIndependent(n: Notifications, k1: NotificationKey, v1: bool, k2: NotificationKey, v2: bool)
    ensures k1 != k2 ==> SetNotification(SetNotification(n, k1, v1), k2, v2) == SetNotification(SetNotification(n, k2, v2), k1, v1)
    ensures SetNotification(SetNotification(n, k1, v1), k1, v2) == SetNotification(n, k1, v2)
  {
  }
}

=== FILE: signaling.dfy ===
/**
 * Signalling messages and the in-memory `MockSocket`: a registry from event name to
 * the callbacks registered for it, in registration order. Callbacks are compared by
 * identity in the source; here they are any type with equality.
 */
module Signaling {
  import opened Wrappers

  /** A room id and the signalling URL that goes with it. */
  datatype Room = Room(roomId: string, url: string)

  /** A session description as produced by `createOffer` / `createAnswer`. */
  datatype Description = Description(sdpType: string, sdp: string)

  /** The `data` field: a display name for joins, a description, a candidate, or `{}`. */
  datatype Payload = NoPayload | Profile(name: string) | Sdp(description: Description) | Candidate(candidate: string)

  /**
   * A signalling message. Its `type` is one of the seven event names and always equals
   * the event it is emitted under. `roomId` is optional because the service fills it
   * from `this.roomId!`, a non-null assertion that checks nothing at run time.
   */
  datatype Message = Message(msgType: string, roomId: Option<string>, userId: string, data: Payload)

  // ------------------------------------------------------------ the registry

  datatype Socket<C(==)> = Socket(listeners: map<string, seq<C>>, connected: bool)

  /** A new socket: no listeners, and not yet marked connected. */
  function NewSocket<C(==)>(): (s: Socket<C>)
    ensures !s.connected
    ensures forall e :: Listeners(s, e) == []
  {
    Socket(map[], false)
  }

  /** `listeners.get(event) || []`: an event nobody registered for has no callbacks. */
  function Listeners<C(==)>(s: Socket<C>, event: string): (cbs: seq<C>)
    ensures event !in s.listeners ==> cbs == []
    ensures event in s.listeners ==> cbs == s.listeners[event]
  {
    if event in s.listeners then s.listeners[event] else []
  }

  /** `on(event, cb)`: appends `cb` after the callbacks already registered for `event`. */
  function On<C(==)>(s: Socket<C>, event: string, cb: C): (r: Socket<C>)
    ensures Listeners(r, event) == Listeners(s, event) + [cb]
    ensures forall e :: e != event ==> Listeners(r, e) == Listeners(s, e)
    ensures r.connected == s.connected
  {
    s.(listeners := s.listeners[event := Listeners(s, event) + [cb]])
  }

  /** `Array.prototype.indexOf`: the first position of `x`, or -1. */
  function IndexOf<C(==)>(xs: seq<C>, x: C): (i: int)
    ensures -1 <= i < |xs|
    ensures i == -1 <==> x !in xs
    ensures 0 <= i ==> xs[i] == x && x !in xs[..i]
  {
    if |xs| == 0 then -1
    else if xs[0] == x then 0
    else
      var j := IndexOf(xs[1..], x);
      if j == -1 then -1
      else
        assert xs[..j + 1] == [xs[0]] + xs[1..][..j];
        j + 1
  }

  /**
   * `off(event, cb)` removes the first registration of `cb` only; `off(event)` drops
   * every callback of `event`. Other events are untouched.
   */
  function Off<C(==)>(s: Socket<C>, event: string, cb: Option<C>): (r: Socket<C>)
    ensures cb.None? ==> Listeners(r, event) == []
    ensures cb.Some? && cb.value !in Listeners(s, event) ==> r == s
    ensures cb.Some? && cb.value in Listeners(s, event) ==>
      var l := Listeners(s, event);
      var i := IndexOf(l, cb.value);
      Listeners(r, event) == l[..i] + l[i + 1..] && cb.value !in l[..i]
    ensures cb.Some? ==> multiset(Listeners(r, event)) == multiset(Listeners(s, event)) - multiset{cb.value}
    ensures forall e :: e != event ==> Listeners(r, e) == Listeners(s, e)
    ensures r.connected == s.connected
  {
    match cb
    case None => s.(listeners := s.listeners - {event})
    case Some(c) =>
      var l := Listeners(s, event);
      var i := IndexOf(l, c);
      if i > -1 then
        assert l == l[..i] + [c] + l[i + 1..];
        s.(listeners := s.listeners[event := l[..i] + l[i + 1..]])
      else s
  }

  /**
   * `trigger(event, data)`: exactly the callbacks registered for `event` run, in
   * registration order, whether or not the socket is marked connected.
   */
  function Trigger<C(==)>(s: Socket<C>, event: string): (invoked: seq<C>)
    ensures event !in s.listeners ==> invoked == []
    ensures event in s.listeners ==> invoked == s.listeners[event]
    ensures invoked == Listeners(s.(connected := !s.connected), event)
  {
    Listeners(s, event)
  }

  /** `disconnect()`: marks the socket disconnected and forgets every listener. */
  function Disconnect<C(==)>(s: Socket<C>): (r: Socket<C>)
    ensures !r.connected
    ensures forall e :: Listeners(r, e) == []
  {
    Socket(map[], false)
  }

  /** The constructor's one-second timer: the socket reports itself connected. */
  function MarkConnected<C(==)>(s: Socket<C>): (r: Socket<C>)
    ensures r.connected
    ensures forall e :: Listeners(r, e) == Listeners(s, e)
  {
    s.(connected := true)
  }

  /** Registering callbacks one after another makes `trigger` run them in that order. */
  lemma OnOrder<C>(s: Socket<C>, event: string, a: C, b: C)
    requires Listeners(s, event) == []
    ensures Trigger(On(On(s, event, a), event, b), event) == [a, b]
  {
  }

  /** Removing a callback that was just registered (and not before) restores the event's list. */
  lemma OnThenOff<C>(s: Socket<C>, event: string, cb: C)
    requires cb !in Listeners(s, event)
    ensures Listeners(Off(On(s, event, cb), event, Some(cb)), event) == Listeners(s, event)
  {
    var l := Listeners(s, event) + [cb];
    assert l[..|l| - 1] == Listeners(s, event);
  }

  /** After `disconnect`, a triggered event reaches nobody, and a second `disconnect` changes nothing. */
  lemma DisconnectSilences<C>(s: Socket<C>, event: string)
    ensures Trigger(Disconnect(s), event) == []
    ensures Disconnect(Disconnect(s)) == Disconnect(s)
  {
  }

  /**
   * The mock's simulated server: two seconds after a `join-room` is emitted, it
   * triggers `user-joined` for the same room from a made-up partner; other events get
   * no reply.
   */
  function SimulatedReply(event: string, m: Message, partnerSuffix: string): (reply: Option<Message>)
    ensures reply.Some? <==> event == "join-room"
    ensures reply.Some? ==> reply.value.msgType == "user-joined" && reply.value.roomId == m.roomId
    ensures reply.Some? ==> reply.value.userId == "mock-partner-" + partnerSuffix
  {
    if event == "join-room" then
      Some(Message("user-joined", m.roomId, "mock-partner-" + partnerSuffix, Profile("Mock Partner")))
    else None
  }
}

=== FILE: social_auth.dfy ===
/**
 * Google and Facebook sign-in: when to use the demo login, the demo users, and the
 * messages sign-in fails with. The providers' SDKs are an oracle (`SdkOutcome`); the
 * random part of a demo id is a parameter.
 */
module SocialAuth {
  import opened Wrappers
  import opened Text
  import opened Rooms

  datatype Provider = Google | Facebook

  datatype SocialUser = SocialUser(id: string, name: string, email: string, provider: Provider)

  /** The provider's `isApiConfigured` flag. */
  predicate ProviderConfigured(env: Env, p: Provider) {
    match p
    case Google => GoogleConfigured(env)
    case Facebook => FacebookConfigured(env)
  }

  /** `shouldUseMockLogin`: in development, or whenever the provider is not configured. */
  function ShouldUseMockLogin(env: Env, p: Provider): (mock: bool)
    ensures mock <==> IsDevelopment(env) || !ProviderConfigured(env, p)
  {
    if IsDevelopment(env) then true
    else if p == Google && !GoogleConfigured(env) then true
    else if p == Facebook && !FacebookConfigured(env) then true
    else false
  }

  /** Development never has a configured provider, so the demo login is used exactly when the provider is unconfigured. */
  lemma MockIffUnconfigured(env: Env, p: Provider)
    ensures ShouldUseMockLogin(env, p) <==> !ProviderConfigured(env, p)
  {
    ConfiguredFlags(env);
  }

  const GoogleDemoPrefix := "google_user_"
  const FacebookDemoPrefix := "facebook_user_"

  function DemoPrefix(p: Provider): string {
    match p
    case Google => GoogleDemoPrefix
    case Facebook => FacebookDemoPrefix
  }

  /** `createDemoSocialUser`: a fixed demo person per provider, with an id made of the provider's prefix and a random part. */
  function CreateDemoSocialUser(p: Provider, randomPart: string): (u: SocialUser)
    ensures u.provider == p
    ensures StartsWith(u.id, DemoPrefix(p)) && u.id[|DemoPrefix(p)|..] == randomPart
    ensures p == Google ==> u.name == "Alex Kumar" && u.email == "alex.kumar@gmail.com"
    ensures p == Facebook ==> u.name == "Sarah Johnson" && u.email == "sarah.johnson@facebook.com"
  {
    ConcatEnds(DemoPrefix(p), randomPart);
    match p
    case Google => SocialUser(GoogleDemoPrefix + randomPart, "Alex Kumar", "alex.kumar@gmail.com", Google)
    case Facebook => SocialUser(FacebookDemoPrefix + randomPart, "Sarah Johnson", "sarah.johnson@facebook.com", Facebook)
  }

  /** Demo ids of the two providers never collide. */
  lemma DemoIdsDistinct(r1: string, r2: string)
    ensures CreateDemoSocialUser(Google, r1).id != CreateDemoSocialUser(Facebook, r2).id
  {
    var g, f := CreateDemoSocialUser(Google, r1).id, CreateDemoSocialUser(Facebook, r2).id;
    assert g[0] == 'g' && f[0] == 'f';
  }

  /**
   * What the provider's SDK does once sign-in gets that far: it hands back a profile,
   * fails to load or initialise, or the person turns the login down.
   */
  datatype SdkOutcome = SdkProfile(id: string, name: string, email: string) | SdkInitFailed | SdkLoginRejected

  const NotConfiguredPhrase := "not configured"
  const RetryAdvice := "Please check your configuration and try again."
  const FacebookCancelledMessage := "Facebook login was cancelled"

  function ProviderName(p: Provider): string {
    match p
    case Google => "Google"
    case Facebook => "Facebook"
  }

  /** What the set-up instructions call the provider's credential. */
  function CredentialName(p: Provider): string {
    match p
    case Google => "Client ID"
    case Facebook => "App ID"
  }

  /** The up-front failure of an unconfigured provider. */
  function NotConfiguredMessage(p: Provider): string {
    ProviderName(p) + " authentication is " + NotConfiguredPhrase + ". Please set up your "
      + ProviderName(p) + " " + CredentialName(p) + " in the API configuration."
  }

  /** The message a later failure is rewrapped into. */
  function FailedMessage(p: Provider): string {
    "Failed to sign in with " + ProviderName(p) + ". " + RetryAdvice
  }

  /**
   * `signInWithGoogle` / `signInWithFacebook`. An unconfigured provider fails up front
   * with a "not configured" message. Past that check every Google failure is rewrapped
   * into one message. Facebook rewraps only a failed SDK start: the login promise is
   * returned without being awaited, so a turned-down login escapes the `try` with its
   * own message.
   */
  function SignIn(env: Env, p: Provider, sdk: SdkOutcome): (r: Result<SocialUser, string>)
    ensures !ProviderConfigured(env, p) ==> r.Failure?
    ensures r.Success? <==> ProviderConfigured(env, p) && sdk.SdkProfile?
    ensures r.Success? ==> r.value == SocialUser(sdk.id, sdk.name, sdk.email, p)
    ensures r.Failure? && ProviderConfigured(env, p) && p == Google ==> r.error == FailedMessage(Google)
    ensures r.Failure? && ProviderConfigured(env, p) && p == Facebook ==>
      r.error == (if sdk.SdkInitFailed? then FailedMessage(Facebook) else FacebookCancelledMessage)
  {
    match p
    case Google =>
      if !GoogleConfigured(env) then Failure(NotConfiguredMessage(Google))
      else if sdk.SdkProfile? then Success(SocialUser(sdk.id, sdk.name, sdk.email, Google))
      else Failure(FailedMessage(Google))
    case Facebook =>
      if !FacebookConfigured(env) then Failure(NotConfiguredMessage(Facebook))
      else if sdk.SdkInitFailed? then Failure(FailedMessage(Facebook))
      else if sdk.SdkLoginRejected? then Failure(FacebookCancelledMessage)
      else Success(SocialUser(sdk.id, sdk.name, sdk.email, Facebook))
  }

  /** A sign-in failure mentions "not configured" exactly when it came from the up-front configuration check. */
  lemma NotConfiguredOnlyUpFront(env: Env, p: Provider, sdk: SdkOutcome)
    ensures SignIn(env, p, sdk).Failure? ==>
      (Contains(SignIn(env, p, sdk).error, NotConfiguredPhrase) <==> !ProviderConfigured(env, p))
  {
    NotConfiguredMessagesSayIt(p);
    LaterMessagesDoNot(p);
  }

  /** Both up-front messages contain the phrase. */
  lemma NotConfiguredMessagesSayIt(p: Provider)
    ensures Contains(NotConfiguredMessage(p), NotConfiguredPhrase)
  {
    var before := ProviderName(p) + " authentication is ";
    var after := ". Please set up your " + ProviderName(p) + " " + CredentialName(p) + " in the API configuration.";
    assert NotConfiguredMessage(p) == before + NotConfiguredPhrase + after;
    ContainsInfix(before, NotConfiguredPhrase, after);
  }

  /**
   * None of the later messages does. Each is cut at a 'y', which the phrase does not
   * use, into parts that each lack one of the phrase's letters.
   */
  lemma LaterMessagesDoNot(p: Provider)
    ensures !Contains(FailedMessage(p), NotConfiguredPhrase)
    ensures !Contains(FacebookCancelledMessage, NotConfiguredPhrase)
  {
    FailedMessageLacksPhrase(p);
    MissingChar(FacebookCancelledMessage, NotConfiguredPhrase, 'u');
  }

  lemma FailedMessageLacksPhrase(p: Provider)
    ensures !Contains(FailedMessage(p), NotConfiguredPhrase)
  {
    var head := "Failed to sign in with " + ProviderName(p) + ". " + "Please check ";
    var tail := "our configuration and try again.";
    FailedMessageCut(p, head, tail);
    HeadLacksU(p, head);
    MissingChar(head, NotConfiguredPhrase, 'u');
    MissingChar(tail, NotConfiguredPhrase, 'e');
    ContainsAcross(head, 'y', tail, NotConfiguredPhrase);
  }

  lemma FailedMessageCut(p: Provider, head: string, tail: string)
    requires head == "Failed to sign in with " + ProviderName(p) + ". " + "Please check "
    requires tail == "our configuration and try again."
    ensures FailedMessage(p) == head + ['y'] + tail
  {
    assert RetryAdvice == "Please check " + ['y'] + tail;
  }

  lemma HeadLacksU(p: Provider, head: string)
    requires head == "Failed to sign in with " + ProviderName(p) + ". " + "Please check "
    ensures 'u' !in head
  {
  }
}

=== FILE: text.dfy ===
/**
 * String helpers shared by the screens: `trim`, ASCII `toLowerCase`, `includes`,
 * `startsWith`, decimal `toString` and `padStart`.
 */
module Text {

  // ---------------------------------------------------------------- trim

  /**
   * The characters `String.prototype.trim` removes: the ECMAScript white space (tab,
   * vertical tab, form feed, the byte-order mark and every space separator of Unicode
   * category Zs) and the four line terminators.
   */
  predicate IsWhitespace(c: char) {
    || c == '\t' || c == '\U{000B}' || c == '\U{000C}' || c == '\U{FEFF}'
    || c == ' ' || c == '\U{00A0}' || c == '\U{1680}' || '\U{2000}' <= c <= '\U{200A}'
    || c == '\U{202F}' || c == '\U{205F}' || c == '\U{3000}'
    || c == '\n' || c == '\r' || c == '\U{2028}' || c == '\U{2029}'
  }

  predicate AllWhitespace(s: string) {
    forall k :: 0 <= k < |s| ==> IsWhitespace(s[k])
  }

  /** Length of the whitespace prefix of `s`. */
  function LeadingSpace(s: string): (n: nat)
    ensures n <= |s|
    ensures AllWhitespace(s[..n])
    ensures n < |s| ==> !IsWhitespace(s[n])
  {
    if |s| == 0 || !IsWhitespace(s[0]) then 0
    else
      var m := LeadingSpace(s[1..]);
      assert s[..1 + m] == [s[0]] + s[1..][..m];
      1 + m
  }

  /** Length of the whitespace suffix of `s`. */
  function TrailingSpace(s: string): (n: nat)
    ensures n <= |s|
    ensures AllWhitespace(s[|s| - n..])
    ensures n < |s| ==> !IsWhitespace(s[|s| - n - 1])
  {
    if |s| == 0 || !IsWhitespace(s[|s| - 1]) then 0
    else
      var init := s[..|s| - 1];
      var m := TrailingSpace(init);
      assert s[|s| - (1 + m)..] == init[|init| - m..] + [s[|s| - 1]];
      1 + m
  }

  /**
   * `s.trim()`: `s` is the trimmed text framed by two runs of whitespace, and the
   * trimmed text neither starts nor ends with whitespace.
   */
  function Trim(s: string): (r: string)
    ensures LeadingSpace(s) + |r| <= |s|
    ensures s == s[..LeadingSpace(s)] + r + s[LeadingSpace(s) + |r|..]
    ensures AllWhitespace(s[..LeadingSpace(s)]) && AllWhitespace(s[LeadingSpace(s) + |r|..])
    ensures r != [] ==> !IsWhitespace(r[0]) && !IsWhitespace(r[|r| - 1])
    ensures r == [] <==> AllWhitespace(s)
  {
    var a := LeadingSpace(s);
    var b := TrailingSpace(s[a..]);
    TrimFrame(s, a, b);
    TrimEnds(s, a, b);
    WhitespaceFrame(s, a, |s[a..]| - b);
    s[a..][..|s[a..]| - b]
  }

  /** The trimmed text sits between the two whitespace runs. */
  lemma TrimFrame(s: string, a: nat, b: nat)
    requires a == LeadingSpace(s) && b == TrailingSpace(s[a..])
    ensures var r := s[a..][..|s[a..]| - b];
      && a + |r| <= |s|
      && s == s[..a] + r + s[a + |r|..]
      && AllWhitespace(s[a + |r|..])
  {
    var rest := s[a..];
    var r := rest[..|rest| - b];
    assert s[a + |r|..] == rest[|rest| - b..];
    assert s == s[..a] + r + s[a + |r|..];
  }

  /** Neither end of the trimmed text is whitespace. */
  lemma TrimEnds(s: string, a: nat, b: nat)
    requires a == LeadingSpace(s) && b == TrailingSpace(s[a..])
    ensures var r := s[a..][..|s[a..]| - b];
      r != [] ==> !IsWhitespace(r[0]) && !IsWhitespace(r[|r| - 1])
  {
    var rest := s[a..];
    var r := rest[..|rest| - b];
    if r != [] {
      assert r[0] == s[a];
      assert r[|r| - 1] == rest[|rest| - b - 1];
    }
  }

  /** When nothing is left between two whitespace runs, all of `s` is whitespace. */
  lemma WhitespaceFrame(s: string, a: nat, len: nat)
    requires a + len <= |s|
    requires AllWhitespace(s[..a]) && AllWhitespace(s[a + len..])
    ensures len == 0 ==> AllWhitespace(s)
  {
    if len == 0 {
      forall k | 0 <= k < |s| ensures IsWhitespace(s[k]) {
        if k < a { assert s[k] == s[..a][k]; }
        else { assert s[k] == s[a..][k - a]; }
      }
    }
  }

  /** Trimming twice is trimming once. */
  lemma TrimIdempotent(s: string)
    ensures Trim(Trim(s)) == Trim(s)
  {
    var r := Trim(s);
    if r != [] {
      assert LeadingSpace(r) == 0;
      assert TrailingSpace(r) == 0;
    }
  }

  // ---------------------------------------------------------------- case

  /** `toLowerCase` on one character, for the ASCII letters. */
  function LowerChar(c: char): (l: char)
    ensures 'A' <= c <= 'Z' ==> l as int == c as int + 32
    ensures !('A' <= c <= 'Z') ==> l == c
  {
    if 'A' <= c <= 'Z' then (c as int + 32) as char else c
  }

  /** `s.toLowerCase()`, character by character. */
  function ToLower(s: string): (r: string)
    ensures |r| == |s|
    ensures forall k :: 0 <= k < |s| ==> r[k] == LowerChar(s[k])
  {
    seq(|s|, k requires 0 <= k < |s| => LowerChar(s[k]))
  }

  /** `toUpperCase` on one character, for the ASCII letters. */
  function UpperChar(c: char): (u: char)
    ensures 'a' <= c <= 'z' ==> u as int == c as int - 32
    ensures !('a' <= c <= 'z') ==> u == c
  {
    if 'a' <= c <= 'z' then (c as int - 32) as char else c
  }

  /** `s.charAt(0).toUpperCase() + s.slice(1)`: only the first character changes. */
  function Capitalize(s: string): (r: string)
    ensures |r| == |s|
    ensures |s| > 0 ==> r[0] == UpperChar(s[0]) && r[1..] == s[1..]
  {
    if |s| == 0 then s else [UpperChar(s[0])] + s[1..]
  }

  /** Lower-casing works character by character, so it distributes over concatenation. */
  lemma ToLowerAppend(a: string, b: string)
    ensures ToLower(a + b) == ToLower(a) + ToLower(b)
  {
  }

  // ---------------------------------------------------------------- search

  /** `t` occurs in `s` starting at index `i`. */
  predicate OccursAt(s: string, t: string, i: int) {
    0 <= i && i + |t| <= |s| && s[i..i + |t|] == t
  }

  /** `s.includes(t)`. */
  predicate Contains(s: string, t: string) {
    exists i :: 0 <= i <= |s| - |t| && OccursAt(s, t, i)
  }

  /** `s.startsWith(p)`. */
  predicate StartsWith(s: string, p: string) {
    |p| <= |s| && s[..|p|] == p
  }

  /** `s.endsWith(x)`. */
  predicate EndsWith(s: string, x: string) {
    |x| <= |s| && s[|s| - |x|..] == x
  }

  /** A concatenation starts with its first part and ends with its second. */
  lemma ConcatEnds(p: string, x: string)
    ensures StartsWith(p + x, p)
    ensures EndsWith(p + x, x)
  {
    assert (p + x)[..|p|] == p;
    assert (p + x)[|p + x| - |x|..] == x;
  }

  /** Every string contains the empty string. */
  lemma ContainsEmpty(s: string)
    ensures Contains(s, "")
  {
    assert OccursAt(s, "", 0);
  }

  /** `t` is found wherever it is written in. */
  lemma ContainsInfix(a: string, t: string, b: string)
    ensures Contains(a + t + b, t)
  {
    assert (a + t + b)[|a|..|a| + |t|] == t;
    assert OccursAt(a + t + b, t, |a|);
  }

  /** Containment is transitive: what a found part contains, the whole contains. */
  lemma ContainsTransitive(s: string, t: string, u: string)
    requires Contains(s, t) && Contains(t, u)
    ensures Contains(s, u)
  {
    var i :| 0 <= i <= |s| - |t| && OccursAt(s, t, i);
    var j :| 0 <= j <= |t| - |u| && OccursAt(t, u, j);
    forall k | 0 <= k < |u| ensures s[i + j + k] == u[k] {
      assert s[i..i + |t|][j + k] == t[j + k];
      assert t[j..j + |u|][k] == u[k];
    }
    assert s[i + j..i + j + |u|] == u;
    assert OccursAt(s, u, i + j);
  }

  /** A string contains each of its prefixes. */
  lemma ContainsPrefix(a: string, b: string)
    ensures Contains(a + b, a)
  {
    ContainsInfix("", a, b);
    assert "" + a + b == a + b;
  }

  /** A string that lacks one of `t`'s characters cannot contain `t`. */
  lemma MissingChar(s: string, t: string, c: char)
    requires c in t && c !in s
    ensures !Contains(s, t)
  {
    var k :| 0 <= k < |t| && t[k] == c;
    forall i | 0 <= i <= |s| - |t|
      ensures !OccursAt(s, t, i)
    {
      assert s[i..i + |t|][k] == s[i + k];
    }
  }

  /**
   * A character that `t` does not use splits a search for `t`: no occurrence can
   * straddle it.
   */
  lemma {:induction false} ContainsAcross(a: string, c: char, b: string, t: string)
    requires c !in t
    requires !Contains(a, t) && !Contains(b, t)
    ensures !Contains(a + [c] + b, t)
  {
    var s := a + [c] + b;
    forall i | 0 <= i <= |s| - |t| ensures !OccursAt(s, t, i) {
      if i + |t| <= |a| {
        assert s[i..i + |t|] == a[i..i + |t|];
        assert !OccursAt(a, t, i);
      } else if i > |a| {
        assert s[i..i + |t|] == b[i - |a| - 1..i - |a| - 1 + |t|];
        assert !OccursAt(b, t, i - |a| - 1);
      } else {
        assert s[i..i + |t|][|a| - i] == c;
      }
    }
  }

  // ---------------------------------------------------------------- decimal

  predicate IsDigit(c: char) {
    '0' <= c <= '9'
  }

  predicate AllDigits(s: string) {
    forall k :: 0 <= k < |s| ==> IsDigit(s[k])
  }

  function DigitChar(d: nat): (c: char)
    requires d < 10
    ensures IsDigit(c)
  {
    (d + '0' as int) as char
  }

  function DigitValue(c: char): (d: nat)
    requires IsDigit(c)
    ensures d < 10
  {
    c as int - '0' as int
  }

  /** `n.toString()` for a non-negative integer: decimal, no leading zero. */
  function NatToString(n: nat): (r: string)
    ensures |r| >= 1
    ensures AllDigits(r)
    ensures r[0] == '0' ==> n == 0
    ensures |r| == 1 <==> n < 10
    decreases n
  {
    if n < 10 then [DigitChar(n)] else NatToString(n / 10) + [DigitChar(n % 10)]
  }

  /** The number a string of decimal digits denotes (leading zeros allowed). */
  function DigitsValue(s: string): nat
    requires AllDigits(s)
  {
    if |s| == 0 then 0 else DigitsValue(s[..|s| - 1]) * 10 + DigitValue(s[|s| - 1])
  }

  /** Printing a number and reading it back gives the number. */
  lemma {:induction false} DigitsValueOfNatToString(n: nat)
    ensures DigitsValue(NatToString(n)) == n
    decreases n
  {
    var r := NatToString(n);
    if n < 10 {
      assert r[..0] == [];
    } else {
      DigitsValueOfNatToString(n / 10);
      assert r[..|r| - 1] == NatToString(n / 10);
    }
  }

  /** Two-digit numbers print in at most two characters. */
  lemma {:induction false} NatToStringBelowHundred(n: nat)
    requires n < 100
    ensures |NatToString(n)| <= 2
  {
    if n >= 10 {
      assert n / 10 < 10;
    }
  }

  /** `s.padStart(width, fill)`. */
  function PadStart(s: string, width: nat, fill: char): (r: string)
    ensures |r| == if |s| >= width then |s| else width
    ensures r[|r| - |s|..] == s
    ensures forall k :: 0 <= k < |r| - |s| ==> r[k] == fill
  {
    if |s| >= width then s else seq(width - |s|, _ => fill) + s
  }

  /** Leading zeros do not change a number's value. */
  lemma {:induction false} LeadingZerosValue(z: string, s: string)
    requires forall k :: 0 <= k < |z| ==> z[k] == '0'
    requires AllDigits(s)
    ensures AllDigits(z + s)
    ensures DigitsValue(z + s) == DigitsValue(s)
    decreases |s| + |z|
  {
    if |s| == 0 {
      assert z + s == z;
      if |z| > 0 {
        LeadingZerosValue(z[..|z| - 1], []);
        assert z[..|z| - 1] + [] == z[..|z| - 1];
      }
    } else {
      assert (z + s)[..|z + s| - 1] == z + s[..|s| - 1];
      LeadingZerosValue(z, s[..|s| - 1]);
    }
  }

  /** Zero-padding a decimal numeral keeps its value. */
  lemma PadZerosValue(s: string, width: nat)
    requires AllDigits(s)
    ensures AllDigits(PadStart(s, width, '0'))
    ensures DigitsValue(PadStart(s, width, '0')) == DigitsValue(s)
  {
    if |s| < width {
      LeadingZerosValue(seq(width - |s|, _ => '0'), s);
    }
  }

  /** A number below 100, zero-padded to two characters, reads back as itself. */
  lemma TwoDigitField(n: nat)
    requires n < 100
    ensures |PadStart(NatToString(n), 2, '0')| == 2
    ensures AllDigits(PadStart(NatToString(n), 2, '0'))
    ensures DigitsValue(PadStart(NatToString(n), 2, '0')) == n
  {
    NatToStringBelowHundred(n);
    PadZerosValue(NatToString(n), 2);
    DigitsValueOfNatToString(n);
  }

  /** The two sides of `a + ":" + b` can be cut back out of it. */
  lemma ColonSplit(a: string, b: string)
    ensures |a + ":" + b| == |a| + 1 + |b|
    ensures (a + ":" + b)[|a|] == ':'
    ensures (a + ":" + b)[..|a|] == a
    ensures (a + ":" + b)[|a| + 1..] == b
  {
  }

  // ---------------------------------------------------------------- clock faces

  /** A clock face reads as one minutes count and one seconds count only. */
  lemma ClockReadsUnique(r: string, m1: nat, s1: nat, m2: nat, s2: nat)
    requires ClockReads(r, m1, s1) && ClockReads(r, m2, s2)
    ensures m1 == m2 && s1 == s2
  {
  }

  /**
   * `r` is a clock face `m:ss`: a non-empty minutes field, a colon, then exactly two
   * digits of seconds; the fields read back as `mins` and `secs`.
   */
  predicate ClockReads(r: string, mins: nat, secs: nat) {
    && |r| >= 4 && r[|r| - 3] == ':'
    && AllDigits(r[..|r| - 3]) && AllDigits(r[|r| - 2..])
    && DigitsValue(r[..|r| - 3]) == mins && DigitsValue(r[|r| - 2..]) == secs
  }

  /** `secs.toString().padStart(2, '0')` for a seconds count: two digits reading back as `secs`. */
  function SecondsField(secs: nat): (ss: string)
    requires secs < 60
    ensures |ss| == 2 && AllDigits(ss) && DigitsValue(ss) == secs
  {
    TwoDigitField(secs);
    PadStart(NatToString(secs), 2, '0')
  }

  /** A minutes field and a seconds field joined by a colon form a clock face of those two numbers. */
  lemma ClockFace(mm: string, ss: string, mins: nat, secs: nat)
    requires |mm| >= 1 && AllDigits(mm) && DigitsValue(mm) == mins
    requires |ss| == 2 && AllDigits(ss) && DigitsValue(ss) == secs
    ensures ClockReads(mm + ":" + ss, mins, secs)
  {
    ColonSplit(mm, ss);
    var r := mm + ":" + ss;
    assert r[..|r| - 3] == mm && r[|r| - 2..] == ss;
  }
}

=== FILE: types.dfy ===
/** The shared application vocabulary: screens, genders, users and partial user updates. */
module Types {
  import opened Wrappers

  /** Every screen the single-page app can show. */
  datatype Screen =
    | OnboardingScreen
    | AuthScreen
    | HomeScreen
    | CountrySelectScreen
    | GenderSelectScreen
    | MatchingScreen
    | VideoCallScreen
    | WalletScreen
    | PlansScreen
    | SettingsScreen
    | AdminScreen

  datatype Gender = Male | Female | Other

  /** The lower-case spelling the source uses for a gender. */
  function GenderName(g: Gender): string {
    match g
    case Male => "male"
    case Female => "female"
    case Other => "other"
  }

  /** A signed-in person. `tokens` is a JavaScript number; only integers reach it. */
  datatype User = User(
    id: string,
    name: string,
    email: string,
    country: string,
    gender: Option<Gender>,
    isPremium: bool,
    tokens: int)

  /** `Partial<User>`: a field set to `Some` overrides, `None` keeps the old value. */
  datatype UserPatch = UserPatch(
    id: Option<string>,
    name: Option<string>,
    email: Option<string>,
    country: Option<string>,
    gender: Option<Option<Gender>>,
    isPremium: Option<bool>,
    tokens: Option<int>)

  const EmptyPatch := UserPatch(None, None, None, None, None, None, None)

  function NamePatch(name: string): UserPatch { EmptyPatch.(name := Some(name)) }
  function CountryPatch(country: string): UserPatch { EmptyPatch.(country := Some(country)) }
  function GenderPatch(g: Gender): UserPatch { EmptyPatch.(gender := Some(Some(g))) }
  function TokensPatch(tokens: int): UserPatch { EmptyPatch.(tokens := Some(tokens)) }

  /** `{ ...u, ...p }`: every field the patch sets takes the patch's value; every other field is kept. */
  function Merge(u: User, p: UserPatch): (r: User)
    ensures p.id.Some? ==> r.id == p.id.value
    ensures p.id.None? ==> r.id == u.id
    ensures p.name.Some? ==> r.name == p.name.value
    ensures p.name.None? ==> r.name == u.name
    ensures p.email.Some? ==> r.email == p.email.value
    ensures p.email.None? ==> r.email == u.email
    ensures p.country.Some? ==> r.country == p.country.value
    ensures p.country.None? ==> r.country == u.country
    ensures p.gender.Some? ==> r.gender == p.gender.value
    ensures p.gender.None? ==> r.gender == u.gender
    ensures p.isPremium.Some? ==> r.isPremium == p.isPremium.value
    ensures p.isPremium.None? ==> r.isPremium == u.isPremium
    ensures p.tokens.Some? ==> r.tokens == p.tokens.value
    ensures p.tokens.None? ==> r.tokens == u.tokens
  {
    User(
      p.id.GetOr(u.id),
      p.name.GetOr(u.name),
      p.email.GetOr(u.email),
      p.country.GetOr(u.country),
      p.gender.GetOr(u.gender),
      p.isPremium.GetOr(u.isPremium),
      p.tokens.GetOr(u.tokens))
  }

  /** Merging the same patch twice is merging it once; the empty patch changes nothing. */
  lemma MergeIdempotent(u: User, p: UserPatch)
    ensures Merge(Merge(u, p), p) == Merge(u, p)
    ensures Merge(u, EmptyPatch) == u
  {
  }
}

=== FILE: video_call.dfy ===
/**
 * The video-call screen: the call clock, the per-match token charge, moving to the next
 * partner or ending the call, the reactions to the call service's callbacks, the chat
 * panel and its unread counter, and enabling the camera.
 */
module VideoCall {
  import opened Wrappers
  import opened Text
  import opened Types
  import opened Media
  import opened Signaling
  import opened Rooms
  import CS = CallService

  // ------------------------------------------------------------ the clock

  /**
   * `formatTime`: the minutes zero-padded to two digits, a colon, two-digit seconds.
   * The minutes field reads back as the whole minutes and the seconds field as the rest.
   */
  function FormatTime(seconds: nat): (r: string)
    ensures ClockReads(r, seconds / 60, seconds % 60)
    ensures |r| >= 5
  {
    var mm := MinutesField(seconds / 60);
    var ss := SecondsField(seconds % 60);
    ClockFace(mm, ss, seconds / 60, seconds % 60);
    mm + ":" + ss
  }

  /** `mins.toString().padStart(2, '0')`: at least two digits, reading back as `mins`. */
  function MinutesField(mins: nat): (mm: string)
    ensures |mm| >= 2 && AllDigits(mm) && DigitsValue(mm) == mins
  {
    PadZerosValue(NatToString(mins), 2);
    DigitsValueOfNatToString(mins);
    PadStart(NatToString(mins), 2, '0')
  }

  /** A duration is determined by its whole minutes and the seconds left over. */
  lemma SameMinutesAndSeconds(a: nat, b: nat)
    requires a / 60 == b / 60 && a % 60 == b % 60
    ensures a == b
  {
  }

  /** Two call durations showing the same clock are the same duration. */
  lemma FormatTimeInjective(a: nat, b: nat)
    ensures FormatTime(a) == FormatTime(b) ==> a == b
  {
    var ra, rb := FormatTime(a), FormatTime(b);
    if ra == rb {
      ClockReadsUnique(ra, a / 60, a % 60, b / 60, b % 60);
      SameMinutesAndSeconds(a, b);
    }
  }

  // ------------------------------------------------------------ the per-match charge

  const TokensPerMatch := 8

  /** What the duration effect does on one run. */
  datatype ChargeOutcome =
    | SignInFirst                  // no user: go to the sign-in screen
    | Charged(user: User)          // the premium user paid for the match
    | InsufficientTokens           // a premium user who cannot pay goes to the wallet
    | PremiumPartnerNotice         // a free user met a premium partner: a notice, no charge
    | NoCharge

  /**
   * One run of the duration effect's decision. Nothing happens once the call clock has
   * started (duration above 0); at duration 0 a premium user or partner leads to a
   * charge, a refusal or a notice. Only a premium user is charged, and only when the
   * balance covers the charge. The effect runs again whenever the user changes, which
   * is what `SettleAsWritten` follows.
   */
  function ChargeForMatch(user: Option<User>, partnerPremium: bool, callDuration: int): (o: ChargeOutcome)
    ensures user.None? <==> o == SignInFirst
    ensures o.Charged? <==> user.Some? && user.value.isPremium && callDuration == 0 && user.value.tokens >= TokensPerMatch
    ensures o.Charged? ==> o.user == Merge(user.value, TokensPatch(user.value.tokens - TokensPerMatch)) && o.user.tokens >= 0
    ensures o == InsufficientTokens <==> user.Some? && user.value.isPremium && callDuration == 0 && user.value.tokens < TokensPerMatch
    ensures o == PremiumPartnerNotice <==> user.Some? && !user.value.isPremium && partnerPremium && callDuration == 0
  {
    match user
    case None => SignInFirst
    case Some(u) =>
      if (u.isPremium || partnerPremium) && callDuration == 0 then
        if u.isPremium then
          if u.tokens >= TokensPerMatch then Charged(Merge(u, TokensPatch(u.tokens - TokensPerMatch)))
          else InsufficientTokens
        else PremiumPartnerNotice
      else NoCharge
  }

  /** A free user is never charged, and a charge never takes a balance below zero or touches anything but the tokens. */
  lemma ChargeOnlyPremium(user: User, partnerPremium: bool, callDuration: int)
    ensures !user.isPremium ==> !ChargeForMatch(Some(user), partnerPremium, callDuration).Charged?
    ensures var o := ChargeForMatch(Some(user), partnerPremium, callDuration);
      o.Charged? ==> 0 <= o.user.tokens < user.tokens && o.user.(tokens := user.tokens) == user
    ensures callDuration != 0 ==> ChargeForMatch(Some(user), partnerPremium, callDuration) == NoCharge
  {
  }

  /** Where the duration effect comes to rest at duration 0: the user, how many charges were made, and the last run's outcome. */
  datatype Settled = Settled(user: User, charges: nat, last: ChargeOutcome)

  /**
   * The effect as written. It depends on `user`, and a charge replaces the user object
   * through `updateUser`, so the effect runs again. Its cleanup has just cleared the
   * one-second clock, so the duration is still 0 and the next run charges again. This
   * repeats until a run does not charge.
   */
  function SettleAsWritten(u: User, partnerPremium: bool): (r: Settled)
    ensures r.charges * TokensPerMatch + r.user.tokens == u.tokens
    ensures r.user.(tokens := u.tokens) == u
    ensures !r.last.Charged? && r.last == ChargeForMatch(Some(r.user), partnerPremium, 0)
    decreases if u.tokens < 0 then 0 else u.tokens
  {
    var o := ChargeForMatch(Some(u), partnerPremium, 0);
    if o.Charged? then
      var rest := SettleAsWritten(o.user, partnerPremium);
      Settled(rest.user, rest.charges + 1, rest.last)
    else Settled(u, 0, o)
  }

  /**
   * A premium user is charged for one match again and again: the balance drains to
   * below one match's price and the last run sends the user to the wallet.
   */
  lemma {:induction false} RerunsDrainBalance(u: User, partnerPremium: bool)
    requires u.isPremium && u.tokens >= 0
    ensures SettleAsWritten(u, partnerPremium).charges == u.tokens / TokensPerMatch
    ensures SettleAsWritten(u, partnerPremium).user.tokens == u.tokens % TokensPerMatch
    ensures SettleAsWritten(u, partnerPremium).last == InsufficientTokens
    decreases u.tokens
  {
    if u.tokens >= TokensPerMatch {
      var v := Merge(u, TokensPatch(u.tokens - TokensPerMatch));
      assert ChargeForMatch(Some(u), partnerPremium, 0) == Charged(v);
      RerunsDrainBalance(v, partnerPremium);
      assert u.tokens / TokensPerMatch == v.tokens / TokensPerMatch + 1;
      assert u.tokens % TokensPerMatch == v.tokens % TokensPerMatch;
    }
  }

  /** A premium user who starts a call with 50 tokens pays six times, keeps 2 and lands on the wallet. */
  lemma FiftyTokensChargedSixTimes(u: User)
    requires u.isPremium && u.tokens == 50
    ensures SettleAsWritten(u, false).charges == 6
    ensures SettleAsWritten(u, false).user.tokens == 2
    ensures SettleAsWritten(u, false).last == InsufficientTokens
  {
    RerunsDrainBalance(u, false);
  }

  /**
   * The effect with a charged-for-this-match guard: the first run decides, and the run
   * a charge triggers finds the match already paid for and does nothing.
   */
  function SettleOnce(u: User, partnerPremium: bool): (r: Settled)
    ensures r.charges <= 1
    ensures r.charges * TokensPerMatch + r.user.tokens == u.tokens
    ensures r.user.(tokens := u.tokens) == u
    ensures r.last == ChargeForMatch(Some(u), partnerPremium, 0)
  {
    var o := ChargeForMatch(Some(u), partnerPremium, 0);
    if o.Charged? then Settled(o.user, 1, o) else Settled(u, 0, o)
  }

  /**
   * With the guard a match costs exactly one charge: a premium user who can pay is
   * charged 8 tokens once and stays in the call, one who cannot goes to the wallet
   * unchanged, and a free user is never charged.
   */
  lemma OneChargePerMatch(u: User, partnerPremium: bool)
    ensures u.isPremium && u.tokens >= TokensPerMatch ==>
      SettleOnce(u, partnerPremium).charges == 1 && SettleOnce(u, partnerPremium).user.tokens == u.tokens - TokensPerMatch
      && SettleOnce(u, partnerPremium).last.Charged?
    ensures u.isPremium && u.tokens < TokensPerMatch ==>
      SettleOnce(u, partnerPremium).charges == 0 && SettleOnce(u, partnerPremium).last == InsufficientTokens
    ensures !u.isPremium ==> SettleOnce(u, partnerPremium).charges == 0 && SettleOnce(u, partnerPremium).user == u
  {
  }

  /**
   * One run of the duration effect together with what it leaves behind: whether its
   * one-second interval still runs after the run is over and its cleanup would have
   * stopped it.
   */
  datatype EffectRun = EffectRun(outcome: ChargeOutcome, leaksInterval: bool)

  /**
   * The effect as written. Without a user it returns before starting the interval. A
   * refusal returns before handing back the cleanup that clears the interval, so that
   * interval outlives the run and the screen; every other run hands the cleanup back.
   */
  function RunEffectAsWritten(user: Option<User>, partnerPremium: bool, callDuration: int): (r: EffectRun)
    ensures r.outcome == ChargeForMatch(user, partnerPremium, callDuration)
    ensures r.leaksInterval <==> user.Some? && user.value.isPremium && callDuration == 0 && user.value.tokens < TokensPerMatch
  {
    var o := ChargeForMatch(user, partnerPremium, callDuration);
    EffectRun(o, o == InsufficientTokens)
  }

  /** The effect with the refusal also clearing the interval before it sends the user to the wallet. */
  function RunEffectCorrected(user: Option<User>, partnerPremium: bool, callDuration: int): (r: EffectRun)
    ensures r.outcome == ChargeForMatch(user, partnerPremium, callDuration)
    ensures !r.leaksInterval
  {
    EffectRun(ChargeForMatch(user, partnerPremium, callDuration), false)
  }

  /**
   * The app's call duration `seconds` seconds after a run that started at `start` and
   * then left the call screen. Only an interval the run left running still ticks, and
   * each tick sets the duration to the value it captured plus one.
   */
  function DurationAfterLeaving(run: EffectRun, start: int, seconds: nat): (d: int)
    ensures seconds == 0 ==> d == start
    ensures seconds > 0 ==> (d != start <==> run.leaksInterval)
    ensures d == start || d == start + 1
  {
    if run.leaksInterval && seconds > 0 then start + 1 else start
  }

  /**
   * As written, a refusal pins the app's duration at 1: the next call opens with the
   * clock already started, so nobody is charged for that match, whatever the balance.
   */
  lemma RefusalLeavesNextMatchFree(u: User, partnerPremium: bool, v: User, nextPartnerPremium: bool, seconds: nat)
    requires u.isPremium && 0 <= u.tokens < TokensPerMatch && seconds > 0
    ensures var run := RunEffectAsWritten(Some(u), partnerPremium, 0);
      && run.outcome == InsufficientTokens
      && DurationAfterLeaving(run, 0, seconds) == 1
      && ChargeForMatch(Some(v), nextPartnerPremium, DurationAfterLeaving(run, 0, seconds)) == NoCharge
  {
  }

  /**
   * Every premium user's first call ends on that path: after the repeated charges the
   * last run refuses, so the interval leaks and the following match is not charged.
   */
  lemma DrainedUserNextMatchFree(u: User, partnerPremium: bool, v: User, nextPartnerPremium: bool, seconds: nat)
    requires u.isPremium && u.tokens >= 0 && seconds > 0
    ensures var run := RunEffectAsWritten(Some(SettleAsWritten(u, partnerPremium).user), partnerPremium, 0);
      && run.leaksInterval
      && ChargeForMatch(Some(v), nextPartnerPremium, DurationAfterLeaving(run, 0, seconds)) == NoCharge
  {
    RerunsDrainBalance(u, partnerPremium);
  }

  /**
   * With the interval cleared on refusal the duration stays at 0, so a user who tops up
   * and starts the next call is charged for it.
   */
  lemma RefusalThenTopUpCharged(u: User, partnerPremium: bool, v: User, nextPartnerPremium: bool, seconds: nat)
    requires u.isPremium && 0 <= u.tokens < TokensPerMatch
    requires v.isPremium && v.tokens >= TokensPerMatch
    ensures var run := RunEffectCorrected(Some(u), partnerPremium, 0);
      && run.outcome == InsufficientTokens
      && DurationAfterLeaving(run, 0, seconds) == 0
      && ChargeForMatch(Some(v), nextPartnerPremium, DurationAfterLeaving(run, 0, seconds)).Charged?
  {
  }

  /**
   * The guard of the next-partner button: a premium user below one match's price. It
   * holds exactly when the charge on a new match would refuse and send the user to the
   * wallet, whoever the partner is.
   */
  function LowOnTokens(user: Option<User>): (low: bool)
    ensures forall partnerPremium: bool ::
      low <==> ChargeForMatch(user, partnerPremium, 0) == InsufficientTokens
  {
    user.Some? && user.value.isPremium && user.value.tokens < TokensPerMatch
  }

  // ------------------------------------------------------------ chat

  datatype Sender = FromUser | FromPartner

  /** A chat line (its id and timestamp are left out). */
  datatype ChatMessage = ChatMessage(text: string, sender: Sender)

  datatype Chat = Chat(messages: seq<ChatMessage>, isOpen: bool, unread: nat, draft: string)

  const EmptyChat := Chat([], false, 0, "")

  /** What the panel keeps true: an open chat has nothing unread. */
  predicate ChatInvariant(c: Chat) {
    c.isOpen ==> c.unread == 0
  }

  /**
   * A simulated partner message: appended, and counted as unread only while the chat is
   * closed. The screen schedules these 5 to 45 seconds into a call, but the scheduling
   * effect depends on the duration and cancels its timeouts on every tick of the call
   * clock, so while the clock runs no message arrives.
   */
  function ReceivePartnerMessage(c: Chat, text: string): (r: Chat)
    ensures r.messages == c.messages + [ChatMessage(text, FromPartner)]
    ensures r.isOpen == c.isOpen && r.draft == c.draft
    ensures r.unread == if c.isOpen then c.unread else c.unread + 1
  {
    c.(messages := c.messages + [ChatMessage(text, FromPartner)],
       unread := if c.isOpen then c.unread else c.unread + 1)
  }

  /** `handleToggleChat`: opening clears the unread count. */
  function ToggleChat(c: Chat): (r: Chat)
    ensures r.isOpen == !c.isOpen
    ensures r.isOpen ==> r.unread == 0
    ensures !r.isOpen ==> r.unread == c.unread
    ensures r.messages == c.messages && r.draft == c.draft
  {
    c.(isOpen := !c.isOpen, unread := if c.isOpen then c.unread else 0)
  }

  /** `handleCloseChat`. */
  function CloseChat(c: Chat): (r: Chat)
    ensures !r.isOpen && r.unread == c.unread && r.messages == c.messages && r.draft == c.draft
  {
    c.(isOpen := false)
  }

  /** `handleSendMessage`: whitespace-only input is ignored; otherwise the trimmed text is sent and the input cleared. */
  function SendMessage(c: Chat): (r: Chat)
    ensures AllWhitespace(c.draft) ==> r == c
    ensures !AllWhitespace(c.draft) ==>
      && r.messages == c.messages + [ChatMessage(Trim(c.draft), FromUser)]
      && r.draft == ""
      && r.isOpen == c.isOpen && r.unread == c.unread
    ensures !AllWhitespace(c.draft) ==> |r.messages[|r.messages| - 1].text| > 0
  {
    var text := Trim(c.draft);
    if text == [] then c
    else c.(messages := c.messages + [ChatMessage(text, FromUser)], draft := "")
  }

  /** The unread badge: hidden while open or at zero, `9+` above nine, otherwise the count. */
  function UnreadBadge(c: Chat): (badge: Option<string>)
    ensures badge.Some? <==> c.unread > 0 && !c.isOpen
    ensures badge.Some? && c.unread > 9 ==> badge.value == "9+"
    ensures badge.Some? && c.unread <= 9 ==> |badge.value| == 1 && AllDigits(badge.value) && DigitsValue(badge.value) == c.unread
  {
    if c.unread > 0 && !c.isOpen then
      if c.unread > 9 then Some("9+")
      else
        DigitsValueOfNatToString(c.unread);
        Some(NatToString(c.unread))
    else None
  }

  /** Every chat operation the screen offers. */
  datatype ChatEvent = PartnerSays(text: string) | Toggle | Close | Send | Type(text: string) | PartnerChanged

  function ChatStep(c: Chat, e: ChatEvent): Chat {
    match e
    case PartnerSays(text) => ReceivePartnerMessage(c, text)
    case Toggle => ToggleChat(c)
    case Close => CloseChat(c)
    case Send => SendMessage(c)
    case Type(text) => c.(draft := text)
    case PartnerChanged => c.(isOpen := false, unread := 0)
  }

  function ChatRun(c: Chat, es: seq<ChatEvent>): Chat
    decreases |es|
  {
    if |es| == 0 then c else ChatRun(ChatStep(c, es[0]), es[1..])
  }

  /** Every operation keeps an open chat free of unread messages, and the count only grows by partner messages. */
  lemma ChatStepKeepsInvariant(c: Chat, e: ChatEvent)
    requires ChatInvariant(c)
    ensures ChatInvariant(ChatStep(c, e))
    ensures ChatStep(c, e).unread > c.unread ==> e.PartnerSays? && !c.isOpen
  {
  }

  lemma {:induction false} ChatRunKeepsInvariant(c: Chat, es: seq<ChatEvent>)
    requires ChatInvariant(c)
    ensures ChatInvariant(ChatRun(c, es))
    decreases |es|
  {
    if |es| > 0 {
      ChatStepKeepsInvariant(c, es[0]);
      ChatRunKeepsInvariant(ChatStep(c, es[0]), es[1..]);
    }
  }

  // ------------------------------------------------------------ call-service callbacks

  /** The parts of the screen the call-service callbacks drive. */
  datatype CallView = CallView(isCallActive: bool, participantCount: int, remote: Option<Stream>, local: Option<Stream>)

  /**
   * The callbacks the screen passes when it first joins a room: a join counts a
   * participant and activates the call; a leave counts down (never below zero) and
   * drops the remote stream; `connected` activates, `disconnected`, `failed` and
   * `closed` deactivate, other states change nothing.
   */
  function OnCallEvent(v: CallView, n: CS.Notification): (r: CallView)
    ensures n.PeerJoined? ==> r == v.(participantCount := v.participantCount + 1, isCallActive := true)
    ensures n.PeerLeft? ==> r.participantCount == (if v.participantCount - 1 > 0 then v.participantCount - 1 else 0)
    ensures n.PeerLeft? ==> r.remote.None? && r.isCallActive == v.isCallActive
    ensures n.StateChanged? ==> r.participantCount == v.participantCount && r.remote == v.remote
    ensures n.StateChanged? && n.state == CS.Connected ==> r.isCallActive
    ensures n.StateChanged? && n.state in {CS.Disconnected, CS.Failed, CS.Closed} ==> !r.isCallActive
    ensures n.StateChanged? && n.state in {CS.New, CS.Connecting} ==> r == v
    ensures n.ErrorRaised? ==> r == v
  {
    match n
    case LocalStreamReady(stream) => v.(local := Some(stream))
    case RemoteStreamReady(stream) => v.(remote := Some(stream))
    case PeerJoined(_) => v.(participantCount := v.participantCount + 1, isCallActive := true)
    case PeerLeft(_) => v.(participantCount := Max0(v.participantCount - 1), remote := None)
    case StateChanged(state) =>
      if state == CS.Connected then v.(isCallActive := true)
      else if state == CS.Disconnected || state == CS.Failed || state == CS.Closed then v.(isCallActive := false)
      else v
    case ErrorRaised(_) => v
  }

  /** `Math.max(0, x)`. */
  function Max0(x: int): (r: nat)
    ensures r >= x && (r == 0 || r == x)
  {
    if x > 0 then x else 0
  }

  /**
   * The callbacks passed when joining the next partner's room: a leave only counts down
   * and leaves the remote stream; only `connected` is acted on.
   */
  function OnCallEventAfterSwipe(v: CallView, n: CS.Notification): (r: CallView)
    ensures n.PeerLeft? ==> r == v.(participantCount := Max0(v.participantCount - 1))
    ensures n.StateChanged? && n.state == CS.Connected ==> r == v.(isCallActive := true)
    ensures n.StateChanged? && n.state != CS.Connected ==> r == v
    ensures !n.PeerLeft? && !n.StateChanged? ==> r == OnCallEvent(v, n)
  {
    match n
    case PeerLeft(_) => v.(participantCount := Max0(v.participantCount - 1))
    case StateChanged(state) => if state == CS.Connected then v.(isCallActive := true) else v
    case _ => OnCallEvent(v, n)
  }

  /** Neither set of callbacks ever makes the participant count negative. */
  lemma ParticipantCountNonNegative(v: CallView, n: CS.Notification)
    requires v.participantCount >= 0
    ensures OnCallEvent(v, n).participantCount >= 0
    ensures OnCallEventAfterSwipe(v, n).participantCount >= 0
  {
  }

  /**
   * The two callback sets disagree: after moving to the next partner, a partner leaving
   * keeps the last remote stream, and a failed connection keeps the call marked active.
   */
  lemma SwipeCallbacksDiffer(v: CallView, stream: Stream, user: string)
    requires v.remote == Some(stream) && v.isCallActive
    ensures OnCallEvent(v, CS.PeerLeft(user)).remote.None?
    ensures OnCallEventAfterSwipe(v, CS.PeerLeft(user)).remote == Some(stream)
    ensures !OnCallEvent(v, CS.StateChanged(CS.Failed)).isCallActive
    ensures OnCallEventAfterSwipe(v, CS.StateChanged(CS.Failed)).isCallActive
  {
  }

  // ------------------------------------------------------------ next partner and end of call

  /** What the screen holds about the current match. */
  datatype Match = Match(
    roomId: Option<string>,
    roomUrl: Option<string>,
    partner: Option<MockUser>,
    chat: Chat,
    view: CallView,
    connecting: bool)

  /**
   * The outcome of a button: the new screen state, the call service, the room-deletion
   * request made (if any), the screen to go to (if any), and the duration reported to
   * the parent (if any).
   */
  datatype Outcome = Outcome(
    m: Match,
    service: CS.Service,
    deleteRequest: Option<string>,
    navigate: Option<Screen>,
    duration: Option<int>)

  /** The inputs the browser and `Math.random` decide for one move to the next partner. */
  datatype NextInputs = NextInputs(env: Env, partnerRandom: real, roomSuffix: string, created: FetchOutcome)

  /**
   * `if (roomId) deleteWebRTCRoom(roomId)`: a request goes out only for a non-empty room
   * id that the deletion rule does not skip, and never for a room the app made up.
   */
  function DeleteIfAny(env: Env, roomId: Option<string>): (request: Option<string>)
    ensures request.Some? <==> roomId.Some? && roomId.value != "" && DeleteWebRtcRoom(env, roomId.value).Some?
    ensures request.Some? ==> request == DeleteWebRtcRoom(env, roomId.value)
    ensures roomId.Some? && StartsWith(roomId.value, MockRoomPrefix) ==> request.None?
  {
    if roomId.Some? && roomId.value != "" then DeleteWebRtcRoom(env, roomId.value) else None
  }

  /**
   * `handleSwipeNext`. A premium user without the tokens for a match is sent to the
   * wallet and nothing else happens. Otherwise the call is left, the old room deleted
   * when there is one, a partner other than the user drawn, a new room created, the
   * duration and the chat reset, and the screen shows "connecting".
   */
  function SwipeNext(m: Match, service: CS.Service, user: Option<User>, inputs: NextInputs): (o: Outcome)
    requires 0.0 <= inputs.partnerRandom < 1.0
    ensures LowOnTokens(user) ==> o == Outcome(m, service, None, Some(WalletScreen), None)
    ensures !LowOnTokens(user) ==>
      && o.service == CS.LeaveRoom(service)
      && o.deleteRequest == DeleteIfAny(inputs.env, m.roomId)
      && o.m.roomId == Some(CreateWebRtcRoom(inputs.env, inputs.roomSuffix, inputs.created).roomId)
      && o.m.chat == EmptyChat
      && o.m.connecting
      && o.navigate.None?
      && o.duration == Some(0)
    ensures !LowOnTokens(user) && user.Some? && o.m.partner.Some? ==> o.m.partner.value.id != user.value.id
    ensures !LowOnTokens(user) ==> o.m.partner.Some?
  {
    if LowOnTokens(user) then Outcome(m, service, None, Some(WalletScreen), None)
    else
      var f := Filters(None, None, if user.Some? then Some(user.value.id) else None);
      MockPoolNeverEmpty(f);
      var partner := FindRandomUser(MockUsers, f, inputs.partnerRandom);
      var room := CreateWebRtcRoom(inputs.env, inputs.roomSuffix, inputs.created);
      var next := m.(roomId := Some(room.roomId), roomUrl := Some(room.url), partner := partner,
                     chat := EmptyChat, connecting := true);
      Outcome(next, CS.LeaveRoom(service), DeleteIfAny(inputs.env, m.roomId), None, Some(0))
  }

  /** Callbacks of the next room's `joinRoom`: all six are given. */
  const AllCallbacks := CS.Callbacks(true, true, true, true, true, true)

  /** The 1.5 s timer after `handleSwipeNext`: join the new room and stop showing "connecting". */
  function JoinNextRoom(m: Match, service: CS.Service, rtcAvailable: bool): (o: Outcome)
    requires m.roomId.Some?
    ensures o.service == CS.JoinRoom(service, m.roomId.value, AllCallbacks, rtcAvailable)
    ensures o.m == m.(connecting := false)
    ensures CS.Valid(o.service)
  {
    Outcome(m.(connecting := false), CS.JoinRoom(service, m.roomId.value, AllCallbacks, rtcAvailable), None, None, None)
  }

  /**
   * `handleSwipeStop`: leave the call, delete the room when there is one, report a zero
   * duration, clear the chat, the room and the call view, and go home.
   */
  function SwipeStop(m: Match, service: CS.Service, env: Env): (o: Outcome)
    ensures o.service == CS.LeaveRoom(service)
    ensures o.deleteRequest == DeleteIfAny(env, m.roomId)
    ensures o.m.roomId.None? && o.m.roomUrl.None? && o.m.chat == EmptyChat
    ensures o.m.view == CallView(false, 0, None, None)
    ensures o.navigate == Some(HomeScreen) && o.duration == Some(0)
    ensures o.m.partner == m.partner
  {
    var cleared := m.(roomId := None, roomUrl := None, chat := EmptyChat, view := CallView(false, 0, None, None));
    Outcome(cleared, CS.LeaveRoom(service), DeleteIfAny(env, m.roomId), Some(HomeScreen), Some(0))
  }

  /** Moving on or ending leaves the call service torn down, and a room the app made up is never deleted on the server. */
  lemma LeavingTearsDown(m: Match, service: CS.Service, user: Option<User>, inputs: NextInputs)
    requires 0.0 <= inputs.partnerRandom < 1.0
    requires m.roomId.Some? && StartsWith(m.roomId.value, MockRoomPrefix)
    ensures var o := SwipeStop(m, service, inputs.env);
      o.service.peer.None? && o.service.socket.None? && o.deleteRequest.None?
    ensures var o := SwipeNext(m, service, user, inputs);
      o.deleteRequest.None? && (!LowOnTokens(user) ==> o.service.peer.None? && o.service.socket.None?)
  {
  }

  // ------------------------------------------------------------ enabling the camera

  datatype Permission = UnknownPermission | GrantedPermission | DeniedPermission | PromptPermission

  /** The camera part of the screen: permission state, error text, modal, and the preview stream. */
  datatype Camera = Camera(permission: Permission, error: Option<string>, showModal: bool, local: Option<Stream>)

  const DeniedText := "🚫 Camera permission denied. Please click \"Allow\" when prompted, or enable camera manually in browser settings (look for 🎥 icon in address bar)."
  const NoCameraText := "📷 No camera device found. Please connect a camera and try again."
  const InUseText := "🔒 Camera is being used by another application. Please close other video apps (Zoom, Skype, etc.) and try again."
  const BasicFailedText := "❌ Camera failed even with basic settings. Please check your device."
  const CameraErrorPrefix := "❌ Camera error: "

  /** A granted stream: permission granted, error cleared, modal closed, the preview and the call service get it. */
  function CameraGranted(c: Camera, service: CS.Service, stream: Stream): (Camera, CS.Service) {
    (Camera(GrantedPermission, None, false, Some(stream)), CS.SetLocalStream(service, stream))
  }

  /**
   * `handleEnableCamera`: one request with the ideal constraints; on
   * `OverconstrainedError` exactly one more with the basic ones. Failure leaves the
   * permission, the modal, the preview and the call service alone and sets a message
   * chosen by the error's name.
   */
  function EnableCamera(c: Camera, service: CS.Service, ideal: Attempt, basic: Attempt): (r: (Camera, CS.Service))
    ensures ideal.Granted? ==> r == CameraGranted(c, service, ideal.stream)
    ensures ideal.Rejected? && ideal.error.name == Overconstrained && basic.Granted? ==> r == CameraGranted(c, service, basic.stream)
    ensures !(ideal.Granted? || (ideal.error.name == Overconstrained && basic.Granted?)) ==>
      r.1 == service && r.0 == c.(error := r.0.error) && r.0.error.Some?
    ensures ideal.Rejected? && ideal.error.name == NotAllowed ==> r.0.error == Some(DeniedText)
    ensures ideal.Rejected? && ideal.error.name == NotFound ==> r.0.error == Some(NoCameraText)
    ensures ideal.Rejected? && ideal.error.name == NotReadable ==> r.0.error == Some(InUseText)
    ensures ideal.Rejected? && ideal.error.name == Overconstrained && basic.Rejected? ==> r.0.error == Some(BasicFailedText)
    ensures ideal.Rejected? && ideal.error.name !in {NotAllowed, NotFound, NotReadable, Overconstrained} ==>
      r.0.error == Some(CameraErrorPrefix + ideal.error.message) && Contains(r.0.error.value, ideal.error.message)
  {
    match ideal
    case Granted(stream) => CameraGranted(c, service, stream)
    case Rejected(e) =>
      if e.name == NotAllowed then (c.(error := Some(DeniedText)), service)
      else if e.name == NotFound then (c.(error := Some(NoCameraText)), service)
      else if e.name == NotReadable then (c.(error := Some(InUseText)), service)
      else if e.name == Overconstrained then
        (match basic
         case Granted(stream) => CameraGranted(c, service, stream)
         case Rejected(_) => (c.(error := Some(BasicFailedText)), service))
      else
        ContainsInfix(CameraErrorPrefix, e.message, "");
        assert CameraErrorPrefix + e.message + "" == CameraErrorPrefix + e.message;
        (c.(error := Some(CameraErrorPrefix + e.message)), service)
  }

  /** How many `getUserMedia` calls `handleEnableCamera` makes: a second one only after `OverconstrainedError`. */
  function CameraRequests(ideal: Attempt): (reqs: seq<Constraints>)
    ensures 1 <= |reqs| <= 2 && reqs[0] == IdealConstraints
    ensures |reqs| == 2 <==> ideal.Rejected? && ideal.error.name == Overconstrained
    ensures |reqs| == 2 ==> reqs[1] == BasicConstraints
  {
    if ideal.Rejected? && ideal.error.name == Overconstrained then [IdealConstraints, BasicConstraints]
    else [IdealConstraints]
  }

  /** The three named failures produce three different messages, none of them the retry-failure message. */
  lemma CameraMessagesDistinct()
    ensures DeniedText != NoCameraText && DeniedText != InUseText && NoCameraText != InUseText
    ensures BasicFailedText !in {DeniedText, NoCameraText, InUseText}
  {
  }
}

=== FILE: wallet.dfy ===
/**
 * The wallet: buying tokens with rupees at 1.5 tokens per rupee, rounded down, with a
 * ₹100 minimum. `parseFloat` of the amount field is an oracle: `None` stands for `NaN`,
 * otherwise the number it read.
 */
module Wallet {
  import opened Wrappers
  import opened Types

  const MinimumAmount: real := 100.0
  const MinimumAmountMessage := "Minimum amount is ₹100"

  /** The quick-add buttons. */
  const QuickAmounts: seq<nat> := [100, 500, 1000]

  /** `Math.floor(amount * 1.5)`: the whole tokens a payment buys. */
  function TokensFor(amount: real): (t: int)
    ensures t as real <= amount * 1.5 < t as real + 1.0
  {
    (amount * 1.5).Floor
  }

  /**
   * The guard of `handleAddMoney`: `NaN`, zero and anything under ₹100 are refused.
   * The zero test is subsumed by the minimum: exactly the amounts of at least ₹100 pass.
   */
  function Accepted(parsed: Option<real>): (ok: bool)
    ensures ok <==> parsed.Some? && parsed.value >= MinimumAmount
  {
    parsed.Some? && parsed.value != 0.0 && parsed.value >= MinimumAmount
  }

  /**
   * `handleAddMoney`: a refused amount reports the minimum and changes nothing; an
   * accepted one credits exactly the tokens it buys and touches no other field. The
   * payment method only chooses a label and has no effect.
   */
  function AddMoney(user: User, parsed: Option<real>, paymentMethod: string): (r: Result<User, string>)
    ensures r.Failure? <==> !Accepted(parsed)
    ensures r.Failure? ==> r.error == MinimumAmountMessage
    ensures r.Success? ==> r.value == user.(tokens := user.tokens + TokensFor(parsed.value))
    ensures r.Success? ==> r.value.tokens >= user.tokens + 150
  {
    if !Accepted(parsed) then Failure(MinimumAmountMessage)
    else
      AtLeastMinimumTokens(parsed.value);
      Success(Merge(user, TokensPatch(user.tokens + TokensFor(parsed.value))))
  }

  /** The "You'll receive" preview: shown only for an amount of at least ₹100, with the credited count. */
  function Preview(parsed: Option<real>): (shown: Option<int>)
    ensures shown.Some? <==> parsed.Some? && parsed.value >= MinimumAmount
    ensures shown.Some? ==> shown.value == TokensFor(parsed.value)
  {
    if parsed.Some? && parsed.value >= MinimumAmount then Some(TokensFor(parsed.value)) else None
  }

  /** The token counts printed under the quick-add buttons. */
  function QuickAddLabels(): (labels: seq<int>)
    ensures |labels| == |QuickAmounts|
    ensures forall k :: 0 <= k < |labels| ==> labels[k] == TokensFor(QuickAmounts[k] as real)
  {
    seq(|QuickAmounts|, k requires 0 <= k < |QuickAmounts| => TokensFor(QuickAmounts[k] as real))
  }

  /** Every accepted payment buys at least 150 tokens. */
  lemma AtLeastMinimumTokens(amount: real)
    requires amount >= MinimumAmount
    ensures TokensFor(amount) >= 150
  {
    assert amount * 1.5 >= 150.0;
  }

  /** Paying more never buys fewer tokens. */
  lemma TokensMonotone(a: real, b: real)
    requires a <= b
    ensures TokensFor(a) <= TokensFor(b)
  {
    assert a * 1.5 <= b * 1.5;
    assert TokensFor(a) as real < TokensFor(b) as real + 1.0;
  }

  /** For whole rupees the count is `floor(3n / 2)`. */
  lemma WholeRupees(n: nat)
    ensures TokensFor(n as real) == (3 * n) / 2
  {
    var q, r := (3 * n) / 2, (3 * n) % 2;
    assert 3 * n == 2 * q + r && 0 <= r < 2;
    assert (n as real) * 1.5 == q as real + (r as real) / 2.0;
    FloorOfHalfStep(q, r);
  }

  lemma FloorOfHalfStep(q: int, r: int)
    requires 0 <= r < 2
    ensures (q as real + (r as real) / 2.0).Floor == q
  {
  }

  /** The preview shows exactly the tokens a payment of that amount would credit. */
  lemma PreviewMatchesCredit(user: User, parsed: Option<real>, paymentMethod: string)
    ensures Preview(parsed).Some? <==> AddMoney(user, parsed, paymentMethod).Success?
    ensures Preview(parsed).Some? ==>
      AddMoney(user, parsed, paymentMethod).value.tokens == user.tokens + Preview(parsed).value
  {
  }

  /** The quick-add labels read 150, 750 and 1500, and each is what that button's amount credits. */
  lemma QuickAddLabelsAreCredits(user: User)
    ensures QuickAddLabels() == [150, 750, 1500]
    ensures forall k :: 0 <= k < |QuickAmounts| ==>
      AddMoney(user, Some(QuickAmounts[k] as real), "").value.tokens == user.tokens + QuickAddLabels()[k]
  {
    WholeRupees(100);
    WholeRupees(500);
    WholeRupees(1000);
    assert QuickAddLabels()[0] == 150 && QuickAddLabels()[1] == 750 && QuickAddLabels()[2] == 1500;
  }

  /** The chosen payment method has no effect on the outcome. */
  lemma PaymentMethodIrrelevant(user: User, parsed: Option<real>, m1: string, m2: string)
    ensures AddMoney(user, parsed, m1) == AddMoney(user, parsed, m2)
  {
  }
}

=== FILE: wrappers.dfy ===
/** Option and Result, the model's stand-ins for `T | null` and for thrown errors. */
module Wrappers {

  /** `None` plays the part of `null` / `undefined`. */
  datatype Option<+T> = None | Some(value: T) {

    /** The value, or `default` when there is none (JavaScript's `x ?? default`). */
    function GetOr(default: T): T {
      match this
      case Some(v) => v
      case None => default
    }
  }

  /** `Failure` carries the message of the `Error` the source would throw. */
  datatype Result<+R, +E> = Success(value: R) | Failure(error: E)
}
